=== FILE: README.md ===
# Coral Corp Care CRM — a Dafny model of its proposal pipeline and page rules

Coral Corp Care is a small CRM for a telecom reseller. Companies get proposals
(a number of lines at a price per line). Those proposals move through status
pipelines shown as kanban boards, and once signed they become contracts. This
project models the parts of the web client and the `create-user` edge function
that decide something, as immutable Dafny datatypes and pure functions:

- **Vocabulary** (`Crm`, `Db`): the closed status and role unions, their column
  orders and label maps, the database enums and `Constants` arrays, the insert
  row shapes, and the one-to-one relation between contracts and proposals.
- **Boards** (`Board`, `LegacyBoard`, `OperationalBoard`, `SalesBoard`,
  `ProcessingBoard`): how each kanban component turns a list of proposals into
  ordered columns with card counts and `total_monthly` sums. This covers the
  excluded columns (`lost`, `cancelled`), the rule that a missing operational
  status counts as `analysis`, the six processing groups, the sales lock, the
  `canEdit` gate, the column colours and drop forwarding.
- **Dashboard** (`Dashboard`, `Funnel`, `StatusChange`): the metric cards, the
  per-status tally fed to the funnel chart and the chart's normalisation. It
  also covers the two status-change handlers, as transitions of an abstract
  store of four tables.
- **Forms and pages** (`Team`, `CreateUser`, `ContactForm`, `NewCompany`,
  `NewProposal`, `Settings`, `Companies`, `AppLayout`): role toggling and the
  member/role join, the create-user decision ladder, single-field contact
  updates, company and proposal submission with their row construction,
  password validation and role labels, the company search, and the sidebar's
  filter, highlight and role line.

Every call to the backend becomes a parameter: the rows a query would return,
or whether a write succeeds and the error text it would carry. `canEdit` and
`isManager` are boolean inputs. Number parsing and number-to-text conversion
are function parameters. Money is `real`.

The code has no transition engine, role policy or sales-to-processing
hand-off: the boards only forward drops, behind the display-level lock and the
`canEdit` gate.

## Model

| member | source | states |
|---|---|---|
| Crm.SalesOrderExact | src/types/crm.ts:239-243 | The sales order lists each of the three sales statuses exactly once, in the order `proposta_enviada`, `ag_documentacao`, `enviado_bko`. |
| Crm.ProcessingOrderEnumerates | src/types/crm.ts:271-294 | The processing order is a permutation of the 22 processing statuses: no repeats, none missing. |
| Crm.ProposalOrderEnumerates | src/types/crm.ts:296-303 | The legacy order is a permutation of the six statuses and ends with `signed`, `lost`. |
| Crm.OperationalOrderEnumerates | src/types/crm.ts:305-311 | The operational order is a permutation of the five statuses, with `cancelled` last. |
| Crm.LabelMapsTotal | src/types/crm.ts:182-269 | Every label record, `APP_ROLE_LABELS` included, has a label for every member of its union. |
| Crm.PipelineLabelsDistinct | src/types/crm.ts:189-237 | In the sales, legacy and operational label maps no two statuses share a label, so a column heading names one status. |
| Db.ToClientRole | src/integrations/supabase/types.ts:483 | Each database role maps to the client role with the same wire name, which is `seller` or `manager`. |
| Db.FromClientRole | src/integrations/supabase/types.ts:483 | A client role has a database counterpart iff it is `seller` or `manager`, and the counterpart has the same wire name. |
| Db.DbRoleNarrower | src/integrations/supabase/types.ts:483 | The database `app_role` embeds into the client union in both directions of the round trip, and some client role has no database value. |
| Db.ConstantsMatchUnions | src/integrations/supabase/types.ts:625-649 | Each `Constants` array lists the wire names of its union exactly once. The `proposal_status` and `operational_status` arrays follow the client column orders. |
| Db.ContractFor | src/integrations/supabase/types.ts:175-182 | The lookup finds a contract iff some contract references the proposal, and what it finds references it. |
| Db.InsertContract | src/integrations/supabase/types.ts:175-182 | The one-to-one key accepts a contract iff its proposal has none yet. It then appends exactly that contract; otherwise it fails with a unique violation. |
| Db.InsertContractKeepsOneToOne | src/integrations/supabase/types.ts:179 | An accepted insert keeps contracts and proposals one-to-one, and the lookup then finds the new contract. |
| Board.MakeColumn | src/components/proposals/KanbanBoard.tsx:43-67 | A column holds exactly the proposals whose key is its status, in input order. Its total is the sum of their `total_monthly`, a null counting as 0, so an empty column totals 0. |
| Board.Project | src/components/proposals/KanbanBoard.tsx:65-67 | There is one column per status, in the given order, each the column of its status. |
| Board.ProjectPartition | src/components/proposals/KanbanBoard.tsx:65-67 | With distinct statuses, the column sizes add up to the number of proposals on the board and the column totals to their summed `total_monthly`. |
| Board.PlacedExactlyOnce | src/components/proposals/KanbanBoard.tsx:43-45 | With distinct statuses, a proposal is in some column iff its key is one of them, and then in only one. |
| Board.Forward | src/components/proposals/KanbanBoard.tsx:55-61 | A drop calls the handler iff one is wired and the carried id is non-empty, passing that id and the column's status. |
| LegacyBoard.ColumnStatuses | src/components/proposals/KanbanBoard.tsx:41 | The columns are the order's statuses other than `lost`, kept in order. |
| LegacyBoard.ColumnStatusesExact | src/components/proposals/KanbanBoard.tsx:41 | They are exactly `qualified`, `diagnosis`, `sent`, `negotiation`, `signed`, with no repeats. |
| LegacyBoard.Columns | src/components/proposals/KanbanBoard.tsx:43-67 | Each column holds, in input order, exactly the proposals whose `status` is the column's. Its total is the sum of their `total_monthly`, null as 0. |
| LegacyBoard.LostShownNowhere | src/components/proposals/KanbanBoard.tsx:41-45 | A `lost` proposal is on no column. Any other proposal is on exactly one column, the one of its status. |
| LegacyBoard.ColumnsCoverOpenProposals | src/components/proposals/KanbanBoard.tsx:65-67 | The column sizes and totals add up to the count and summed totals of the proposals that are not `lost`. |
| LegacyBoard.MoveForwards | src/components/proposals/KanbanBoard.tsx:47-61 | Dropping a dragged card asks for `onStatusChange(card id, column status)` iff a handler is wired and the id is non-empty. |
| OperationalBoard.EffectiveStatus | src/components/proposals/OperationalKanban.tsx:42 | A missing operational status counts as `analysis`, and a present one counts as itself. |
| OperationalBoard.ColumnStatuses | src/components/proposals/OperationalKanban.tsx:39 | The columns are the order's statuses other than `cancelled`, kept in order. |
| OperationalBoard.ColumnStatusesExact | src/components/proposals/OperationalKanban.tsx:39 | They are exactly `analysis`, `documentation`, `activation`, `completed`, with no repeats. |
| OperationalBoard.Columns | src/components/proposals/OperationalKanban.tsx:41-65 | Each column holds, in input order, exactly the proposals whose effective status is the column's. Its total is the sum of their `total_monthly`, null as 0. |
| OperationalBoard.MissingStatusIsAnalysis | src/components/proposals/OperationalKanban.tsx:42 | A proposal without an operational status sits in the first column, `analysis`. |
| OperationalBoard.CancelledShownNowhere | src/components/proposals/OperationalKanban.tsx:39-43 | A `cancelled` proposal is on no column. Any other proposal is on exactly one column, the one of its effective status. |
| OperationalBoard.ColumnsCoverLiveProposals | src/components/proposals/OperationalKanban.tsx:63-65 | The column sizes and totals add up to the count and summed totals of the proposals that are not `cancelled`. |
| OperationalBoard.MoveForwards | src/components/proposals/OperationalKanban.tsx:45-59 | Dropping a dragged card asks for the change iff a handler is wired and the id is non-empty. |
| SalesBoard.Columns | src/components/proposals/SalesPipelineKanban.tsx:36-67 | There are always three columns, in sales order, even when empty. Each holds exactly the proposals with that sales status, in input order, and totals their `total_monthly`, null as 0. |
| SalesBoard.DragStart | src/components/proposals/SalesPipelineKanban.tsx:40-47 | A drag carries the card's id iff `canEdit` holds and the card is not locked (at `enviado_bko` with a processing status); otherwise it carries nothing. |
| SalesBoard.Drop | src/components/proposals/SalesPipelineKanban.tsx:54-61 | Without `canEdit` a drop does nothing; with it, the drop is forwarded. |
| SalesBoard.MoveIffUnlocked | src/components/proposals/SalesPipelineKanban.tsx:40-61 | A drag and drop changes the sales status iff `canEdit`, a handler and a non-empty id are all present and the card is not locked. The change names that card and column. |
| SalesBoard.ColumnsCoverSalesProposals | src/components/proposals/SalesPipelineKanban.tsx:65-67 | The three columns hold exactly the proposals with a sales status: their counts and totals add up to those proposals' count and summed totals. |
| ProcessingBoard.GroupIndex | src/components/proposals/ProcessingPipelineKanban.tsx:93-100 | Every processing status lies in some group. |
| ProcessingBoard.GroupsPartition | src/components/proposals/ProcessingPipelineKanban.tsx:93-100 | Listed group after group, the six groups hold the 22 statuses once each, so each status lies in exactly one group. |
| ProcessingBoard.GroupedOrderIsAllStatuses | src/components/proposals/ProcessingPipelineKanban.tsx:93-100 | The statuses listed group after group are the 22-entry grouped order, with no repeats. |
| ProcessingBoard.RenderGroups | src/components/proposals/ProcessingPipelineKanban.tsx:111-126 | Only groups holding a proposal are drawn, and each drawn group shows the non-empty columns of its own statuses. |
| ProcessingBoard.RenderedAreNonEmpty | src/components/proposals/ProcessingPipelineKanban.tsx:115-128 | Every drawn group has a column and every drawn column a card. Each column lies in its group and holds exactly the proposals in its status. |
| ProcessingBoard.GroupColumnsShape | src/components/proposals/ProcessingPipelineKanban.tsx:124-126 | A group draws exactly the non-empty columns of its statuses. |
| ProcessingBoard.PlacedInExactlyOneColumn | src/components/proposals/ProcessingPipelineKanban.tsx:111-128 | A proposal is on some drawn column iff it has a processing status, and then on only one: the column of that status, inside the group holding it. |
| ProcessingBoard.RenderedPlacement | src/components/proposals/ProcessingPipelineKanban.tsx:112-126 | A proposal is on some drawn column iff it has a processing status. |
| ProcessingBoard.RenderedColumnsDistinct | src/components/proposals/ProcessingPipelineKanban.tsx:124-126 | No proposal is on two drawn columns. |
| ProcessingBoard.RenderedInOwnGroup | src/components/proposals/ProcessingPipelineKanban.tsx:111-126 | The drawn column holding a proposal is the one of its status, in that status's group. |
| ProcessingBoard.FlatStatusesSubsequence | src/components/proposals/ProcessingPipelineKanban.tsx:111-126 | The drawn columns appear in group order, then status order within each group. |
| ProcessingBoard.EmptyMessageIffNothingRendered | src/components/proposals/ProcessingPipelineKanban.tsx:190-194 | The "nothing in processing" message shows iff no group is drawn. |
| ProcessingBoard.ColumnBgColorMatchesTable | src/components/proposals/ProcessingPipelineKanban.tsx:43-54 | The substring tests of `getColumnBgColor` give every status its intended tone: red for rejections and `cancelado`, green for `ativo` and `instalada`, amber for the `pendente` statuses (`validacao_pendente` included), muted otherwise. |
| ProcessingBoard.ToneClassInjective | src/components/proposals/ProcessingPipelineKanban.tsx:44-53 | The four backgrounds are distinct, so a background names its tone. |
| ProcessingBoard.BorderFallbackOnlyForUnmapped | src/components/proposals/ProcessingPipelineKanban.tsx:15-41 | The grey fallback border is given exactly to keys missing from the colour record, and every processing status has a key. |
| ProcessingBoard.EditGate | src/components/proposals/ProcessingPipelineKanban.tsx:70-90 | Without `canEdit` no drop reaches `onStatusChange`. With it, a drag and drop changes the status iff a handler is wired and the id is non-empty. |
| Funnel.MaxCount | src/components/dashboard/PipelineChart.tsx:24 | `maxCount` is at least 1 and at least every count; it is 1 or one of the counts. |
| Funnel.Find | src/components/dashboard/PipelineChart.tsx:29 | `find` yields nothing iff no item has the status; otherwise it yields the first such item. |
| Funnel.SortedData | src/components/dashboard/PipelineChart.tsx:26-35 | There is one row per open status, in pipeline order, each copied from the first matching item or zero. |
| Funnel.SortedDataShape | src/components/dashboard/PipelineChart.tsx:26-35 | There are five rows, `qualified` to `signed` and never `lost`. A missing status reads 0 and 0; a present one copies the count and value of its first item. |
| Funnel.BarWidthsWithinBounds | src/components/dashboard/PipelineChart.tsx:24-61 | Every drawn count is at most `maxCount`, so with non-negative counts every bar width lies between 0 and 100 percent. |
| Dashboard.AverageTicket | src/pages/Index.tsx:56-60 | With no signed proposal the average is 0; otherwise the average times the signed count is the signed total. |
| Dashboard.FetchMetrics | src/pages/Index.tsx:42-77 | A failed proposals query leaves the cards as they were; a successful one recomputes them. |
| Dashboard.MetricsMatchBoard | src/pages/Index.tsx:52-71 | The negotiating value is the sum of the `sent` and `negotiation` column totals. The contract count is the size of the `signed` column, with no date filter. A missing company count shows 0. |
| Dashboard.AverageTicketBounds | src/pages/Index.tsx:58-60 | With non-negative totals, the average ticket lies between 0 and the signed total. |
| Dashboard.FindAfterAdd | src/pages/Index.tsx:143-152 | One reduce step changes only what `find` yields for the proposal's own status: a fresh entry, or the old one bumped. |
| Dashboard.TallyCorrect | src/pages/Index.tsx:143-152 | For every status, the tally yields nothing when no proposal has it. Otherwise it yields an entry counting those proposals and summing their totals. |
| Dashboard.ExpectedStep | src/pages/Index.tsx:143-152 | The reference count and sum move as one reduce step does when a proposal is appended. |
| Dashboard.TallyShape | src/pages/Index.tsx:143-152 | The tally has one entry per distinct status; its counts add up to the number of proposals and its values to their summed totals. |
| Dashboard.FunnelMatchesBoard | src/pages/Index.tsx:143-240 | Each of the funnel's five rows has the size and total of the legacy board's column of the same status. |
| Dashboard.OperationalTab | src/pages/Index.tsx:227 | The operational tab receives exactly the `signed` proposals, in order. |
| Dashboard.OperationalTabShowsSigned | src/pages/Index.tsx:225-229 | Every card on the operational tab is a signed proposal, and every signed proposal that is not cancelled is on one of its columns. |
| StatusChange.FindProposal | src/pages/Index.tsx:80 | The lookup fails iff no listed proposal has the id; otherwise it yields the first listed proposal that does. |
| StatusChange.DatePart | src/pages/Index.tsx:101 | `split('T')[0]` is the longest prefix without a `T`. |
| StatusChange.SetStatus | src/pages/Index.tsx:84-87 | Rows with the id get the new status and every other row is unchanged. |
| StatusChange.ActivateCompany | src/pages/Index.tsx:105-108 | Rows with the company's id become `active` and every other row is unchanged. |
| StatusChange.HandleStatusChange | src/pages/Index.tsx:79-117 | An id not on the page changes nothing and shows nothing. A failed update changes nothing and shows the error. A successful one shows success. |
| StatusChange.SuccessfulChange | src/pages/Index.tsx:84-96 | After a successful update, every row of the proposal carries the new status and no other row changes. A history row (old status, new status, user) is appended when its insert succeeds. |
| StatusChange.SigningAddsContract | src/pages/Index.tsx:98-110 | Signing adds a contract dated today when the proposal has none and the insert succeeds, and activates the proposal's company when it has one. Contracts stay one-to-one either way. |
| StatusChange.OtherTargetsWriteNoContract | src/pages/Index.tsx:98 | Any target other than `signed` leaves contracts and companies alone. |
| StatusChange.HandleOperationalStatusChange | src/pages/Index.tsx:119-133 | A failed update changes nothing and shows the error; a successful one shows success. |
| StatusChange.OperationalChangeIsLocal | src/pages/Index.tsx:119-124 | Only `operational_status` of the rows with the id changes. Every other field and table stays as before. |
| Team.FindOption | src/pages/Team.tsx:32 | `find` yields nothing iff no option has the value; otherwise it yields the first option with that value. |
| Team.GetRoleInfo | src/pages/Team.tsx:32 | The badge is the matching option, or a fallback whose caption is the raw role in the muted colour. |
| Team.RoleBadge | src/pages/Team.tsx:24-32 | Every client role has an option. Its caption agrees with the shared label map except for `post_sale`, whose `Pós-venda` differs from the map's `Pós-Venda`. |
| Team.OptionUnique | src/pages/Team.tsx:24-30 | Option values are pairwise distinct, so the option found for a value is the one at its position. |
| Team.UnknownRoleShownRaw | src/pages/Team.tsx:32 | A role string with no option is shown raw, in the muted colour. |
| Team.ToggleRole | src/pages/Team.tsx:75-82 | The role ends up selected iff it was not. A newly selected role goes at the end, after the others in their order; deselecting keeps the rest in order. Every other role keeps its selection, and email, password and name are unchanged. |
| Team.ToggleTwiceRestores | src/pages/Team.tsx:75-82 | Toggling a role twice restores which roles are selected. Starting from an unselected role it restores the form exactly, order included. |
| Team.ToggleKeepsDistinct | src/pages/Team.tsx:78-80 | Toggling keeps the selection free of repeats. |
| Team.HandleCreate | src/pages/Team.tsx:84-115 | An empty role list sends nothing and shows an error. Otherwise the form is sent as typed. It succeeds iff the invocation returns no transport error and no non-empty `error`; success clears the form and closes the dialog, and failure keeps both. |
| Team.CreatedFormNeedsRoleAgain | src/pages/Team.tsx:86-107 | After a successful creation the cleared form cannot be submitted again: nothing is sent and the role error shows. |
| Team.RolesOf | src/pages/Team.tsx:68 | A member's roles are exactly the roles of the rows with their id. |
| Team.MembersWithRoles | src/pages/Team.tsx:63-69 | There is one member per profile, in profile order, carrying the profile's fields and its roles. |
| Team.RolesOfSplit | src/pages/Team.tsx:68 | Roles follow row order: the roles of a table split in two are those of the first part followed by those of the second, one per row. |
| CreateUser.ProfileRole | supabase/functions/create-user/index.ts:80 | The profile role is `manager` iff the requested roles include `manager`, and `seller` otherwise. |
| CreateUser.RoleInserts | supabase/functions/create-user/index.ts:86-90 | There is one `user_roles` row per requested role, in order, carrying the new user's id and the caller as creator. |
| CreateUser.Handle | supabase/functions/create-user/index.ts:9-108 | Writes happen only after the header check (present and non-empty) and the user, manager, body and creation checks all pass, and then the answer is 200 with the new user's id. |
| CreateUser.DecisionLadder | supabase/functions/create-user/index.ts:10-77 | The ladder, in order: preflight 200; missing or empty header 401; unknown user 401; non-manager 403; unreadable body 500; incomplete body 400; creation error 400 with its message. Any non-200 answer writes nothing. |
| CreateUser.ManagerCheckBeforeBody | supabase/functions/create-user/index.ts:41-50 | A non-manager is refused with 401 or 403 whatever the body holds, even an unreadable one. |
| CreateUser.EmptyHeaderRefused | supabase/functions/create-user/index.ts:19-25 | An empty `Authorization` header is falsy and answered with 401 and no writes, even for a complete request that the backend would accept. |
| CreateUser.SuccessfulCreation | supabase/functions/create-user/index.ts:79-100 | A complete request from a manager, with a non-empty header, answers 200 with the new id. It writes the derived profile role and one role row per requested role. |
| CreateUser.LaterWriteErrorsIgnored | supabase/functions/create-user/index.ts:83-100 | A failing profile update or role insert changes neither the response nor the writes attempted. |
| ContactForm.HandleChange | src/components/contacts/ContactForm.tsx:32-34 | The changed field takes the new value, every other field and the contact type stay as they were. |
| ContactForm.FormExtensionality | src/components/contacts/ContactForm.tsx:10-21 | A form is determined by its text fields, its contact type and its decision role. |
| ContactForm.ChangeIdempotent | src/components/contacts/ContactForm.tsx:32-34 | Repeating a change is the same as making it once. |
| ContactForm.ChangesCommute | src/components/contacts/ContactForm.tsx:32-34 | Changes to two different text fields commute. |
| ContactForm.EmptyContactForm | src/components/contacts/ContactForm.tsx:97-108 | Every text field is empty, the contact type is the one given, and there is no decision role. |
| ContactForm.RequiredFields | src/pages/NewCompany.tsx:34-39 | An empty form lacks its required fields. Filling name, CPF, e-mail and mobile phone is enough. |
| NewCompany.AddDocuments | src/pages/NewCompany.tsx:148 | Uploaded files are appended after the existing documents. |
| NewCompany.RemoveDocument | src/pages/NewCompany.tsx:150 | Every document with the path goes and the others stay, in order. |
| NewCompany.RemoveDocumentIdempotent | src/pages/NewCompany.tsx:150 | Removing a path twice is removing it once. |
| NewCompany.CompanyRow | src/pages/NewCompany.tsx:42-49 | The company row has status `lead` and the signed-in user as owner. An empty segment becomes null, and the estimated lines are null when empty and parsed otherwise. |
| NewCompany.ContactRow | src/pages/NewCompany.tsx:57-84 | A contact row carries the company id and the type fixed by its place. Its required fields are copied, and its empty optional fields become null. |
| NewCompany.DocumentRows | src/pages/NewCompany.tsx:91-99 | There is one document row per document, in order, with the company id and the uploader. |
| NewCompany.CompanyErrorMessage | src/pages/NewCompany.tsx:51-54 | A message containing `duplicate` is shown as `CNPJ já cadastrado`; any other is shown as is. |
| NewCompany.HandleSubmit | src/pages/NewCompany.tsx:28-110 | Success and navigation to the company list go together. Each insert is sent only after the previous one succeeded. |
| NewCompany.ValidationOrder | src/pages/NewCompany.tsx:34-39 | The legal representative is checked first, then the account manager, and either failure sends nothing. Otherwise the company row is sent. |
| NewCompany.SucceedsIffAllWritesSucceed | src/pages/NewCompany.tsx:34-104 | Submission succeeds iff both contacts are complete and every insert sent succeeds. The documents insert is sent iff there are documents and everything before it succeeded. |
| NewCompany.ContactsAndDocumentsShape | src/pages/NewCompany.tsx:57-101 | Once the company is stored, exactly two contact rows are sent, legal representative then account manager, both for the new company. There is one document row per file. |
| NewCompany.DuplicateCnpjReported | src/pages/NewCompany.tsx:51-54 | A duplicate CNPJ shows its own message, and no contacts are sent. |
| NewCompany.ContactsFailureLeavesCompany | src/pages/NewCompany.tsx:86-87 | When the contacts fail, the company row has already been sent, and no documents follow. |
| NewProposal.FindPlan | src/pages/NewProposal.tsx:35 | `find` yields nothing iff no plan has the id; otherwise it yields the first plan that does. |
| NewProposal.HandlePlanChange | src/pages/NewProposal.tsx:34-37 | The plan id is set. The price is the first matching plan's base price, or empty when none matches. The other fields are unchanged. |
| NewProposal.DisplayedTotal | src/pages/NewProposal.tsx:31 | The total is quantity times price, and 0 when either does not parse. |
| NewProposal.DisplayedTotalMatchesRow | src/pages/NewProposal.tsx:31-47 | When both inputs parse, the total shown equals the submitted row's quantity times its price. |
| NewProposal.UnknownPlanZeroesTotal | src/pages/NewProposal.tsx:31-37 | Choosing a plan that is not listed empties the price, and the total shown becomes 0. |
| NewProposal.ProposalRow | src/pages/NewProposal.tsx:42-50 | The row has status `qualified` and the signed-in user as seller. Empty plan and notes become null, and the total is left to the database. |
| NewProposal.HandleSubmit | src/pages/NewProposal.tsx:39-54 | The row is always sent. Success shows the toast and opens the proposal list; an error shows its message and stays. |
| NewProposal.NewProposalStartsAtFirstStage | src/pages/NewProposal.tsx:49 | A new proposal enters the legacy pipeline at its first stage. |
| NewProposal.SubmitGuard | src/pages/NewProposal.tsx:82 | The fresh form cannot be submitted, and picking a plan neither enables nor disables submission. |
| Settings.HandleUpdatePassword | src/pages/Settings.tsx:41-71 | The password is sent iff new and confirmation match and have at least 6 characters. Success happens iff it was sent and no error came back; success clears all three fields, and anything else keeps them. |
| Settings.PasswordLadder | src/pages/Settings.tsx:44-65 | The mismatch is reported before the length. A short matching password gets the length message, and a valid one is sent. |
| Settings.CurrentPasswordUnused | src/pages/Settings.tsx:41-71 | `currentPassword` is state with no input: it is cleared on success and never read, so neither the password sent nor the toast depends on it. |
| Settings.HandleUpdateProfile | src/pages/Settings.tsx:21-39 | Nothing happens without a signed-in user. Otherwise only `full_name` of the user's own row is written, and success shows iff no error came back. |
| Settings.ProfileWriteIndependentOfError | src/pages/Settings.tsx:21-39 | The row and column written do not depend on the backend's answer; only the toast does, and a failure's toast carries the backend's message. |
| Settings.RoleLabel | src/pages/Settings.tsx:130 | The label is the mapped label, else the raw role, else `-`. |
| Settings.LabelsNonEmpty | src/pages/Settings.tsx:73-79 | Every mapped label is non-empty, so the fallback applies only to unmapped roles. |
| Settings.RoleLabelCases | src/pages/Settings.tsx:73-79 | `manager` reads `Gerente` and `seller` reads `Vendedor`. `post_sale` has no key (the map says `pos-venda`) and shows raw. The manager label differs from the shared map's `Gestor`. |
| Companies.Filtered | src/pages/Companies.tsx:35-38 | The result keeps input order, and a company is kept iff its lowered legal name contains the lowered search or its CNPJ contains the search as typed. |
| Companies.EmptySearchKeepsAll | src/pages/Companies.tsx:35-38 | An empty search keeps every company. |
| Companies.FilteredIdempotent | src/pages/Companies.tsx:35-38 | Searching the result again with the same text changes nothing. |
| Companies.LegalNameCaseInsensitive | src/pages/Companies.tsx:36 | A company is found when its legal name holds the search at some offset, ignoring ASCII case. |
| Companies.CnpjCaseSensitive | src/pages/Companies.tsx:37 | If the search holds a character absent from the CNPJ, the company can be found only through its legal name. |
| AppLayout.VisibleItems | src/components/layout/AppLayout.tsx:96-97 | The sidebar keeps `navItems` order and shows an item iff it is not manager-only or the user is a manager. |
| AppLayout.VisibleItemsExact | src/components/layout/AppLayout.tsx:34-42 | A manager sees all seven items. Anyone else sees the first six: everything but `Equipe`. |
| AppLayout.RootActiveOnlyOnRoot | src/components/layout/AppLayout.tsx:99-100 | The dashboard item is highlighted only on `/` itself. |
| AppLayout.PrefixWithoutBoundary | src/components/layout/AppLayout.tsx:99-100 | Any other item is highlighted on every path starting with its own, with no segment boundary. |
| AppLayout.EmpresasSuffixExample | src/components/layout/AppLayout.tsx:99-100 | `/empresasX` highlights `Empresas`. |
| AppLayout.AtMostOneActive | src/components/layout/AppLayout.tsx:99-100 | The item paths are prefix-free, so at most one item is highlighted on any path. |
| AppLayout.SettingsHighlightExact | src/components/layout/AppLayout.tsx:134 | The settings button is highlighted on `/configuracoes` exactly, never on an extension of it, and while it is highlighted no list entry is. |
| AppLayout.SidebarRoleLabel | src/components/layout/AppLayout.tsx:89 | The line reads `Gestor` iff the profile role is `manager`, and `Vendedor` otherwise. |
| AppLayout.SidebarLabelAgreesForStoredRoles | src/components/layout/AppLayout.tsx:89 | For the two roles a profile can store, the sidebar agrees with the shared label map. |
| Common.FindFirst | src/pages/NewProposal.tsx:35 | `Array.find`, which the pages' plan, option, proposal and funnel lookups share: nothing iff no element satisfies the test; otherwise the first element that does. |
| Common.OrNull | src/pages/NewCompany.tsx:45 | `x \|\| null` on text: null iff the text is empty, otherwise the text itself. |

## Left out

- Backend calls (queries, inserts, updates, `rpc`, `auth.*`, `functions.invoke`, storage) are parameters: the rows returned, or success with an error text. Their semantics, row-level security and triggers are not modelled.
- Asynchrony and atomicity: the multi-step writes are modelled as one sequential outcome. Each later write's success is an input, and an interleaving with other clients is not modelled.
- The role policy that produces `canEdit` and `isManager` is not in these files; both are boolean inputs. The boards apply no transition rules of their own beyond the lock and the gate.
- Number parsing and formatting: `parseInt`, `parseFloat` and `toString` are function parameters. `NaN` is `None` only in the displayed proposal total. In the submitted proposal row and the company's `estimated_lines` the parsed values are inputs, so a `NaN` written to the database is not modelled.
- Currency and date formatting, icons, CSS classes other than the processing column and border colours, and toasts beyond their text and kind are left out.
- JavaScript string length counts UTF-16 code units and `toLowerCase` is full Unicode. Here strings are sequences of characters and lowering covers ASCII letters only.
- `created_at` and `updated_at` columns, the `proposals` query's ordering by `created_at`, and the joined `companies`/`plans` records shown on cards are left out.
- Nullable proposal fields (`sales_status`, `processing_status`, `sent_to_bko_at`) and the insert shapes' required and optional columns (`proposals`, `proposal_status_history`, `user_roles.role` as free text) are stated by the field types of `Crm.Proposal` and the `Db` insert datatypes, not by lemmas.
- Dashboard.MetricsMatchBoard: `contractsThisMonth` counts every signed proposal. The code applies no date filter despite the name, and the model follows the code.
- Crm.PipelineLabelsDistinct: distinctness of the 22 processing labels is not stated.
- The list pages (contacts, proposals, contracts, plans), the route table, the upload widget's storage I/O and the metric card rendering are not part of this model.
- Plan loading (`active` plans ordered by name) and company loading for the proposal form are inputs: the plan list is a parameter.

## Findings

No source defect is claimed. Several behaviours are probably unintended but are modelled as written:

- The settings page keys its role labels by `pos-venda`, not the stored `post_sale`, so that role shows raw. It also labels `manager` `Gerente`, where the sidebar and the shared map say `Gestor`.
- The team page labels `post_sale` `Pós-venda`, and the shared map `Pós-Venda`.
- The active-path test has no segment boundary.
- The `user_roles` and profile-role writes of `create-user` are not checked.

=== FILE: app_layout.dfy ===
/** `AppLayout`: the sidebar's navigation entries, the manager-only filter,
    the active-entry highlight and the role line under the brand. */
module AppLayout {
  import opened Common
  import opened Crm
  import opened Db

  /** One entry of `navItems` (the icon is left out). */
  datatype NavItem = NavItem(caption: string, path: string, managerOnly: bool)

  const ROOT: string := "/"
  const SETTINGS_PATH: string := "/configuracoes"

  const NAV_ITEMS: seq<NavItem> := [
    NavItem("Dashboard", "/", false),
    NavItem("Empresas", "/empresas", false),
    NavItem("Contatos", "/contatos", false),
    NavItem("Propostas", "/propostas", false),
    NavItem("Contratos", "/contratos", false),
    NavItem("Planos", "/planos", false),
    NavItem("Equipe", "/equipe", true)]

  /** `(item) => !item.managerOnly || isManager`. */
  function IsVisibleTo(isManager: bool): NavItem -> bool {
    (item: NavItem) => !item.managerOnly || isManager
  }

  /** The entries the sidebar draws, in `navItems` order. */
  function VisibleItems(isManager: bool): (items: seq<NavItem>)
    ensures IsSubsequence(items, NAV_ITEMS)
    ensures forall item :: item in items <==> item in NAV_ITEMS && (isManager || !item.managerOnly)
  {
    FilterIsSubsequence(NAV_ITEMS, IsVisibleTo(isManager));
    FilterMembership(NAV_ITEMS, IsVisibleTo(isManager));
    Filter(NAV_ITEMS, IsVisibleTo(isManager))
  }

  /** A manager sees all seven entries; anyone else sees the first six,
      everything but `Equipe`. */
  lemma VisibleItemsExact()
    ensures VisibleItems(true) == NAV_ITEMS && |NAV_ITEMS| == 7
    ensures VisibleItems(false) == NAV_ITEMS[..6]
    ensures NAV_ITEMS[6].caption == "Equipe" && NAV_ITEMS[6] !in VisibleItems(false)
  {
    FilterKeepsAll(NAV_ITEMS, IsVisibleTo(true));
    OnlyTeamHidden();
  }

  lemma OnlyTeamHidden()
    ensures Filter(NAV_ITEMS, IsVisibleTo(false)) == NAV_ITEMS[..6]
  {
    var f, o := IsVisibleTo(false), NAV_ITEMS;
    assert o == o[..6] + [o[6]];
    FilterAppend(o[..6], [o[6]], f);
    assert forall k :: 0 <= k < 6 ==> !o[k].managerOnly;
    FilterKeepsAll(o[..6], f);
    assert Filter([o[6]], f) == [] by {
      assert !f(o[6]);
      assert [o[6]][1..] == [];
    }
  }

  /** `location.pathname === item.path || (item.path !== '/' &&
      location.pathname.startsWith(item.path))`. */
  predicate IsActive(pathname: string, path: string) {
    pathname == path || (path != ROOT && IsPrefix(path, pathname))
  }

  /** The dashboard entry is highlighted only on `/` itself. */
  lemma RootActiveOnlyOnRoot(pathname: string)
    ensures IsActive(pathname, ROOT) <==> pathname == ROOT
  {
  }

  /** Any other entry is highlighted on every path that starts with its
      own, with no segment boundary: `/empresasX` highlights `/empresas`. */
  lemma PrefixWithoutBoundary(path: string, rest: string)
    requires path != ROOT
    ensures IsActive(path + rest, path)
  {
    assert (path + rest)[..|path|] == path;
  }

  lemma EmpresasSuffixExample()
    ensures IsActive("/empresasX", "/empresas")
  {
    PrefixWithoutBoundary("/empresas", "X");
  }

  /** Two paths that differ at a position within both cannot both prefix
      the same pathname. */
  lemma PrefixesDisagree(pathname: string, a: string, b: string, k: nat)
    requires k < |a| && k < |b| && a[k] != b[k]
    ensures !(IsPrefix(a, pathname) && IsPrefix(b, pathname))
  {
  }

  /** The entries' paths are prefix-free, so at most one entry is
      highlighted for any pathname. */
  lemma AtMostOneActive(pathname: string)
    ensures forall i, j :: 0 <= i < j < |NAV_ITEMS| && IsActive(pathname, NAV_ITEMS[i].path) ==>
              !IsActive(pathname, NAV_ITEMS[j].path)
  {
    var o := NAV_ITEMS;
    forall i, j | 0 <= i < j < |o| && IsActive(pathname, o[i].path)
      ensures !IsActive(pathname, o[j].path)
    {
      var a, b := o[i].path, o[j].path;
      if i == 0 {
        assert |b| > 1;
      } else {
        assert a[1] == b[1] ==> a[2] != b[2] || a[5] != b[5];
        var k := if a[1] != b[1] then 1 else if a[2] != b[2] then 2 else 5;
        PrefixesDisagree(pathname, a, b, k);
      }
    }
  }

  /** The settings button below the list: `location.pathname ===
      '/configuracoes'`, an exact match with no prefix rule. */
  predicate SettingsActive(pathname: string) {
    pathname == SETTINGS_PATH
  }

  /** The settings button is highlighted on its own path only, never on an
      extension of it, and while it is highlighted no list entry is. */
  lemma SettingsHighlightExact(pathname: string, rest: string)
    ensures SettingsActive(pathname) <==> pathname == "/configuracoes"
    ensures |rest| > 0 ==> !SettingsActive(SETTINGS_PATH + rest)
    ensures SettingsActive(pathname) ==>
              forall i :: 0 <= i < |NAV_ITEMS| ==> !IsActive(pathname, NAV_ITEMS[i].path)
  {
    assert |SETTINGS_PATH + rest| == |SETTINGS_PATH| + |rest|;
    if SettingsActive(pathname) {
      var o := NAV_ITEMS;
      forall i | 0 <= i < |o| ensures !IsActive(pathname, o[i].path) {
        var b := o[i].path;
        if i == 0 {
          assert pathname != b by { assert |pathname| != |b|; }
        } else {
          assert pathname[1] == 'c' && pathname[4] == 'f';
          assert b[1] != 'c' || b[4] != 'f';
          var k := if b[1] != 'c' then 1 else 4;
          PrefixesDisagree(pathname, pathname, b, k);
          assert IsPrefix(pathname, pathname);
        }
      }
    }
  }

  /** `profile?.role === 'manager' ? 'Gestor' : 'Vendedor'`. */
  function SidebarRoleLabel(role: Option<string>): (shown: string)
    ensures shown == "Gestor" <==> role == Some("manager")
    ensures shown == "Gestor" || shown == "Vendedor"
  {
    if role == Some("manager") then "Gestor" else "Vendedor"
  }

  /** For the two roles a profile can hold the sidebar agrees with the
      client label map; any other stored role would read `Vendedor`. */
  lemma SidebarLabelAgreesForStoredRoles(r: DbAppRole)
    ensures SidebarRoleLabel(Some(r.Name())) == APP_ROLE_LABELS[ToClientRole(r)]
  {
    assert "seller" != "manager" by { assert "seller"[0] != "manager"[0]; }
  }
}

=== FILE: board.dfy ===
/** What the four kanban boards share: a column is the proposals whose
    status (under a board-specific key) equals the column's status, in input
    order, with the sum of their monthly totals; a drop forwards the carried
    proposal id to the status-change handler. */
module Board {
  import opened Common
  import opened Crm

  /** One rendered column: its status, its cards and `totalValue`. */
  datatype Column<S> = Column(status: S, cards: seq<Proposal>, total: real)

  /** What a drop asks of the page: nothing, or `onStatusChange(id, status)`. */
  datatype Call<S> = NoCall | Change(proposalId: string, status: S)

  /** `p => key(p) === s`. A board's key is the status field it reads. */
  function InColumn<S(==)>(key: Proposal -> Option<S>, s: S): Proposal -> bool {
    p => key(p) == Some(s)
  }

  /** `p => key(p)` is one of `statuses`: the card lies on the board. */
  function OnBoard<S(==)>(key: Proposal -> Option<S>, statuses: seq<S>): Proposal -> bool {
    p => key(p).Some? && key(p).value in statuses
  }

  /** `getProposalsByStatus(s)` together with its `totalValue`. */
  function MakeColumn<S(==)>(ps: seq<Proposal>, key: Proposal -> Option<S>, s: S): (c: Column<S>)
    ensures c.status == s
    ensures IsSubsequence(c.cards, ps)
    ensures forall p :: p in c.cards <==> p in ps && key(p) == Some(s)
    ensures c.cards == Filter(ps, InColumn(key, s))
    ensures c.total == Sum(c.cards, TotalOrZero)
    ensures |c.cards| == 0 ==> c.total == 0.0
  {
    var cards := Filter(ps, InColumn(key, s));
    FilterIsSubsequence(ps, InColumn(key, s));
    FilterMembership(ps, InColumn(key, s));
    Column(s, cards, Sum(cards, TotalOrZero))
  }

  /** `statuses.map(s => column(s))`. */
  function Project<S(==)>(ps: seq<Proposal>, key: Proposal -> Option<S>, statuses: seq<S>): (cols: seq<Column<S>>)
    ensures |cols| == |statuses|
    ensures forall i :: 0 <= i < |cols| ==> cols[i] == MakeColumn(ps, key, statuses[i])
  {
    if |statuses| == 0 then []
    else [MakeColumn(ps, key, statuses[0])] + Project(ps, key, statuses[1..])
  }

  /** The number of cards over all columns. */
  function CardCount<S>(cols: seq<Column<S>>): nat {
    if |cols| == 0 then 0 else |cols[0].cards| + CardCount(cols[1..])
  }

  /** The sum of the column totals. */
  function ValueTotal<S>(cols: seq<Column<S>>): real {
    if |cols| == 0 then 0.0 else cols[0].total + ValueTotal(cols[1..])
  }

  /** With distinct column statuses the columns partition the cards on the
      board: their sizes add up to the number of such proposals and their
      totals to the sum of those proposals' totals. */
  lemma {:induction false} ProjectPartition<S>(ps: seq<Proposal>, key: Proposal -> Option<S>, statuses: seq<S>)
    requires Distinct(statuses)
    ensures CardCount(Project(ps, key, statuses)) == |Filter(ps, OnBoard(key, statuses))|
    ensures ValueTotal(Project(ps, key, statuses)) == Sum(Filter(ps, OnBoard(key, statuses)), TotalOrZero)
  {
    if |statuses| == 0 {
      assert Filter(ps, OnBoard(key, statuses)) == [] by {
        FilterMembership(ps, OnBoard(key, statuses));
      }
    } else {
      var s, rest := statuses[0], statuses[1..];
      DistinctTail(statuses);
      ProjectPartition(ps, key, rest);
      var cols := Project(ps, key, statuses);
      assert cols[0] == MakeColumn(ps, key, s);
      assert cols[1..] == Project(ps, key, rest);
      forall i | 0 <= i < |ps|
        ensures OnBoard(key, statuses)(ps[i]) == (InColumn(key, s)(ps[i]) || OnBoard(key, rest)(ps[i]))
        ensures !(InColumn(key, s)(ps[i]) && OnBoard(key, rest)(ps[i]))
      {
        OnBoardSplit(key, statuses, ps[i]);
      }
      FilterSplit(ps, OnBoard(key, statuses), InColumn(key, s), OnBoard(key, rest), TotalOrZero);
    }
  }

  lemma DistinctTail<S>(statuses: seq<S>)
    requires Distinct(statuses) && |statuses| > 0
    ensures Distinct(statuses[1..])
  {
    var rest := statuses[1..];
    forall i, j | 0 <= i < j < |rest| ensures rest[i] != rest[j] {
      assert rest[i] == statuses[i + 1] && rest[j] == statuses[j + 1];
    }
  }

  /** A card is on a board of distinct statuses iff it is in the first
      column or on the board of the others, and not both. */
  lemma OnBoardSplit<S>(key: Proposal -> Option<S>, statuses: seq<S>, p: Proposal)
    requires Distinct(statuses) && |statuses| > 0
    ensures OnBoard(key, statuses)(p) == (InColumn(key, statuses[0])(p) || OnBoard(key, statuses[1..])(p))
    ensures !(InColumn(key, statuses[0])(p) && OnBoard(key, statuses[1..])(p))
  {
    var rest := statuses[1..];
    assert statuses == [statuses[0]] + rest;
    if key(p).Some? && key(p).value in rest {
      var k :| 0 <= k < |rest| && rest[k] == key(p).value;
      assert statuses[k + 1] == rest[k];
    }
  }

  /** With distinct column statuses a proposal is in some column iff its key
      is one of the statuses, and then in only one. */
  lemma PlacedExactlyOnce<S>(ps: seq<Proposal>, key: Proposal -> Option<S>, statuses: seq<S>, p: Proposal)
    requires Distinct(statuses) && p in ps
    ensures (exists i :: 0 <= i < |statuses| && p in Project(ps, key, statuses)[i].cards) <==>
              key(p).Some? && key(p).value in statuses
    ensures forall i, j ::
              (0 <= i < |statuses| && 0 <= j < |statuses| &&
               p in Project(ps, key, statuses)[i].cards && p in Project(ps, key, statuses)[j].cards) ==> i == j
  {
    var cols := Project(ps, key, statuses);
    if key(p).Some? && key(p).value in statuses {
      var i :| 0 <= i < |statuses| && statuses[i] == key(p).value;
      assert p in cols[i].cards;
    }
  }

  /** The shared tail of every `handleDrop`: forward the carried id and the
      column's status when a handler is present and the id is non-empty. */
  function Forward<S>(hasHandler: bool, carriedId: string, status: S): (c: Call<S>)
    ensures c.Change? <==> hasHandler && |carriedId| > 0
    ensures c.Change? ==> c.proposalId == carriedId && c.status == status
  {
    if hasHandler && carriedId != "" then Change(carriedId, status) else NoCall
  }
}

=== FILE: common.dfy ===
/** Shared vocabulary of the model: optional values, error results,
    order-preserving filtering, weighted sums, and the three string
    operations the pages rely on (`startsWith`, `includes`, `toLowerCase`). */
module Common {

  /** A value that may be absent: a nullable column, an optional field, or
      the result of `find` that found nothing. */
  datatype Option<+T> = None | Some(value: T) {

    /** `x || d` and `x?.y || d` for a value that is never falsy when present. */
    function GetOr(default: T): T {
      match this
      case Some(v) => v
      case None => default
    }
  }

  /** A value, or the message of the error that replaced it. */
  datatype Result<+T> = Ok(value: T) | Err(message: string)

  /* ---------------------------------------------------------------------- */
  /* Filtering                                                               */
  /* ---------------------------------------------------------------------- */

  /** `xs.filter(f)`: the elements of `xs` satisfying `f`, in their order. */
  function Filter<T(!new)>(xs: seq<T>, f: T -> bool): (r: seq<T>)
    ensures |r| <= |xs|
    ensures forall i :: 0 <= i < |r| ==> f(r[i])
  {
    if |xs| == 0 then []
    else (if f(xs[0]) then [xs[0]] else []) + Filter(xs[1..], f)
  }

  /** `a` can be obtained from `b` by deleting elements (order kept). */
  predicate IsSubsequence<T(==)>(a: seq<T>, b: seq<T>)
    decreases |b|
  {
    if |a| == 0 then true
    else if |b| == 0 then false
    else (a[0] == b[0] && IsSubsequence(a[1..], b[1..])) || IsSubsequence(a, b[1..])
  }

  /** No element occurs twice. */
  ghost predicate Distinct<T>(xs: seq<T>) {
    forall i, j :: 0 <= i < j < |xs| ==> xs[i] != xs[j]
  }

  /** `xs` lists every value of `T` exactly once: the shape of the
      `*_ORDER` arrays over closed string unions. */
  ghost predicate Enumerates<T(!new)>(xs: seq<T>) {
    Distinct(xs) && forall x: T :: x in xs
  }

  lemma {:induction false} FilterIsSubsequence<T(!new)>(xs: seq<T>, f: T -> bool)
    ensures IsSubsequence(Filter(xs, f), xs)
  {
    if |xs| > 0 {
      FilterIsSubsequence(xs[1..], f);
      var r := Filter(xs, f);
      if f(xs[0]) {
        assert r == [xs[0]] + Filter(xs[1..], f);
        assert r[1..] == Filter(xs[1..], f);
      } else {
        assert r == Filter(xs[1..], f);
      }
    }
  }

  lemma {:induction false} FilterIdempotent<T(!new)>(xs: seq<T>, f: T -> bool)
    ensures Filter(Filter(xs, f), f) == Filter(xs, f)
  {
    if |xs| > 0 {
      FilterIdempotent(xs[1..], f);
      var rest := Filter(xs[1..], f);
      if f(xs[0]) {
        var r := [xs[0]] + rest;
        assert Filter(xs, f) == r;
        assert r[1..] == rest;
        assert Filter(r, f) == [xs[0]] + Filter(rest, f);
      } else {
        assert Filter(xs, f) == rest;
      }
    }
  }

  /** The kept elements are exactly the elements of `xs` satisfying `f`. */
  lemma {:induction false} FilterMembership<T(!new)>(xs: seq<T>, f: T -> bool)
    ensures forall x :: x in Filter(xs, f) <==> x in xs && f(x)
  {
    if |xs| > 0 {
      FilterMembership(xs[1..], f);
      assert xs == [xs[0]] + xs[1..];
    }
  }

  /** Filtering with a predicate that keeps everything is the identity. */
  lemma {:induction false} FilterKeepsAll<T(!new)>(xs: seq<T>, f: T -> bool)
    requires forall i :: 0 <= i < |xs| ==> f(xs[i])
    ensures Filter(xs, f) == xs
  {
    if |xs| > 0 {
      FilterKeepsAll(xs[1..], f);
      assert xs == [xs[0]] + xs[1..];
    }
  }

  /** Two predicates that agree on the elements of `xs` filter it alike. */
  lemma {:induction false} FilterCongruent<T(!new)>(xs: seq<T>, f: T -> bool, g: T -> bool)
    requires forall i :: 0 <= i < |xs| ==> f(xs[i]) == g(xs[i])
    ensures Filter(xs, f) == Filter(xs, g)
  {
    if |xs| > 0 {
      FilterCongruent(xs[1..], f, g);
    }
  }

  /** Filtering distributes over concatenation. */
  lemma {:induction false} FilterAppend<T(!new)>(xs: seq<T>, ys: seq<T>, f: T -> bool)
    ensures Filter(xs + ys, f) == Filter(xs, f) + Filter(ys, f)
  {
    if |xs| == 0 {
      assert xs + ys == ys;
    } else {
      var x, tail := xs[0], xs[1..];
      FilterAppend(tail, ys, f);
      assert (xs + ys)[0] == x && (xs + ys)[1..] == tail + ys;
      var head := if f(x) then [x] else [];
      assert Filter(xs + ys, f) == head + Filter(tail + ys, f);
      assert Filter(xs, f) == head + Filter(tail, f);
    }
  }

  /* ---------------------------------------------------------------------- */
  /* Sums                                                                    */
  /* ---------------------------------------------------------------------- */

  /** A one-element sequence is kept whole or dropped whole. */
  lemma FilterSingleton<T(!new)>(x: T, f: T -> bool)
    ensures Filter([x], f) == if f(x) then [x] else []
  {
    assert [x][1..] == [];
  }

  /** `xs.find(f)`: the first element satisfying `f`, if there is one. */
  function FindFirst<T>(xs: seq<T>, f: T -> bool): (r: Option<T>)
    ensures r.None? <==> forall i :: 0 <= i < |xs| ==> !f(xs[i])
    ensures r.Some? ==> exists i :: 0 <= i < |xs| && xs[i] == r.value &&
                          forall j :: 0 <= j < i ==> !f(xs[j])
    ensures r.Some? ==> f(r.value)
  {
    if |xs| == 0 then None
    else if f(xs[0]) then Some(xs[0])
    else
      var rest := FindFirst(xs[1..], f);
      assert forall i :: 1 <= i < |xs| ==> xs[i] == xs[1..][i - 1];
      assert rest.Some? ==> exists i :: 0 <= i < |xs| && xs[i] == rest.value &&
                              forall j :: 0 <= j < i ==> !f(xs[j]) by {
        if rest.Some? {
          var k :| 0 <= k < |xs[1..]| && xs[1..][k] == rest.value &&
                   forall j :: 0 <= j < k ==> !f(xs[1..][j]);
          forall j | 0 <= j < k + 1 ensures !f(xs[j]) {
            if j > 0 { assert xs[j] == xs[1..][j - 1]; }
          }
        }
      }
      rest
  }

  /** `xs.reduce((sum, x) => sum + w(x), 0)`. */
  function Sum<T>(xs: seq<T>, w: T -> real): real {
    if |xs| == 0 then 0.0 else w(xs[0]) + Sum(xs[1..], w)
  }

  lemma {:induction false} SumAppend<T>(xs: seq<T>, ys: seq<T>, w: T -> real)
    ensures Sum(xs + ys, w) == Sum(xs, w) + Sum(ys, w)
  {
    if |xs| == 0 {
      assert xs + ys == ys;
    } else {
      SumAppend(xs[1..], ys, w);
      assert (xs + ys)[1..] == xs[1..] + ys;
    }
  }

  lemma {:induction false} SumNonNegative<T>(xs: seq<T>, w: T -> real)
    requires forall i :: 0 <= i < |xs| ==> w(xs[i]) >= 0.0
    ensures Sum(xs, w) >= 0.0
  {
    if |xs| > 0 {
      SumNonNegative(xs[1..], w);
    }
  }

  /** Splitting a filter into two disjoint parts splits its length and its
      sum: the arithmetic behind "the columns add up to the board". */
  lemma {:induction false} FilterSplit<T(!new)>(xs: seq<T>, whole: T -> bool, left: T -> bool, right: T -> bool, w: T -> real)
    requires forall i :: 0 <= i < |xs| ==>
               whole(xs[i]) == (left(xs[i]) || right(xs[i])) && !(left(xs[i]) && right(xs[i]))
    ensures |Filter(xs, whole)| == |Filter(xs, left)| + |Filter(xs, right)|
    ensures Sum(Filter(xs, whole), w) == Sum(Filter(xs, left), w) + Sum(Filter(xs, right), w)
  {
    if |xs| > 0 {
      var x, tail := xs[0], xs[1..];
      FilterSplit(tail, whole, left, right, w);
      var W, L, R := Filter(tail, whole), Filter(tail, left), Filter(tail, right);
      if left(x) {
        assert Filter(xs, left) == [x] + L && Filter(xs, whole) == [x] + W;
        assert Filter(xs, right) == R;
        assert ([x] + L)[1..] == L && ([x] + W)[1..] == W;
        assert Sum([x] + L, w) == w(x) + Sum(L, w);
        assert Sum([x] + W, w) == w(x) + Sum(W, w);
      } else if right(x) {
        assert Filter(xs, right) == [x] + R && Filter(xs, whole) == [x] + W;
        assert Filter(xs, left) == L;
        assert ([x] + R)[1..] == R && ([x] + W)[1..] == W;
        assert Sum([x] + R, w) == w(x) + Sum(R, w);
        assert Sum([x] + W, w) == w(x) + Sum(W, w);
      } else {
        assert Filter(xs, whole) == W && Filter(xs, left) == L && Filter(xs, right) == R;
      }
    }
  }

  /* ---------------------------------------------------------------------- */
  /* Strings                                                                 */
  /* ---------------------------------------------------------------------- */

  /** `s.startsWith(p)`. */
  predicate IsPrefix(p: string, s: string) {
    |p| <= |s| && s[..|p|] == p
  }

  /** `s.includes(sub)`: `sub` occurs at some position of `s`. */
  predicate Contains(s: string, sub: string) {
    exists k :: 0 <= k <= |s| && IsPrefix(sub, s[k..])
  }

  /** The empty string occurs in every string. */
  lemma ContainsEmpty(s: string)
    ensures Contains(s, "")
  {
    assert IsPrefix("", s[0..]);
  }

  /** `sub` occurring at offset `k` of `s` is contained in `s`. */
  lemma ContainsAt(s: string, sub: string, k: nat)
    requires k + |sub| <= |s| && s[k..k + |sub|] == sub
    ensures Contains(s, sub)
  {
    assert s[k..][..|sub|] == s[k..k + |sub|];
    assert IsPrefix(sub, s[k..]);
  }

  /** A string cannot contain a pattern holding a character it lacks. */
  lemma NotContainsMissingChar(s: string, sub: string, j: nat)
    requires j < |sub|
    requires forall i :: 0 <= i < |s| ==> s[i] != sub[j]
    ensures !Contains(s, sub)
  {
    forall k | 0 <= k <= |s| ensures !IsPrefix(sub, s[k..]) {
      if |sub| <= |s[k..]| {
        assert s[k..][..|sub|][j] == s[k + j];
      }
    }
  }

  /** `s || null`: an empty text becomes a missing value. */
  function OrNull(s: string): (r: Option<string>)
    ensures r.None? <==> |s| == 0
    ensures r.Some? ==> r.value == s
  {
    if |s| == 0 then None else Some(s)
  }

  /** One character of `toLowerCase`, restricted to ASCII letters. */
  function LowerChar(c: char): char {
    if 'A' <= c <= 'Z' then (c as int + 32) as char else c
  }

  /** `s.toLowerCase()` on the ASCII range. */
  function ToLower(s: string): (r: string)
    ensures |r| == |s|
    ensures forall i :: 0 <= i < |s| ==> r[i] == LowerChar(s[i])
  {
    seq(|s|, i requires 0 <= i < |s| => LowerChar(s[i]))
  }
}

=== FILE: companies.dfy ===
/** `Companies`: the search box over the company list. The legal name is
    matched case-insensitively, the CNPJ as typed. */
module Companies {
  import opened Common
  import opened Crm

  /** `c.legal_name.toLowerCase().includes(search.toLowerCase()) ||
      c.cnpj.includes(search)`. */
  predicate Matches(c: Company, search: string) {
    Contains(ToLower(c.legalName), ToLower(search)) || Contains(c.cnpj, search)
  }

  /** The row filter for one search text. */
  function MatchesSearch(search: string): Company -> bool {
    c => Matches(c, search)
  }

  /** `filtered`: the matching companies, in the fetched order. */
  function Filtered(cs: seq<Company>, search: string): (r: seq<Company>)
    ensures IsSubsequence(r, cs)
    ensures forall c :: c in r <==> c in cs && Matches(c, search)
  {
    FilterIsSubsequence(cs, MatchesSearch(search));
    FilterMembership(cs, MatchesSearch(search));
    Filter(cs, MatchesSearch(search))
  }

  /** An empty search box shows every company. */
  lemma EmptySearchKeepsAll(cs: seq<Company>)
    ensures Filtered(cs, "") == cs
  {
    forall c | c in cs ensures MatchesSearch("")(c) {
      ContainsEmpty(c.cnpj);
    }
    FilterKeepsAll(cs, MatchesSearch(""));
  }

  /** Searching the result again with the same text changes nothing. */
  lemma FilteredIdempotent(cs: seq<Company>, search: string)
    ensures Filtered(Filtered(cs, search), search) == Filtered(cs, search)
  {
    FilterIdempotent(cs, MatchesSearch(search));
  }

  /** The legal name is matched without regard to ASCII case: a company
      whose lowered name holds the lowered search text is found whatever
      the case of either. */
  lemma LegalNameCaseInsensitive(c: Company, search: string, k: nat)
    requires k + |search| <= |c.legalName|
    requires forall i :: 0 <= i < |search| ==> LowerChar(c.legalName[k + i]) == LowerChar(search[i])
    ensures Matches(c, search)
  {
    var name, s := ToLower(c.legalName), ToLower(search);
    assert name[k..k + |s|] == s by {
      forall i | 0 <= i < |s| ensures name[k..k + |s|][i] == s[i] {
        assert name[k..k + |s|][i] == name[k + i];
      }
    }
    ContainsAt(name, s, k);
  }

  /** The CNPJ is matched as typed: a search holding a character the CNPJ
      lacks finds the company only through its legal name. */
  lemma CnpjCaseSensitive(c: Company, search: string, j: nat)
    requires j < |search|
    requires forall i :: 0 <= i < |c.cnpj| ==> c.cnpj[i] != search[j]
    ensures Matches(c, search) <==> Contains(ToLower(c.legalName), ToLower(search))
  {
    NotContainsMissingChar(c.cnpj, search, j);
  }
}

=== FILE: contact_form.dfy ===
/** `ContactForm`: the editable contact record and its single-field change
    handler. */
module ContactForm {
  import opened Common
  import opened Crm

  /** `ContactFormData`; the empty decision role `''` is `None`. */
  datatype ContactFormData = ContactFormData(
    name: string,
    cpf: string,
    rg: string,
    email: string,
    mobilePhone: string,
    landlinePhone: string,
    birthDate: string,
    role: string,
    contactType: ContactType,
    decisionRole: Option<DecisionRole>)

  /** The text inputs of the form. */
  datatype TextField = NameField | CpfField | RgField | EmailField | MobilePhoneField
                     | LandlinePhoneField | BirthDateField | RoleField

  /** What the inputs can send to `handleChange`: a text field's new value,
      or a decision role picked in the select (whose options are exactly the
      decision roles). */
  datatype Change = SetText(field: TextField, value: string) | SetDecisionRole(decisionRole: DecisionRole)

  /** The value of a text field. */
  function Get(c: ContactFormData, f: TextField): string {
    match f
    case NameField => c.name
    case CpfField => c.cpf
    case RgField => c.rg
    case EmailField => c.email
    case MobilePhoneField => c.mobilePhone
    case LandlinePhoneField => c.landlinePhone
    case BirthDateField => c.birthDate
    case RoleField => c.role
  }

  /** `handleChange(field, value)`: `{ ...contact, [field]: value }`. */
  function HandleChange(c: ContactFormData, change: Change): (r: ContactFormData)
    ensures r.contactType == c.contactType
    ensures change.SetText? ==> Get(r, change.field) == change.value && r.decisionRole == c.decisionRole
    ensures change.SetText? ==> forall f :: f != change.field ==> Get(r, f) == Get(c, f)
    ensures change.SetDecisionRole? ==> r.decisionRole == Some(change.decisionRole)
    ensures change.SetDecisionRole? ==> forall f :: Get(r, f) == Get(c, f)
  {
    match change
    case SetDecisionRole(d) => c.(decisionRole := Some(d))
    case SetText(f, v) =>
      match f
      case NameField => c.(name := v)
      case CpfField => c.(cpf := v)
      case RgField => c.(rg := v)
      case EmailField => c.(email := v)
      case MobilePhoneField => c.(mobilePhone := v)
      case LandlinePhoneField => c.(landlinePhone := v)
      case BirthDateField => c.(birthDate := v)
      case RoleField => c.(role := v)
  }

  /** A form is determined by its text fields, its type and its decision
      role. */
  lemma FormExtensionality(a: ContactFormData, b: ContactFormData)
    requires forall f :: Get(a, f) == Get(b, f)
    requires a.contactType == b.contactType && a.decisionRole == b.decisionRole
    ensures a == b
  {
    assert Get(a, NameField) == Get(b, NameField) && Get(a, CpfField) == Get(b, CpfField);
    assert Get(a, RgField) == Get(b, RgField) && Get(a, EmailField) == Get(b, EmailField);
    assert Get(a, MobilePhoneField) == Get(b, MobilePhoneField);
    assert Get(a, LandlinePhoneField) == Get(b, LandlinePhoneField);
    assert Get(a, BirthDateField) == Get(b, BirthDateField) && Get(a, RoleField) == Get(b, RoleField);
  }

  /** Repeating a change is the same as making it once. */
  lemma ChangeIdempotent(c: ContactFormData, change: Change)
    ensures HandleChange(HandleChange(c, change), change) == HandleChange(c, change)
  {
    FormExtensionality(HandleChange(HandleChange(c, change), change), HandleChange(c, change));
  }

  /** Changes to two different text fields commute. */
  lemma ChangesCommute(c: ContactFormData, f: TextField, v: string, g: TextField, w: string)
    requires f != g
    ensures HandleChange(HandleChange(c, SetText(f, v)), SetText(g, w)) ==
            HandleChange(HandleChange(c, SetText(g, w)), SetText(f, v))
  {
    FormExtensionality(HandleChange(HandleChange(c, SetText(f, v)), SetText(g, w)),
                       HandleChange(HandleChange(c, SetText(g, w)), SetText(f, v)));
  }

  /** `emptyContactForm(contactType)`. */
  function EmptyContactForm(t: ContactType): (c: ContactFormData)
    ensures forall f :: Get(c, f) == ""
    ensures c.contactType == t && c.decisionRole.None?
  {
    ContactFormData("", "", "", "", "", "", "", "", t, None)
  }

  /** The fields marked `*`: name, CPF, e-mail and mobile phone. */
  predicate HasRequired(c: ContactFormData) {
    |c.name| > 0 && |c.cpf| > 0 && |c.email| > 0 && |c.mobilePhone| > 0
  }

  /** An empty form lacks its required fields, and filling exactly the four
      of them supplies them. */
  lemma RequiredFields(t: ContactType, name: string, cpf: string, email: string, mobile: string)
    ensures !HasRequired(EmptyContactForm(t))
    ensures |name| > 0 && |cpf| > 0 && |email| > 0 && |mobile| > 0 ==>
              HasRequired(HandleChange(HandleChange(HandleChange(HandleChange(EmptyContactForm(t),
                SetText(NameField, name)), SetText(CpfField, cpf)), SetText(EmailField, email)),
                SetText(MobilePhoneField, mobile)))
  {
    var e := EmptyContactForm(t);
    assert Get(e, NameField) == "";
  }
}

=== FILE: create_user.dfy ===
/** The `create-user` edge function: a manager-only endpoint that creates
    an auth user, sets the profile role and records one `user_roles` row per
    requested role. Every backend answer (the caller's identity, the
    `is_manager` check, the body, the creation) is an input. */
module CreateUser {
  import opened Common
  import opened Db

  /** The JSON body fields; a missing field is `None`. */
  datatype Body = Body(
    email: Option<string>,
    password: Option<string>,
    fullName: Option<string>,
    roles: Option<seq<string>>)

  /** The request: its HTTP verb, its `Authorization` header, and its body as
      `req.json()` parses it (an error message when parsing throws). */
  datatype Request = Request(verb: string, authorization: Option<string>, body: Result<Body>)

  /** What the backend answers along the way: the id of the user the token
      resolves to, the `is_manager` RPC, the `createUser` outcome (the new id
      or the error message), and the errors of the profile update and of the
      role insert. */
  datatype Backend = Backend(currentUser: Option<string>, isManager: bool, created: Result<string>,
                             profileError: Option<string>, rolesError: Option<string>)

  /** A response: the CORS preflight text, an error payload or the created
      user's id. */
  datatype Payload = PreflightOk | ErrorPayload(error: string) | UserPayload(userId: string)

  datatype Response = Response(status: int, payload: Payload)

  /** The writes the function performs after creating the user. */
  datatype Writes = Writes(profileRole: Option<string>, roleInserts: seq<UserRoleInsert>)

  const NO_WRITES: Writes := Writes(None, [])
  const UNAUTHORIZED: string := "Unauthorized"
  const MANAGERS_ONLY: string := "Apenas gestores podem criar usuários"
  const INCOMPLETE: string := "Dados incompletos"

  /** JavaScript truthiness of an optional string. */
  predicate Present(s: Option<string>) {
    s.Some? && |s.value| > 0
  }

  /** The body check: every text field non-empty and at least one role. */
  predicate Complete(b: Body) {
    Present(b.email) && Present(b.password) && Present(b.fullName) && b.roles.Some? && |b.roles.value| > 0
  }

  /** `roles.includes("manager") ? "manager" : "seller"`. */
  function ProfileRole(roles: seq<string>): (r: string)
    ensures r == "manager" <==> "manager" in roles
    ensures r == "manager" || r == "seller"
  {
    if "manager" in roles then "manager" else "seller"
  }

  /** `roles.map((role) => ({ user_id, role, created_by }))`. */
  function RoleInserts(newUserId: string, roles: seq<string>, callerId: string): (rows: seq<UserRoleInsert>)
    ensures |rows| == |roles|
    ensures forall i :: 0 <= i < |roles| ==> rows[i] == UserRoleInsert(newUserId, roles[i], Some(callerId))
  {
    if |roles| == 0 then []
    else [UserRoleInsert(newUserId, roles[0], Some(callerId))] + RoleInserts(newUserId, roles[1..], callerId)
  }

  /** The handler. The errors of the profile update and of the role insert
      are never read (the latter is only logged). */
  function Handle(req: Request, backend: Backend): (r: (Response, Writes))
    ensures r.1 != NO_WRITES ==>
              Present(req.authorization) && backend.currentUser.Some? && backend.isManager &&
              req.body.Ok? && Complete(req.body.value) && backend.created.Ok?
    ensures r.1 != NO_WRITES ==> r.0 == Response(200, UserPayload(backend.created.value))
  {
    if req.verb == "OPTIONS" then (Response(200, PreflightOk), NO_WRITES)
    else if !Present(req.authorization) then (Response(401, ErrorPayload(UNAUTHORIZED)), NO_WRITES)
    else if backend.currentUser.None? then (Response(401, ErrorPayload(UNAUTHORIZED)), NO_WRITES)
    else if !backend.isManager then (Response(403, ErrorPayload(MANAGERS_ONLY)), NO_WRITES)
    else match req.body
      case Err(message) => (Response(500, ErrorPayload(message)), NO_WRITES)
      case Ok(body) =>
        if !Complete(body) then (Response(400, ErrorPayload(INCOMPLETE)), NO_WRITES)
        else match backend.created
          case Err(message) => (Response(400, ErrorPayload(message)), NO_WRITES)
          case Ok(newId) =>
            var roles := body.roles.value;
            (Response(200, UserPayload(newId)),
             Writes(Some(ProfileRole(roles)), RoleInserts(newId, roles, backend.currentUser.value)))
  }

  /** The decision ladder, in order: preflight, missing header, unknown
      user, non-manager, unparsable body, incomplete body, creation error;
      each rejection writes nothing. */
  lemma DecisionLadder(req: Request, backend: Backend)
    ensures req.verb == "OPTIONS" ==> Handle(req, backend) == (Response(200, PreflightOk), NO_WRITES)
    ensures req.verb != "OPTIONS" && !Present(req.authorization) ==>
              Handle(req, backend) == (Response(401, ErrorPayload(UNAUTHORIZED)), NO_WRITES)
    ensures req.verb != "OPTIONS" && Present(req.authorization) && backend.currentUser.None? ==>
              Handle(req, backend) == (Response(401, ErrorPayload(UNAUTHORIZED)), NO_WRITES)
    ensures req.verb != "OPTIONS" && Present(req.authorization) && backend.currentUser.Some? && !backend.isManager ==>
              Handle(req, backend) == (Response(403, ErrorPayload(MANAGERS_ONLY)), NO_WRITES)
    ensures req.verb != "OPTIONS" && Present(req.authorization) && backend.currentUser.Some? && backend.isManager &&
            req.body.Err? ==>
              Handle(req, backend) == (Response(500, ErrorPayload(req.body.message)), NO_WRITES)
    ensures req.verb != "OPTIONS" && Present(req.authorization) && backend.currentUser.Some? && backend.isManager &&
            req.body.Ok? && !Complete(req.body.value) ==>
              Handle(req, backend) == (Response(400, ErrorPayload(INCOMPLETE)), NO_WRITES)
    ensures req.verb != "OPTIONS" && Present(req.authorization) && backend.currentUser.Some? && backend.isManager &&
            req.body.Ok? && Complete(req.body.value) && backend.created.Err? ==>
              Handle(req, backend) == (Response(400, ErrorPayload(backend.created.message)), NO_WRITES)
    ensures Handle(req, backend).0.status != 200 ==> Handle(req, backend).1 == NO_WRITES
  {
  }

  /** `if (!authHeader)`: an empty header is falsy, so it is refused like
      a missing one, however complete the request and willing the backend. */
  lemma EmptyHeaderRefused()
    ensures var req := Request("POST", Some(""), Ok(Body(Some("a@b"), Some("secret"), Some("Ana"), Some(["seller"]))));
            Handle(req, Backend(Some("caller"), true, Ok("new"), None, None)) ==
              (Response(401, ErrorPayload(UNAUTHORIZED)), NO_WRITES)
  {
  }

  /** A non-manager is refused whatever the body says, even an unparsable
      one: the manager check comes first. */
  lemma ManagerCheckBeforeBody(req: Request, other: Result<Body>, backend: Backend)
    requires req.verb != "OPTIONS" && Present(req.authorization) && !backend.isManager
    ensures Handle(req, backend) == Handle(req.(body := other), backend)
    ensures Handle(req, backend).0.status == 401 || Handle(req, backend).0.status == 403
  {
  }

  /** A successful creation answers 200 with the new id, writes the profile
      role (`manager` exactly when it was requested, `seller` otherwise)
      and one role row per requested role, for the new user, created by the
      caller, in request order. */
  lemma SuccessfulCreation(req: Request, backend: Backend)
    requires req.verb != "OPTIONS" && Present(req.authorization) && backend.currentUser.Some? && backend.isManager
    requires req.body.Ok? && Complete(req.body.value) && backend.created.Ok?
    ensures Handle(req, backend).0 == Response(200, UserPayload(backend.created.value))
    ensures Handle(req, backend).1.profileRole == Some(if "manager" in req.body.value.roles.value then "manager" else "seller")
    ensures |Handle(req, backend).1.roleInserts| == |req.body.value.roles.value|
    ensures forall i :: 0 <= i < |req.body.value.roles.value| ==>
              Handle(req, backend).1.roleInserts[i] ==
                UserRoleInsert(backend.created.value, req.body.value.roles.value[i], Some(backend.currentUser.value))
  {
  }

  /** A failing profile update or role insert changes neither the response
      nor the rows sent: the 200 answer stands. */
  lemma LaterWriteErrorsIgnored(req: Request, backend: Backend, profileError: Option<string>, rolesError: Option<string>)
    ensures Handle(req, backend.(profileError := profileError, rolesError := rolesError)) == Handle(req, backend)
  {
  }
}

=== FILE: crm.dfy ===
/** The CRM vocabulary of `src/types/crm.ts`: the closed string unions as
    datatypes (each with the string it is persisted as), the client-side
    record shapes, the display-label records and the column-order arrays. */
module Crm {
  import opened Common

  /* ---------------------------------------------------------------------- */
  /* Closed vocabularies                                                     */
  /* ---------------------------------------------------------------------- */

  datatype AppRole = Seller | Manager | Supervisor | PostSale | Backoffice {
    function Name(): string {
      match this
      case Seller => "seller"
      case Manager => "manager"
      case Supervisor => "supervisor"
      case PostSale => "post_sale"
      case Backoffice => "backoffice"
    }
  }

  datatype DecisionRole = DecisionMaker | Influencer | Financial {
    function Name(): string {
      match this
      case DecisionMaker => "decision_maker"
      case Influencer => "influencer"
      case Financial => "financial"
    }
  }

  datatype ContactType = LegalRepresentative | AccountManager | Cedent {
    function Name(): string {
      match this
      case LegalRepresentative => "legal_representative"
      case AccountManager => "account_manager"
      case Cedent => "cedent"
    }
  }

  /** `CompanyStatus`; the union member `'proposal'` is `InProposal` here so
      that it does not read as the `Proposal` record. */
  datatype CompanyStatus = Lead | InProposal | Active | Lost {
    function Name(): string {
      match this
      case Lead => "lead"
      case InProposal => "proposal"
      case Active => "active"
      case Lost => "lost"
    }
  }

  /** The legacy single-pipeline status. */
  datatype ProposalStatus = Qualified | Diagnosis | Sent | Negotiation | Signed | Lost {
    function Name(): string {
      match this
      case Qualified => "qualified"
      case Diagnosis => "diagnosis"
      case Sent => "sent"
      case Negotiation => "negotiation"
      case Signed => "signed"
      case Lost => "lost"
    }
  }

  datatype OperationalStatus = Analysis | Documentation | Activation | Completed | Cancelled {
    function Name(): string {
      match this
      case Analysis => "analysis"
      case Documentation => "documentation"
      case Activation => "activation"
      case Completed => "completed"
      case Cancelled => "cancelled"
    }
  }

  datatype RequestType = Portability | NewLine | Migration {
    function Name(): string {
      match this
      case Portability => "portability"
      case NewLine => "new_line"
      case Migration => "migration"
    }
  }

  /** The sales pipeline (prospecting view). */
  datatype SalesStatus = PropostaEnviada | AgDocumentacao | EnviadoBko {
    function Name(): string {
      match this
      case PropostaEnviada => "proposta_enviada"
      case AgDocumentacao => "ag_documentacao"
      case EnviadoBko => "enviado_bko"
    }
  }

  /** The processing pipeline (back-office view), in the union's order. */
  datatype ProcessingStatus =
    | TrocaCarteira | GerarContrato | AuditoriaAssinatura | PendenteInput
    | ChamadoAberto | PendenteEstoque | Ativo | Instalada | Logistica
    | PendenteInstalacao | AgPortabilidade | AgAutorizacaoSms | AnaliseCredito
    | AgValidacao | ValidacaoPendente | PendenteAssinatura | ReprovadoBko
    | ParaCorrecao | ReprovadoTrocaCarteira | CreditoReprovado | Cancelado
    | AgFaturamento
  {
    function Name(): string {
      match this
      case TrocaCarteira => "troca_carteira"
      case GerarContrato => "gerar_contrato"
      case AuditoriaAssinatura => "auditoria_assinatura"
      case PendenteInput => "pendente_input"
      case ChamadoAberto => "chamado_aberto"
      case PendenteEstoque => "pendente_estoque"
      case Ativo => "ativo"
      case Instalada => "instalada"
      case Logistica => "logistica"
      case PendenteInstalacao => "pendente_instalacao"
      case AgPortabilidade => "ag_portabilidade"
      case AgAutorizacaoSms => "ag_autorizacao_sms"
      case AnaliseCredito => "analise_credito"
      case AgValidacao => "ag_validacao"
      case ValidacaoPendente => "validacao_pendente"
      case PendenteAssinatura => "pendente_assinatura"
      case ReprovadoBko => "reprovado_bko"
      case ParaCorrecao => "para_correcao"
      case ReprovadoTrocaCarteira => "reprovado_troca_carteira"
      case CreditoReprovado => "credito_reprovado"
      case Cancelado => "cancelado"
      case AgFaturamento => "ag_faturamento"
    }
  }

  /* ---------------------------------------------------------------------- */
  /* Records                                                                 */
  /* ---------------------------------------------------------------------- */

  datatype Company = Company(
    id: string,
    legalName: string,
    cnpj: string,
    segment: Option<string>,
    estimatedLines: Option<int>,
    status: CompanyStatus,
    ownerId: Option<string>)

  datatype Plan = Plan(
    id: string,
    name: string,
    basePrice: real,
    notes: Option<string>,
    active: bool,
    requestType: Option<RequestType>)

  /** A proposal with both pipeline models: the legacy `status`, the
      operational status, and the newer sales / processing statuses, each of
      the last three nullable. `totalMonthly` is nullable as in the stored
      row. */
  datatype Proposal = Proposal(
    id: string,
    companyId: string,
    planId: Option<string>,
    sellerId: Option<string>,
    lineQuantity: int,
    pricePerLine: real,
    totalMonthly: Option<real>,
    status: ProposalStatus,
    notes: Option<string>,
    sentAt: Option<string>,
    product: Option<string>,
    requestType: Option<RequestType>,
    donorCarrier: Option<string>,
    operationalStatus: Option<OperationalStatus>,
    salesStatus: Option<SalesStatus>,
    processingStatus: Option<ProcessingStatus>,
    sentToBkoAt: Option<string>)

  /** `p.total_monthly || 0`: the amount a card contributes to a column. */
  function TotalOrZero(p: Proposal): real {
    p.totalMonthly.GetOr(0.0)
  }

  /* ---------------------------------------------------------------------- */
  /* Display labels (`Record<Union, string>`)                                */
  /* ---------------------------------------------------------------------- */

  const COMPANY_STATUS_LABELS: map<CompanyStatus, string> := map[
    Lead := "Lead", InProposal := "Em Proposta", Active := "Cliente Ativo",
    CompanyStatus.Lost := "Perdido"]

  const PROPOSAL_STATUS_LABELS: map<ProposalStatus, string> := map[
    Qualified := "Lead Qualificado", Diagnosis := "Diagnóstico",
    Sent := "Proposta Enviada", Negotiation := "Negociação",
    Signed := "Contrato Assinado", ProposalStatus.Lost := "Perdido"]

  const OPERATIONAL_STATUS_LABELS: map<OperationalStatus, string> := map[
    Analysis := "Análise", Documentation := "Documentação",
    Activation := "Ativação", Completed := "Concluído", Cancelled := "Cancelado"]

  const REQUEST_TYPE_LABELS: map<RequestType, string> := map[
    Portability := "Portabilidade", NewLine := "Nova Linha", Migration := "Migração"]

  const CONTACT_TYPE_LABELS: map<ContactType, string> := map[
    LegalRepresentative := "Responsável Legal", AccountManager := "Gestor da Conta",
    Cedent := "Cedente"]

  const DECISION_ROLE_LABELS: map<DecisionRole, string> := map[
    DecisionMaker := "Decisor", Influencer := "Influenciador", Financial := "Financeiro"]

  const APP_ROLE_LABELS: map<AppRole, string> := map[
    Seller := "Vendedor", Manager := "Gestor", Supervisor := "Supervisor",
    PostSale := "Pós-Venda", Backoffice := "Backoffice"]

  const SALES_PIPELINE_LABELS: map<SalesStatus, string> := map[
    PropostaEnviada := "Proposta Enviada", AgDocumentacao := "AG Documentação",
    EnviadoBko := "Enviado Bko"]

  const PROCESSING_PIPELINE_LABELS: map<ProcessingStatus, string> := map[
    TrocaCarteira := "Troca de Carteira",
    GerarContrato := "Gerar Contrato",
    AuditoriaAssinatura := "Auditoria / Assinatura",
    PendenteInput := "Pendente Input",
    ChamadoAberto := "Chamado Aberto",
    PendenteEstoque := "Pendente Estoque",
    Ativo := "Ativo",
    Instalada := "Instalada",
    Logistica := "Logística",
    PendenteInstalacao := "Pendente Instalação",
    AgPortabilidade := "AG Portabilidade",
    AgAutorizacaoSms := "AG Autorização SMS-Cliente",
    AnaliseCredito := "Análise de Crédito",
    AgValidacao := "Ag Validação",
    ValidacaoPendente := "Validação Pendente",
    PendenteAssinatura := "Pendente Assinatura",
    ReprovadoBko := "Reprovado Bko",
    ParaCorrecao := "Para Correção",
    ReprovadoTrocaCarteira := "Reprovado Troca de Carteira",
    CreditoReprovado := "Crédito Reprovado",
    Cancelado := "Cancelado",
    AgFaturamento := "AG Faturamento"]

  /* ---------------------------------------------------------------------- */
  /* Column orders                                                           */
  /* ---------------------------------------------------------------------- */

  const SALES_PIPELINE_ORDER: seq<SalesStatus> := [PropostaEnviada, AgDocumentacao, EnviadoBko]

  const PROCESSING_PIPELINE_ORDER: seq<ProcessingStatus> := [
    TrocaCarteira, GerarContrato, AuditoriaAssinatura, PendenteInput,
    ChamadoAberto, PendenteEstoque, Ativo, Instalada, Logistica,
    PendenteInstalacao, AgPortabilidade, AgAutorizacaoSms, AnaliseCredito,
    AgValidacao, ValidacaoPendente, PendenteAssinatura, ReprovadoBko,
    ParaCorrecao, ReprovadoTrocaCarteira, CreditoReprovado, Cancelado,
    AgFaturamento]

  const PROPOSAL_STATUS_ORDER: seq<ProposalStatus> := [
    Qualified, Diagnosis, Sent, Negotiation, Signed, ProposalStatus.Lost]

  const OPERATIONAL_STATUS_ORDER: seq<OperationalStatus> := [
    Analysis, Documentation, Activation, Completed, Cancelled]

  /** The sales order lists its three statuses once each, hand-off last. */
  lemma SalesOrderExact()
    ensures Enumerates(SALES_PIPELINE_ORDER)
    ensures SALES_PIPELINE_ORDER[0] == PropostaEnviada
    ensures SALES_PIPELINE_ORDER[1] == AgDocumentacao
    ensures SALES_PIPELINE_ORDER[2] == EnviadoBko
  {
    forall s: SalesStatus ensures s in SALES_PIPELINE_ORDER {
      match s
      case PropostaEnviada => case AgDocumentacao => case EnviadoBko =>
    }
  }

  /** The processing order is a permutation of the 22 processing statuses. */
  lemma ProcessingOrderEnumerates()
    ensures Enumerates(PROCESSING_PIPELINE_ORDER)
    ensures |PROCESSING_PIPELINE_ORDER| == 22
  {
    ProcessingOrderDistinct();
    ProcessingOrderCovers();
  }

  /** The position of a status in `PROCESSING_PIPELINE_ORDER`. */
  function PipelinePosition(s: ProcessingStatus): nat {
    match s
    case TrocaCarteira => 0
    case GerarContrato => 1
    case AuditoriaAssinatura => 2
    case PendenteInput => 3
    case ChamadoAberto => 4
    case PendenteEstoque => 5
    case Ativo => 6
    case Instalada => 7
    case Logistica => 8
    case PendenteInstalacao => 9
    case AgPortabilidade => 10
    case AgAutorizacaoSms => 11
    case AnaliseCredito => 12
    case AgValidacao => 13
    case ValidacaoPendente => 14
    case PendenteAssinatura => 15
    case ReprovadoBko => 16
    case ParaCorrecao => 17
    case ReprovadoTrocaCarteira => 18
    case CreditoReprovado => 19
    case Cancelado => 20
    case AgFaturamento => 21
  }

  lemma ProcessingOrderDistinct()
    ensures Distinct(PROCESSING_PIPELINE_ORDER)
  {
    forall i | 0 <= i < |PROCESSING_PIPELINE_ORDER|
      ensures PipelinePosition(PROCESSING_PIPELINE_ORDER[i]) == i {
    }
  }

  lemma ProcessingOrderCovers()
    ensures forall s: ProcessingStatus :: s in PROCESSING_PIPELINE_ORDER
  {
    forall s: ProcessingStatus ensures s in PROCESSING_PIPELINE_ORDER {
      PositionInOrder(s);
      assert PROCESSING_PIPELINE_ORDER[PipelinePosition(s)] == s;
    }
  }

  lemma PositionInOrder(s: ProcessingStatus)
    ensures PipelinePosition(s) < |PROCESSING_PIPELINE_ORDER|
    ensures PROCESSING_PIPELINE_ORDER[PipelinePosition(s)] == s
  {
    var o := PROCESSING_PIPELINE_ORDER;
    if PipelinePosition(s) < 11 {
      assert o[..11] == [TrocaCarteira, GerarContrato, AuditoriaAssinatura, PendenteInput,
                         ChamadoAberto, PendenteEstoque, Ativo, Instalada, Logistica,
                         PendenteInstalacao, AgPortabilidade];
      assert o[PipelinePosition(s)] == o[..11][PipelinePosition(s)];
    } else {
      assert o[11..] == [AgAutorizacaoSms, AnaliseCredito, AgValidacao, ValidacaoPendente,
                         PendenteAssinatura, ReprovadoBko, ParaCorrecao, ReprovadoTrocaCarteira,
                         CreditoReprovado, Cancelado, AgFaturamento];
      assert o[PipelinePosition(s)] == o[11..][PipelinePosition(s) - 11];
    }
  }

  /** The legacy order is a permutation of the six statuses ending
      `signed`, `lost`. */
  lemma ProposalOrderEnumerates()
    ensures Enumerates(PROPOSAL_STATUS_ORDER)
    ensures |PROPOSAL_STATUS_ORDER| == 6
    ensures PROPOSAL_STATUS_ORDER[4] == Signed && PROPOSAL_STATUS_ORDER[5] == ProposalStatus.Lost
  {
    forall s: ProposalStatus ensures s in PROPOSAL_STATUS_ORDER {
      match s
      case Qualified => case Diagnosis => case Sent => case Negotiation =>
      case Signed => case Lost =>
    }
  }

  /** The operational order is a permutation of the five statuses, with
      `cancelled` last. */
  lemma OperationalOrderEnumerates()
    ensures Enumerates(OPERATIONAL_STATUS_ORDER)
    ensures |OPERATIONAL_STATUS_ORDER| == 5
    ensures OPERATIONAL_STATUS_ORDER[4] == Cancelled
  {
    forall s: OperationalStatus ensures s in OPERATIONAL_STATUS_ORDER {
      match s
      case Analysis => case Documentation => case Activation => case Completed =>
      case Cancelled =>
    }
  }

  /** Every label record is total over its union: each value has a label. */
  lemma LabelMapsTotal()
    ensures forall s: CompanyStatus :: s in COMPANY_STATUS_LABELS
    ensures forall s: ProposalStatus :: s in PROPOSAL_STATUS_LABELS
    ensures forall s: OperationalStatus :: s in OPERATIONAL_STATUS_LABELS
    ensures forall s: RequestType :: s in REQUEST_TYPE_LABELS
    ensures forall s: ContactType :: s in CONTACT_TYPE_LABELS
    ensures forall s: DecisionRole :: s in DECISION_ROLE_LABELS
    ensures forall s: AppRole :: s in APP_ROLE_LABELS
    ensures forall s: SalesStatus :: s in SALES_PIPELINE_LABELS
    ensures forall s: ProcessingStatus :: s in PROCESSING_PIPELINE_LABELS
  {
    SmallLabelMapsTotal();
    ProcessingLabelsTotal();
  }

  lemma SmallLabelMapsTotal()
    ensures forall s: CompanyStatus :: s in COMPANY_STATUS_LABELS
    ensures forall s: ProposalStatus :: s in PROPOSAL_STATUS_LABELS
    ensures forall s: OperationalStatus :: s in OPERATIONAL_STATUS_LABELS
    ensures forall s: RequestType :: s in REQUEST_TYPE_LABELS
    ensures forall s: ContactType :: s in CONTACT_TYPE_LABELS
    ensures forall s: DecisionRole :: s in DECISION_ROLE_LABELS
    ensures forall s: AppRole :: s in APP_ROLE_LABELS
    ensures forall s: SalesStatus :: s in SALES_PIPELINE_LABELS
  {
    forall s: CompanyStatus ensures s in COMPANY_STATUS_LABELS {
      match s
      case Lead => case InProposal => case Active => case Lost =>
    }
    forall s: ProposalStatus ensures s in PROPOSAL_STATUS_LABELS {
      match s
      case Qualified => case Diagnosis => case Sent => case Negotiation =>
      case Signed => case Lost =>
    }
    forall s: OperationalStatus ensures s in OPERATIONAL_STATUS_LABELS {
      match s
      case Analysis => case Documentation => case Activation => case Completed =>
      case Cancelled =>
    }
    forall s: RequestType ensures s in REQUEST_TYPE_LABELS {
      match s
      case Portability => case NewLine => case Migration =>
    }
    forall s: ContactType ensures s in CONTACT_TYPE_LABELS {
      match s
      case LegalRepresentative => case AccountManager => case Cedent =>
    }
    forall s: DecisionRole ensures s in DECISION_ROLE_LABELS {
      match s
      case DecisionMaker => case Influencer => case Financial =>
    }
    forall s: AppRole ensures s in APP_ROLE_LABELS {
      match s
      case Seller => case Manager => case Supervisor => case PostSale => case Backoffice =>
    }
    forall s: SalesStatus ensures s in SALES_PIPELINE_LABELS {
      match s
      case PropostaEnviada => case AgDocumentacao => case EnviadoBko =>
    }
  }

  lemma ProcessingLabelsTotal()
    ensures forall s: ProcessingStatus :: s in PROCESSING_PIPELINE_LABELS
  {
    forall s: ProcessingStatus ensures s in PROCESSING_PIPELINE_LABELS {
      match s
      case TrocaCarteira => case GerarContrato => case AuditoriaAssinatura =>
      case PendenteInput => case ChamadoAberto => case PendenteEstoque =>
      case Ativo => case Instalada => case Logistica => case PendenteInstalacao =>
      case AgPortabilidade => case AgAutorizacaoSms => case AnaliseCredito =>
      case AgValidacao => case ValidacaoPendente => case PendenteAssinatura =>
      case ReprovadoBko => case ParaCorrecao => case ReprovadoTrocaCarteira =>
      case CreditoReprovado => case Cancelado => case AgFaturamento =>
    }
  }

  /** Within each pipeline no two statuses share a label, so a column
      heading identifies its status. */
  lemma PipelineLabelsDistinct()
    ensures forall a, b :: a in SALES_PIPELINE_LABELS && b in SALES_PIPELINE_LABELS && a != b ==>
              SALES_PIPELINE_LABELS[a] != SALES_PIPELINE_LABELS[b]
    ensures forall a, b :: a in PROPOSAL_STATUS_LABELS && b in PROPOSAL_STATUS_LABELS && a != b ==>
              PROPOSAL_STATUS_LABELS[a] != PROPOSAL_STATUS_LABELS[b]
    ensures forall a, b :: a in OPERATIONAL_STATUS_LABELS && b in OPERATIONAL_STATUS_LABELS && a != b ==>
              OPERATIONAL_STATUS_LABELS[a] != OPERATIONAL_STATUS_LABELS[b]
  {
  }
}

=== FILE: dashboard.dfy ===
/** The read side of the dashboard page (`Index`): the four metric cards
    computed in `fetchData`, the per-status tally fed to the funnel, and the
    proposals handed to the operational tab. */
module Dashboard {
  import opened Common
  import opened Crm
  import opened Board
  import LegacyBoard
  import OperationalBoard
  import opened Funnel

  /* ---------------------------------------------------------------------- */
  /* Metric cards                                                            */
  /* ---------------------------------------------------------------------- */

  /** `['sent', 'negotiation'].includes(p.status)`. */
  predicate IsNegotiating(p: Proposal) {
    p.status == Sent || p.status == Negotiation
  }

  /** `p.status === 'signed'`. */
  predicate IsSigned(p: Proposal) {
    p.status == Signed
  }

  datatype Metrics = Metrics(
    totalNegotiating: real,
    contractsThisMonth: nat,
    avgTicket: real,
    totalCompanies: int)

  /** The initial state of the cards, before any fetch succeeds. */
  const INITIAL_METRICS: Metrics := Metrics(0.0, 0, 0.0, 0)

  /** The signed total divided by the number of signed proposals, guarded
      against an empty set. */
  function AverageTicket(ps: seq<Proposal>): (avg: real)
    ensures |Filter(ps, IsSigned)| == 0 ==> avg == 0.0
    ensures |Filter(ps, IsSigned)| > 0 ==>
              avg * |Filter(ps, IsSigned)| as real == Sum(Filter(ps, IsSigned), TotalOrZero)
  {
    var signed := Filter(ps, IsSigned);
    if |signed| > 0 then Sum(signed, TotalOrZero) / |signed| as real else 0.0
  }

  /** `setMetrics` after both queries: `companiesCount` is `null` when the
      count query fails. */
  function ComputeMetrics(ps: seq<Proposal>, companiesCount: Option<int>): Metrics {
    Metrics(
      Sum(Filter(ps, IsNegotiating), TotalOrZero),
      |Filter(ps, IsSigned)|,
      AverageTicket(ps),
      companiesCount.GetOr(0))
  }

  /** `fetchData`: a failed proposals query leaves the cards as they were. */
  function FetchMetrics(previous: Metrics, proposals: Result<seq<Proposal>>, companiesCount: Option<int>): (m: Metrics)
    ensures proposals.Err? ==> m == previous
    ensures proposals.Ok? ==> m == ComputeMetrics(proposals.value, companiesCount)
  {
    match proposals
    case Err(_) => previous
    case Ok(ps) => ComputeMetrics(ps, companiesCount)
  }

  /** The metric cards agree with the legacy board: the negotiating value
      is the sum of the `sent` and `negotiation` column totals, the contract
      count is the size of the `signed` column, and a missing company count
      shows as 0. */
  lemma MetricsMatchBoard(ps: seq<Proposal>, companiesCount: Option<int>)
    ensures ComputeMetrics(ps, companiesCount).totalNegotiating ==
              LegacyBoard.Columns(ps)[2].total + LegacyBoard.Columns(ps)[3].total
    ensures LegacyBoard.Columns(ps)[4].status == Signed
    ensures ComputeMetrics(ps, companiesCount).contractsThisMonth == |LegacyBoard.Columns(ps)[4].cards|
    ensures companiesCount.None? ==> ComputeMetrics(ps, companiesCount).totalCompanies == 0
  {
    LegacyBoard.ColumnStatusesExact();
    var key := LegacyBoard.LegacyKey;
    FilterSplit(ps, IsNegotiating, InColumn(key, Sent), InColumn(key, Negotiation), TotalOrZero);
    FilterCongruent(ps, IsSigned, InColumn(key, Signed));
  }

  /** With non-negative totals the average ticket is non-negative and at
      most the signed total. */
  lemma AverageTicketBounds(ps: seq<Proposal>)
    requires forall i :: 0 <= i < |ps| ==> TotalOrZero(ps[i]) >= 0.0
    ensures 0.0 <= AverageTicket(ps) <= Sum(Filter(ps, IsSigned), TotalOrZero)
  {
    var signed := Filter(ps, IsSigned);
    FilterMembership(ps, IsSigned);
    forall i | 0 <= i < |signed| ensures TotalOrZero(signed[i]) >= 0.0 {
      assert signed[i] in ps;
    }
    SumNonNegative(signed, TotalOrZero);
    if |signed| > 0 {
      QuotientBounds(Sum(signed, TotalOrZero), |signed| as real);
    }
  }

  lemma QuotientBounds(total: real, n: real)
    requires total >= 0.0 && n >= 1.0
    ensures 0.0 <= total / n <= total
  {
    var q := total / n;
    assert q * n == total;
    assert q >= 0.0;
    assert q * n >= q * 1.0;
  }

  /* ---------------------------------------------------------------------- */
  /* The funnel tally                                                        */
  /* ---------------------------------------------------------------------- */

  /** One step of the `reduce`: bump the first entry of `p`'s status, or
      append a fresh entry for it. */
  function AddToTally(acc: seq<Entry>, p: Proposal): (r: seq<Entry>)
    ensures |r| == |acc| || |r| == |acc| + 1
  {
    if |acc| == 0 then [Entry(p.status, 1, TotalOrZero(p))]
    else if acc[0].status == p.status then
      [Entry(acc[0].status, acc[0].count + 1, acc[0].value + TotalOrZero(p))] + acc[1..]
    else [acc[0]] + AddToTally(acc[1..], p)
  }

  /** `pipelineData`: `proposals.reduce(AddToTally, [])`. */
  function Tally(ps: seq<Proposal>): seq<Entry> {
    if |ps| == 0 then [] else AddToTally(Tally(ps[..|ps| - 1]), ps[|ps| - 1])
  }

  /** The number of proposals with status `s`. */
  function CountWith(ps: seq<Proposal>, s: ProposalStatus): nat {
    |Filter(ps, InColumn(LegacyBoard.LegacyKey, s))|
  }

  /** The summed totals of the proposals with status `s`. */
  function ValueWith(ps: seq<Proposal>, s: ProposalStatus): real {
    Sum(Filter(ps, InColumn(LegacyBoard.LegacyKey, s)), TotalOrZero)
  }

  /** What the funnel finds for `s` in a tally of `ps`: nothing when no
      proposal has that status, otherwise their number and summed totals. */
  function Expected(ps: seq<Proposal>, s: ProposalStatus): Option<Entry> {
    if CountWith(ps, s) == 0 then None else Some(Entry(s, CountWith(ps, s), ValueWith(ps, s)))
  }

  /** What `find` yields for `s` after one step of the reduce, given what
      it yielded before. */
  function Bumped(before: Option<Entry>, p: Proposal, s: ProposalStatus): Option<Entry> {
    if s != p.status then before
    else match before
      case None => Some(Entry(s, 1, TotalOrZero(p)))
      case Some(e) => Some(Entry(s, e.count + 1, e.value + TotalOrZero(p)))
  }

  /** Adding a proposal changes only what is found for its own status. */
  lemma {:induction false} FindAfterAdd(acc: seq<Entry>, p: Proposal, s: ProposalStatus)
    ensures Find(AddToTally(acc, p), s) == Bumped(Find(acc, s), p, s)
  {
    var r := AddToTally(acc, p);
    if |acc| == 0 {
      assert r == [Entry(p.status, 1, TotalOrZero(p))];
    } else if acc[0].status == p.status {
      assert r[0] == Entry(acc[0].status, acc[0].count + 1, acc[0].value + TotalOrZero(p));
      assert r[1..] == acc[1..];
      FindStep(r, s);
      FindStep(acc, s);
    } else {
      FindAfterAdd(acc[1..], p, s);
      assert r[0] == acc[0] && r[1..] == AddToTally(acc[1..], p);
      FindStep(r, s);
      FindStep(acc, s);
    }
  }

  /** `find` on a non-empty list, one element at a time. */
  lemma FindStep(data: seq<Entry>, s: ProposalStatus)
    requires |data| > 0
    ensures Find(data, s) == if data[0].status == s then Some(data[0]) else Find(data[1..], s)
  {
  }

  /** The funnel tally is exact: for every status, `find` yields nothing
      when no proposal has it, and otherwise an entry counting those
      proposals and summing their totals. */
  lemma {:induction false} TallyCorrect(ps: seq<Proposal>, s: ProposalStatus)
    ensures Find(Tally(ps), s) == Expected(ps, s)
  {
    if |ps| > 0 {
      TallyCorrect(ps[..|ps| - 1], s);
      FindAfterLast(ps, s);
      ExpectedAfterLast(ps, s);
    }
  }

  /** `find` on the tally of `ps`, in terms of the tally of all but the last
      proposal. */
  lemma FindAfterLast(ps: seq<Proposal>, s: ProposalStatus)
    requires |ps| > 0
    ensures Find(Tally(ps), s) == Bumped(Find(Tally(ps[..|ps| - 1]), s), ps[|ps| - 1], s)
  {
    FindAfterAdd(Tally(ps[..|ps| - 1]), ps[|ps| - 1], s);
  }

  /** The reference tally of `ps`, in terms of that of all but the last
      proposal. */
  lemma ExpectedAfterLast(ps: seq<Proposal>, s: ProposalStatus)
    requires |ps| > 0
    ensures Expected(ps, s) == Bumped(Expected(ps[..|ps| - 1], s), ps[|ps| - 1], s)
  {
    var init, p := ps[..|ps| - 1], ps[|ps| - 1];
    assert init + [p] == ps;
    ExpectedStep(init, p, s);
  }

  /** The reference tally moves like `find` does when a proposal is added. */
  lemma ExpectedStep(init: seq<Proposal>, p: Proposal, s: ProposalStatus)
    ensures Expected(init + [p], s) == Bumped(Expected(init, s), p, s)
  {
    var f := InColumn(LegacyBoard.LegacyKey, s);
    var kept := Filter(init, f);
    FilterAppend(init, [p], f);
    FilterSingleton(p, f);
    assert f(p) == (p.status == s) by {
      assert LegacyBoard.LegacyKey(p) == Some(p.status);
    }
    if p.status == s {
      SumAppend(kept, [p], TotalOrZero);
      assert Sum([p], TotalOrZero) == TotalOrZero(p) by { assert [p][1..] == []; }
      assert CountWith(init + [p], s) == CountWith(init, s) + 1;
      assert ValueWith(init + [p], s) == ValueWith(init, s) + TotalOrZero(p);
    } else {
      assert Filter(init + [p], f) == kept + [];
      assert kept + [] == kept;
    }
  }

  /** The sum of the counts of a tally. */
  function TallyCount(t: seq<Entry>): int {
    if |t| == 0 then 0 else t[0].count + TallyCount(t[1..])
  }

  /** The sum of the values of a tally. */
  function TallyValue(t: seq<Entry>): real {
    if |t| == 0 then 0.0 else t[0].value + TallyValue(t[1..])
  }

  /** No two entries of a tally share a status. */
  ghost predicate DistinctStatuses(t: seq<Entry>) {
    forall i, j :: 0 <= i < j < |t| ==> t[i].status != t[j].status
  }

  lemma {:induction false} AddToTallyTotals(acc: seq<Entry>, p: Proposal)
    ensures TallyCount(AddToTally(acc, p)) == TallyCount(acc) + 1
    ensures TallyValue(AddToTally(acc, p)) == TallyValue(acc) + TotalOrZero(p)
  {
    if |acc| > 0 {
      var r := AddToTally(acc, p);
      if acc[0].status == p.status {
        assert r[1..] == acc[1..];
      } else {
        AddToTallyTotals(acc[1..], p);
        assert r[1..] == AddToTally(acc[1..], p);
      }
    }
  }

  /** Adding a proposal keeps every status in its place, and appends an
      entry only for a status not yet present. */
  lemma {:induction false} AddToTallyStatuses(acc: seq<Entry>, p: Proposal)
    ensures forall k :: 0 <= k < |acc| ==> AddToTally(acc, p)[k].status == acc[k].status
    ensures |AddToTally(acc, p)| == |acc| + 1 ==>
              AddToTally(acc, p)[|acc|].status == p.status && forall k :: 0 <= k < |acc| ==> acc[k].status != p.status
  {
    if |acc| > 0 {
      var r := AddToTally(acc, p);
      if acc[0].status == p.status {
        assert r[1..] == acc[1..];
      } else {
        AddToTallyStatuses(acc[1..], p);
        var rest := AddToTally(acc[1..], p);
        assert r == [acc[0]] + rest;
        forall k | 0 <= k < |acc| ensures r[k].status == acc[k].status {
          if k > 0 { assert r[k] == rest[k - 1] && acc[k] == acc[1..][k - 1]; }
        }
        if |r| == |acc| + 1 {
          assert r[|acc|] == rest[|acc| - 1];
          forall k | 0 <= k < |acc| ensures acc[k].status != p.status {
            if k > 0 { assert acc[k] == acc[1..][k - 1]; }
          }
        }
      }
    }
  }

  lemma AddToTallyKeepsDistinct(acc: seq<Entry>, p: Proposal)
    requires DistinctStatuses(acc)
    ensures DistinctStatuses(AddToTally(acc, p))
  {
    var r := AddToTally(acc, p);
    AddToTallyStatuses(acc, p);
    forall i, j | 0 <= i < j < |r| ensures r[i].status != r[j].status {
      if j == |acc| {
        assert r[j].status == p.status && r[i].status == acc[i].status;
      } else {
        assert r[i].status == acc[i].status && r[j].status == acc[j].status;
      }
    }
  }

  /** The tally has one entry per distinct status, and its counts and values
      add up to the number of proposals and the sum of their totals. */
  lemma {:induction false} TallyShape(ps: seq<Proposal>)
    ensures DistinctStatuses(Tally(ps))
    ensures TallyCount(Tally(ps)) == |ps|
    ensures TallyValue(Tally(ps)) == Sum(ps, TotalOrZero)
  {
    if |ps| > 0 {
      var init, p := ps[..|ps| - 1], ps[|ps| - 1];
      TallyShape(init);
      var acc := Tally(init);
      assert Tally(ps) == AddToTally(acc, p);
      AddToTallyTotals(acc, p);
      AddToTallyKeepsDistinct(acc, p);
      assert ps == init + [p];
      SumAppend(init, [p], TotalOrZero);
      assert Sum([p], TotalOrZero) == TotalOrZero(p);
    }
  }

  /** What the funnel draws from the tally is what the legacy board shows:
      each of the five rows has the size and the total of the column of the
      same status. */
  lemma FunnelMatchesBoard(ps: seq<Proposal>)
    ensures |SortedData(Tally(ps))| == |LegacyBoard.Columns(ps)|
    ensures forall i :: 0 <= i < |SortedData(Tally(ps))| ==>
              SortedData(Tally(ps))[i].status == LegacyBoard.Columns(ps)[i].status &&
              SortedData(Tally(ps))[i].count == |LegacyBoard.Columns(ps)[i].cards| &&
              SortedData(Tally(ps))[i].value == LegacyBoard.Columns(ps)[i].total
  {
    var cs := LegacyBoard.ColumnStatuses();
    forall i | 0 <= i < |cs|
      ensures SortedData(Tally(ps))[i].status == LegacyBoard.Columns(ps)[i].status
      ensures SortedData(Tally(ps))[i].count == |LegacyBoard.Columns(ps)[i].cards|
      ensures SortedData(Tally(ps))[i].value == LegacyBoard.Columns(ps)[i].total
    {
      TallyCorrect(ps, cs[i]);
      assert LegacyBoard.Columns(ps)[i] == MakeColumn(ps, LegacyBoard.LegacyKey, cs[i]);
    }
  }

  /* ---------------------------------------------------------------------- */
  /* The operational tab                                                     */
  /* ---------------------------------------------------------------------- */

  /** `proposals.filter(p => p.status === 'signed')`: only signed proposals
      reach the operational board. */
  function OperationalTab(ps: seq<Proposal>): (r: seq<Proposal>)
    ensures IsSubsequence(r, ps)
    ensures forall p :: p in r <==> p in ps && p.status == Signed
  {
    FilterIsSubsequence(ps, IsSigned);
    FilterMembership(ps, IsSigned);
    Filter(ps, IsSigned)
  }

  /** Every card of the operational tab is a signed proposal, and a signed
      proposal that is not cancelled is on one of its columns. */
  lemma OperationalTabShowsSigned(ps: seq<Proposal>, p: Proposal)
    ensures forall i ::
              (0 <= i < |OperationalBoard.Columns(OperationalTab(ps))| &&
               p in OperationalBoard.Columns(OperationalTab(ps))[i].cards) ==> p in ps && p.status == Signed
    ensures p in ps && p.status == Signed && p.operationalStatus != Some(Cancelled) ==>
              exists i :: 0 <= i < |OperationalBoard.Columns(OperationalTab(ps))| &&
                p in OperationalBoard.Columns(OperationalTab(ps))[i].cards
  {
    if p in ps && p.status == Signed && p.operationalStatus != Some(Cancelled) {
      OperationalBoard.CancelledShownNowhere(OperationalTab(ps), p);
    }
  }
}

=== FILE: db.dfy ===
/** The persisted schema of `src/integrations/supabase/types.ts`: the
    database role enum, the `Constants` arrays, the `Insert` shapes the pages
    write (a required column is a plain field, an optional or nullable one an
    `Option`), and the one-to-one relation between contracts and proposals. */
module Db {
  import opened Common
  import opened Crm

  /* ---------------------------------------------------------------------- */
  /* The database role enum                                                  */
  /* ---------------------------------------------------------------------- */

  /** `app_role` in the database: only two members. */
  datatype DbAppRole = DbSeller | DbManager {
    function Name(): string {
      match this
      case DbSeller => "seller"
      case DbManager => "manager"
    }
  }

  /** Every database role is a client role with the same wire name. */
  function ToClientRole(r: DbAppRole): (c: AppRole)
    ensures c.Name() == r.Name()
    ensures c == Seller || c == Manager
  {
    match r
    case DbSeller => Seller
    case DbManager => Manager
  }

  /** The database role with the same wire name as a client role, if any:
      `supervisor`, `post_sale` and `backoffice` have none. */
  function FromClientRole(c: AppRole): (r: Option<DbAppRole>)
    ensures r.Some? <==> (c == Seller || c == Manager)
    ensures r.Some? ==> r.value.Name() == c.Name()
  {
    match c
    case Seller => Some(DbSeller)
    case Manager => Some(DbManager)
    case _ => None
  }

  /** The database enum embeds into the client union and is strictly
      narrower than it. */
  lemma DbRoleNarrower()
    ensures forall r: DbAppRole :: FromClientRole(ToClientRole(r)) == Some(r)
    ensures forall c: AppRole :: FromClientRole(c).Some? ==> ToClientRole(FromClientRole(c).value) == c
    ensures exists c: AppRole :: FromClientRole(c).None?
  {
    assert FromClientRole(Backoffice).None?;
  }

  /* ---------------------------------------------------------------------- */
  /* `Constants.public.Enums`                                                */
  /* ---------------------------------------------------------------------- */

  const APP_ROLE_CONSTANTS: seq<string> := ["seller", "manager"]
  const COMPANY_STATUS_CONSTANTS: seq<string> := ["lead", "proposal", "active", "lost"]
  const CONTACT_TYPE_CONSTANTS: seq<string> := ["legal_representative", "account_manager", "cedent"]
  const DECISION_ROLE_CONSTANTS: seq<string> := ["decision_maker", "influencer", "financial"]
  const OPERATIONAL_STATUS_CONSTANTS: seq<string> :=
    ["analysis", "documentation", "activation", "completed", "cancelled"]
  const PROPOSAL_STATUS_CONSTANTS: seq<string> :=
    ["qualified", "diagnosis", "sent", "negotiation", "signed", "lost"]
  const REQUEST_TYPE_CONSTANTS: seq<string> := ["portability", "new_line", "migration"]

  /** Each runtime `Constants` array lists the wire names of its union type
      exactly once: every member's name is present, no name repeats, and
      there are as many names as members. The status arrays follow the
      client column orders. */
  lemma ConstantsMatchUnions()
    ensures forall r: DbAppRole :: r.Name() in APP_ROLE_CONSTANTS
    ensures |APP_ROLE_CONSTANTS| == 2 && Distinct(APP_ROLE_CONSTANTS)
    ensures forall s: CompanyStatus :: s.Name() in COMPANY_STATUS_CONSTANTS
    ensures |COMPANY_STATUS_CONSTANTS| == 4 && Distinct(COMPANY_STATUS_CONSTANTS)
    ensures forall s: OperationalStatus :: s.Name() in OPERATIONAL_STATUS_CONSTANTS
    ensures Distinct(OPERATIONAL_STATUS_CONSTANTS)
    ensures |OPERATIONAL_STATUS_CONSTANTS| == |OPERATIONAL_STATUS_ORDER|
    ensures forall i :: 0 <= i < |OPERATIONAL_STATUS_CONSTANTS| ==>
              OPERATIONAL_STATUS_CONSTANTS[i] == OPERATIONAL_STATUS_ORDER[i].Name()
    ensures forall s: ProposalStatus :: s.Name() in PROPOSAL_STATUS_CONSTANTS
    ensures Distinct(PROPOSAL_STATUS_CONSTANTS)
    ensures |PROPOSAL_STATUS_CONSTANTS| == |PROPOSAL_STATUS_ORDER|
    ensures forall i :: 0 <= i < |PROPOSAL_STATUS_CONSTANTS| ==>
              PROPOSAL_STATUS_CONSTANTS[i] == PROPOSAL_STATUS_ORDER[i].Name()
    ensures forall t: ContactType :: t.Name() in CONTACT_TYPE_CONSTANTS
    ensures |CONTACT_TYPE_CONSTANTS| == 3 && Distinct(CONTACT_TYPE_CONSTANTS)
    ensures forall d: DecisionRole :: d.Name() in DECISION_ROLE_CONSTANTS
    ensures |DECISION_ROLE_CONSTANTS| == 3 && Distinct(DECISION_ROLE_CONSTANTS)
    ensures forall t: RequestType :: t.Name() in REQUEST_TYPE_CONSTANTS
    ensures |REQUEST_TYPE_CONSTANTS| == 3 && Distinct(REQUEST_TYPE_CONSTANTS)
  {
    ContactConstantsMatchUnions();
    forall r: DbAppRole ensures r.Name() in APP_ROLE_CONSTANTS {
      match r
      case DbSeller => case DbManager =>
    }
    forall s: CompanyStatus ensures s.Name() in COMPANY_STATUS_CONSTANTS {
      match s
      case Lead => case InProposal => case Active => case Lost =>
    }
    forall s: OperationalStatus ensures s.Name() in OPERATIONAL_STATUS_CONSTANTS {
      match s
      case Analysis => case Documentation => case Activation => case Completed =>
      case Cancelled =>
    }
    forall s: ProposalStatus ensures s.Name() in PROPOSAL_STATUS_CONSTANTS {
      match s
      case Qualified => case Diagnosis => case Sent => case Negotiation =>
      case Signed => case Lost =>
    }
  }

  /** The three contact-side arrays: `contact_type`, `decision_role` and
      `request_type`. */
  lemma ContactConstantsMatchUnions()
    ensures forall t: ContactType :: t.Name() in CONTACT_TYPE_CONSTANTS
    ensures |CONTACT_TYPE_CONSTANTS| == 3 && Distinct(CONTACT_TYPE_CONSTANTS)
    ensures forall d: DecisionRole :: d.Name() in DECISION_ROLE_CONSTANTS
    ensures |DECISION_ROLE_CONSTANTS| == 3 && Distinct(DECISION_ROLE_CONSTANTS)
    ensures forall t: RequestType :: t.Name() in REQUEST_TYPE_CONSTANTS
    ensures |REQUEST_TYPE_CONSTANTS| == 3 && Distinct(REQUEST_TYPE_CONSTANTS)
  {
    forall t: ContactType ensures t.Name() in CONTACT_TYPE_CONSTANTS {
      match t
      case LegalRepresentative => case AccountManager => case Cedent =>
    }
    forall d: DecisionRole ensures d.Name() in DECISION_ROLE_CONSTANTS {
      match d
      case DecisionMaker => case Influencer => case Financial =>
    }
    forall t: RequestType ensures t.Name() in REQUEST_TYPE_CONSTANTS {
      match t
      case Portability => case NewLine => case Migration =>
    }
  }

  /* ---------------------------------------------------------------------- */
  /* Insert shapes                                                           */
  /* ---------------------------------------------------------------------- */

  /** `proposals.Insert`: `company_id`, `line_quantity` and `price_per_line`
      are required; `status` (database default), `total_monthly` and
      `operational_status` may be omitted. */
  datatype ProposalInsert = ProposalInsert(
    companyId: string,
    lineQuantity: int,
    pricePerLine: real,
    planId: Option<string>,
    sellerId: Option<string>,
    totalMonthly: Option<real>,
    status: Option<ProposalStatus>,
    notes: Option<string>,
    operationalStatus: Option<OperationalStatus>)

  /** `proposal_status_history.Insert`: `new_status` is required,
      `old_status` and `changed_by` are nullable. */
  datatype HistoryInsert = HistoryInsert(
    proposalId: string,
    oldStatus: Option<ProposalStatus>,
    newStatus: ProposalStatus,
    changedBy: Option<string>)

  /** `contracts.Insert`: exactly one referenced proposal. */
  datatype ContractInsert = ContractInsert(
    proposalId: string,
    startDate: string,
    endDate: Option<string>,
    notes: Option<string>)

  /** `user_roles.Insert`: `role` is an unconstrained string column. */
  datatype UserRoleInsert = UserRoleInsert(
    userId: string,
    role: string,
    createdBy: Option<string>)

  /** `companies.Insert`. */
  datatype CompanyInsert = CompanyInsert(
    cnpj: string,
    legalName: string,
    segment: Option<string>,
    estimatedLines: Option<int>,
    ownerId: Option<string>,
    status: Option<CompanyStatus>)

  /** `company_contacts.Insert` (the legacy `phone` column is never written). */
  datatype ContactInsert = ContactInsert(
    companyId: string,
    contactType: Option<ContactType>,
    name: string,
    cpf: Option<string>,
    rg: Option<string>,
    email: Option<string>,
    mobilePhone: Option<string>,
    landlinePhone: Option<string>,
    birthDate: Option<string>,
    role: Option<string>,
    decisionRole: Option<DecisionRole>)

  /** `company_documents.Insert`. */
  datatype DocumentInsert = DocumentInsert(
    companyId: string,
    fileName: string,
    filePath: string,
    fileType: Option<string>,
    uploadedBy: Option<string>)

  /* ---------------------------------------------------------------------- */
  /* contracts.proposal_id is one-to-one                                     */
  /* ---------------------------------------------------------------------- */

  /** No two contracts reference the same proposal. */
  ghost predicate ContractsOneToOne(cs: seq<ContractInsert>) {
    forall i, j :: 0 <= i < j < |cs| ==> cs[i].proposalId != cs[j].proposalId
  }

  /** Whether some contract references `proposalId`. */
  predicate HasContract(cs: seq<ContractInsert>, proposalId: string) {
    exists i :: 0 <= i < |cs| && cs[i].proposalId == proposalId
  }

  /** The first contract of proposal `proposalId`, if any. */
  function ContractFor(cs: seq<ContractInsert>, proposalId: string): (r: Option<ContractInsert>)
    ensures r.Some? <==> HasContract(cs, proposalId)
    ensures r.Some? ==> r.value in cs && r.value.proposalId == proposalId
  {
    if |cs| == 0 then None
    else if cs[0].proposalId == proposalId then Some(cs[0])
    else
      var rest := ContractFor(cs[1..], proposalId);
      assert HasContract(cs, proposalId) ==> cs[0].proposalId == proposalId || HasContract(cs[1..], proposalId) by {
        if HasContract(cs, proposalId) {
          var i :| 0 <= i < |cs| && cs[i].proposalId == proposalId;
          if i > 0 { assert cs[1..][i - 1] == cs[i]; }
        }
      }
      rest
  }

  /** The message Postgres gives for a unique violation. */
  const UNIQUE_VIOLATION: string := "duplicate key value violates unique constraint"

  /** Inserting a contract: the unique index on `proposal_id` refuses a
      second contract for the same proposal. */
  function InsertContract(cs: seq<ContractInsert>, c: ContractInsert): (r: Result<seq<ContractInsert>>)
    ensures r.Ok? <==> !HasContract(cs, c.proposalId)
    ensures r.Ok? ==> |r.value| == |cs| + 1 && r.value[..|cs|] == cs && r.value[|cs|] == c
    ensures r.Err? ==> r.message == UNIQUE_VIOLATION
  {
    if HasContract(cs, c.proposalId) then Err(UNIQUE_VIOLATION) else Ok(cs + [c])
  }

  /** A successful insert keeps the relation one-to-one, and the new
      contract is the one found for its proposal. */
  lemma InsertContractKeepsOneToOne(cs: seq<ContractInsert>, c: ContractInsert)
    requires ContractsOneToOne(cs)
    ensures InsertContract(cs, c).Ok? ==> ContractsOneToOne(InsertContract(cs, c).value)
    ensures InsertContract(cs, c).Ok? ==> ContractFor(InsertContract(cs, c).value, c.proposalId) == Some(c)
  {
    if InsertContract(cs, c).Ok? {
      var r := cs + [c];
      forall i, j | 0 <= i < j < |r| ensures r[i].proposalId != r[j].proposalId {
        if j == |cs| {
          assert r[i] == cs[i];
        }
      }
      ContractForAppend(cs, c);
    }
  }

  /** Looking a proposal up past a prefix that has no contract for it. */
  lemma {:induction false} ContractForAppend(cs: seq<ContractInsert>, c: ContractInsert)
    requires !HasContract(cs, c.proposalId)
    ensures ContractFor(cs + [c], c.proposalId) == Some(c)
  {
    if |cs| == 0 {
      assert cs + [c] == [c];
    } else {
      assert cs[0].proposalId != c.proposalId;
      assert (cs + [c])[1..] == cs[1..] + [c];
      assert !HasContract(cs[1..], c.proposalId) by {
        forall i | 0 <= i < |cs[1..]| ensures cs[1..][i].proposalId != c.proposalId {
          assert cs[1..][i] == cs[i + 1];
        }
      }
      ContractForAppend(cs[1..], c);
    }
  }
}

=== FILE: funnel.dfy ===
/** `PipelineChart`: the dashboard funnel. The incoming per-status tallies
    are normalised onto the open statuses in pipeline order, and every bar is
    drawn at `count / maxCount` of the full width. */
module Funnel {
  import opened Common
  import opened Crm
  import LegacyBoard

  /** One `PipelineData` item. */
  datatype Entry = Entry(status: ProposalStatus, count: int, value: real)

  /** `Math.max(...data.map((d) => d.count), 1)`. */
  function MaxCount(data: seq<Entry>): (m: int)
    ensures m >= 1
    ensures forall i :: 0 <= i < |data| ==> data[i].count <= m
    ensures m == 1 || exists i :: 0 <= i < |data| && data[i].count == m
  {
    if |data| == 0 then 1
    else
      var rest := MaxCount(data[1..]);
      assert forall i :: 1 <= i < |data| ==> data[i] == data[1..][i - 1];
      if data[0].count > rest then data[0].count
      else
        assert rest != 1 ==> exists i :: 0 <= i < |data| && data[i].count == rest by {
          if rest != 1 {
            var j :| 0 <= j < |data[1..]| && data[1..][j].count == rest;
            assert data[j + 1].count == rest;
          }
        }
        rest
  }

  /** The `find` predicate of the funnel: the item of one status. */
  function HasStatus(status: ProposalStatus): Entry -> bool {
    (e: Entry) => e.status == status
  }

  /** `data.find((d) => d.status === status)`. */
  function Find(data: seq<Entry>, status: ProposalStatus): (r: Option<Entry>)
    ensures r.None? <==> forall i :: 0 <= i < |data| ==> data[i].status != status
    ensures r.Some? ==> exists i :: 0 <= i < |data| && data[i] == r.value &&
                          forall j :: 0 <= j < i ==> data[j].status != status
    ensures r.Some? ==> r.value.status == status
  {
    FindFirst(data, HasStatus(status))
  }

  /** The entry drawn for `status`: copied from the first matching item,
      zero count and zero value when there is none. */
  function Normalise(data: seq<Entry>, status: ProposalStatus): Entry {
    match Find(data, status)
    case Some(found) => Entry(status, found.count, found.value)
    case None => Entry(status, 0, 0.0)
  }

  /** `sortedData`: one entry per open status, in pipeline order. */
  function SortedData(data: seq<Entry>): (r: seq<Entry>)
    ensures |r| == |LegacyBoard.ColumnStatuses()|
    ensures forall i :: 0 <= i < |r| ==> r[i] == Normalise(data, LegacyBoard.ColumnStatuses()[i])
  {
    var statuses := LegacyBoard.ColumnStatuses();
    seq(|statuses|, i requires 0 <= i < |statuses| => Normalise(data, statuses[i]))
  }

  /** The funnel has five rows, `qualified` to `signed`, never `lost`; a
      status missing from the data shows zero, a present one shows its
      first item's count and value. */
  lemma SortedDataShape(data: seq<Entry>)
    ensures |SortedData(data)| == 5
    ensures SortedData(data)[0].status == Qualified && SortedData(data)[1].status == Diagnosis
    ensures SortedData(data)[2].status == Sent && SortedData(data)[3].status == Negotiation
    ensures SortedData(data)[4].status == Signed
    ensures forall i :: 0 <= i < 5 ==> SortedData(data)[i].status != ProposalStatus.Lost
    ensures forall i :: 0 <= i < 5 ==>
              ((forall k :: 0 <= k < |data| ==> data[k].status != SortedData(data)[i].status) ==>
                 SortedData(data)[i].count == 0 && SortedData(data)[i].value == 0.0)
    ensures forall i, k ::
              (0 <= i < 5 && 0 <= k < |data| && data[k].status == SortedData(data)[i].status &&
               forall j :: 0 <= j < k ==> data[j].status != SortedData(data)[i].status) ==>
                SortedData(data)[i].count == data[k].count && SortedData(data)[i].value == data[k].value
  {
    LegacyBoard.ColumnStatusesExact();
    var r := SortedData(data);
    forall i, k | 0 <= i < 5 && 0 <= k < |data| && data[k].status == r[i].status &&
                  (forall j :: 0 <= j < k ==> data[j].status != r[i].status)
      ensures r[i].count == data[k].count && r[i].value == data[k].value
    {
      NormaliseCopiesFirst(data, r[i].status, k);
    }
  }

  /** The row drawn for a status copies the first item of that status. */
  lemma NormaliseCopiesFirst(data: seq<Entry>, status: ProposalStatus, k: nat)
    requires k < |data| && data[k].status == status
    requires forall j :: 0 <= j < k ==> data[j].status != status
    ensures Normalise(data, status).count == data[k].count && Normalise(data, status).value == data[k].value
  {
    var f := Find(data, status);
    var m :| 0 <= m < |data| && data[m] == f.value && forall j :: 0 <= j < m ==> data[j].status != status;
    assert m == k;
  }

  /** Every row drawn shows zero or the count of some item. */
  lemma NormaliseCountFromData(data: seq<Entry>, status: ProposalStatus)
    ensures Normalise(data, status).count == 0 ||
            exists k :: 0 <= k < |data| && Normalise(data, status).count == data[k].count
  {
    var f := Find(data, status);
    if f.Some? {
      var k :| 0 <= k < |data| && data[k] == f.value && forall j :: 0 <= j < k ==> data[j].status != status;
      assert Normalise(data, status).count == data[k].count;
    }
  }

  /** `(item.count / maxCount) * 100`, the bar width in percent. */
  function BarWidth(count: int, maxCount: int): real
    requires maxCount >= 1
  {
    (count as real / maxCount as real) * 100.0
  }

  /** Every drawn count is at most `maxCount`; so with non-negative counts
      every bar width lies between 0% and 100%. */
  lemma BarWidthsWithinBounds(data: seq<Entry>)
    ensures forall i :: 0 <= i < |SortedData(data)| ==> SortedData(data)[i].count <= MaxCount(data)
    ensures (forall k :: 0 <= k < |data| ==> data[k].count >= 0) ==>
              forall i :: 0 <= i < |SortedData(data)| ==>
                0.0 <= BarWidth(SortedData(data)[i].count, MaxCount(data)) <= 100.0
  {
    var r, m := SortedData(data), MaxCount(data);
    forall i | 0 <= i < |r| ensures r[i].count <= m {
      NormaliseCountFromData(data, LegacyBoard.ColumnStatuses()[i]);
    }
    if forall k :: 0 <= k < |data| ==> data[k].count >= 0 {
      forall i | 0 <= i < |r| ensures 0.0 <= BarWidth(r[i].count, m) <= 100.0 {
        NormaliseCountFromData(data, LegacyBoard.ColumnStatuses()[i]);
        RatioWithinBounds(r[i].count, m);
      }
    }
  }

  lemma RatioWithinBounds(count: int, m: int)
    requires 0 <= count <= m && m >= 1
    ensures 0.0 <= BarWidth(count, m) <= 100.0
  {
    assert count as real / m as real <= 1.0 by {
      assert count as real <= m as real;
    }
  }
}

=== FILE: legacy_board.dfy ===
/** `KanbanBoard`: the legacy board, one column per proposal status except
    `lost`, keyed by `status`; any card can be dragged and a drop forwards
    the carried id to the handler. */
module LegacyBoard {
  import opened Common
  import opened Crm
  import opened Board

  /** The legacy status is never null. */
  function LegacyKey(p: Proposal): Option<ProposalStatus> {
    Some(p.status)
  }

  /** `status !== 'lost'`. */
  predicate IsShownStatus(s: ProposalStatus) {
    s != ProposalStatus.Lost
  }

  /** `PROPOSAL_STATUS_ORDER.filter((status) => status !== 'lost')`. */
  function ColumnStatuses(): (statuses: seq<ProposalStatus>)
    ensures IsSubsequence(statuses, PROPOSAL_STATUS_ORDER)
    ensures forall s :: s in statuses <==> s in PROPOSAL_STATUS_ORDER && s != ProposalStatus.Lost
  {
    FilterIsSubsequence(PROPOSAL_STATUS_ORDER, IsShownStatus);
    FilterMembership(PROPOSAL_STATUS_ORDER, IsShownStatus);
    Filter(PROPOSAL_STATUS_ORDER, IsShownStatus)
  }

  /** The five columns, in pipeline order. */
  lemma ColumnStatusesExact()
    ensures ColumnStatuses() == [Qualified, Diagnosis, Sent, Negotiation, Signed]
    ensures Distinct(ColumnStatuses())
  {
    var o, f := PROPOSAL_STATUS_ORDER, IsShownStatus;
    assert o == o[..5] + [o[5]];
    FilterAppend(o[..5], [o[5]], f);
    assert forall k :: 0 <= k < 5 ==> f(o[..5][k]);
    FilterKeepsAll(o[..5], f);
    assert Filter([o[5]], f) == [] by {
      assert !f(o[5]) && [o[5]][1..] == [];
    }
  }

  /** The rendered columns with their cards and totals. */
  function Columns(ps: seq<Proposal>): (cols: seq<Column<ProposalStatus>>)
    ensures |cols| == |ColumnStatuses()|
    ensures forall i :: 0 <= i < |cols| ==> cols[i].status == ColumnStatuses()[i]
    ensures forall i :: 0 <= i < |cols| ==> IsSubsequence(cols[i].cards, ps)
    ensures forall i, p :: 0 <= i < |cols| ==> (p in cols[i].cards <==> p in ps && p.status == cols[i].status)
    ensures forall i :: 0 <= i < |cols| ==> cols[i].total == Sum(cols[i].cards, TotalOrZero)
    ensures forall i :: 0 <= i < |cols| && |cols[i].cards| == 0 ==> cols[i].total == 0.0
  {
    Project(ps, LegacyKey, ColumnStatuses())
  }

  /** A `lost` proposal is on no column; every other proposal is on exactly
      one, the column of its status. */
  lemma LostShownNowhere(ps: seq<Proposal>, p: Proposal)
    requires p in ps
    ensures p.status == ProposalStatus.Lost ==>
              forall i :: 0 <= i < |Columns(ps)| ==> p !in Columns(ps)[i].cards
    ensures p.status != ProposalStatus.Lost ==>
              exists i :: 0 <= i < |Columns(ps)| && p in Columns(ps)[i].cards && Columns(ps)[i].status == p.status
    ensures forall i, j ::
              (0 <= i < |Columns(ps)| && 0 <= j < |Columns(ps)| &&
               p in Columns(ps)[i].cards && p in Columns(ps)[j].cards) ==> i == j
  {
    if p.status == ProposalStatus.Lost {
      LostOnNoColumn(ps, p);
    } else {
      OpenOnItsColumn(ps, p);
    }
    OnOneColumnOnly(ps, p);
  }

  lemma LostOnNoColumn(ps: seq<Proposal>, p: Proposal)
    requires p.status == ProposalStatus.Lost
    ensures forall i :: 0 <= i < |Columns(ps)| ==> p !in Columns(ps)[i].cards
  {
    var cols, cs := Columns(ps), ColumnStatuses();
    ColumnStatusesExact();
    forall i | 0 <= i < |cols| ensures p !in cols[i].cards {
      assert cols[i].status == cs[i] && cs[i] != ProposalStatus.Lost;
    }
  }

  lemma OpenOnItsColumn(ps: seq<Proposal>, p: Proposal)
    requires p in ps && p.status != ProposalStatus.Lost
    ensures exists i :: 0 <= i < |Columns(ps)| && p in Columns(ps)[i].cards && Columns(ps)[i].status == p.status
  {
    var cols, cs := Columns(ps), ColumnStatuses();
    ColumnStatusesExact();
    var e := p.status;
    var i := if e == Qualified then 0 else if e == Diagnosis then 1 else if e == Sent then 2
             else if e == Negotiation then 3 else 4;
    assert cs[i] == e && cols[i].status == e;
    assert p in cols[i].cards;
  }

  lemma OnOneColumnOnly(ps: seq<Proposal>, p: Proposal)
    ensures forall i, j ::
              (0 <= i < |Columns(ps)| && 0 <= j < |Columns(ps)| &&
               p in Columns(ps)[i].cards && p in Columns(ps)[j].cards) ==> i == j
  {
    var cols, cs := Columns(ps), ColumnStatuses();
    ColumnStatusesExact();
    forall i, j | 0 <= i < |cols| && 0 <= j < |cols| && p in cols[i].cards && p in cols[j].cards
      ensures i == j
    {
      assert cs[i] == cols[i].status == p.status == cols[j].status == cs[j];
    }
  }

  /** A proposal that the board shows: one that is not `lost`. */
  predicate IsOpen(p: Proposal) {
    p.status != ProposalStatus.Lost
  }

  /** The columns partition the proposals that are not `lost`: their sizes
      and totals add up to those of that set. */
  lemma ColumnsCoverOpenProposals(ps: seq<Proposal>)
    ensures CardCount(Columns(ps)) == |Filter(ps, IsOpen)|
    ensures ValueTotal(Columns(ps)) == Sum(Filter(ps, IsOpen), TotalOrZero)
  {
    ColumnStatusesExact();
    ProjectPartition(ps, LegacyKey, ColumnStatuses());
    forall i | 0 <= i < |ps|
      ensures OnBoard(LegacyKey, ColumnStatuses())(ps[i]) == IsOpen(ps[i])
    {
      OnBoardIffOpen(ps[i]);
    }
    FilterCongruent(ps, OnBoard(LegacyKey, ColumnStatuses()), IsOpen);
  }

  lemma OnBoardIffOpen(p: Proposal)
    ensures OnBoard(LegacyKey, ColumnStatuses())(p) == IsOpen(p)
  {
    ColumnStatusesExact();
    var cs := ColumnStatuses();
    assert LegacyKey(p) == Some(p.status);
    assert OnBoard(LegacyKey, cs)(p) == (p.status in cs);
    match p.status
    case Qualified => assert cs[0] == p.status;
    case Diagnosis => assert cs[1] == p.status;
    case Sent => assert cs[2] == p.status;
    case Negotiation => assert cs[3] == p.status;
    case Signed => assert cs[4] == p.status;
    case Lost =>
  }

  /** `handleDragStart`: every card is draggable and carries its id. */
  function DragStart(p: Proposal): string {
    p.id
  }

  /** `handleDrop`: no edit gate on this board. */
  function Drop(hasHandler: bool, carried: string, status: ProposalStatus): Call<ProposalStatus> {
    Forward(hasHandler, carried, status)
  }

  /** Dragging card `p` onto column `status` asks for `onStatusChange(p.id,
      status)` exactly when a handler is wired and the id is non-empty. */
  lemma MoveForwards(hasHandler: bool, p: Proposal, status: ProposalStatus)
    ensures Drop(hasHandler, DragStart(p), status).Change? <==> hasHandler && |p.id| > 0
    ensures Drop(hasHandler, DragStart(p), status).Change? ==>
              Drop(hasHandler, DragStart(p), status) == Change(p.id, status)
  {
  }
}

=== FILE: new_company.dfy ===
/** `NewCompany`: the company form, the document list fed by the upload
    widget, and `handleSubmit`, which validates the two mandatory contacts
    and then writes the company, its two contacts and its documents, one
    table at a time, stopping at the first error. */
module NewCompany {
  import opened Common
  import opened Crm
  import opened Db
  import opened ContactForm

  /** The company inputs, as typed. */
  datatype CompanyForm = CompanyForm(legalName: string, cnpj: string, segment: string, estimatedLines: string)

  /** An uploaded file as the upload widget reports it. */
  datatype Document = Document(name: string, path: string, fileType: string)

  const LEGAL_REPRESENTATIVE_INCOMPLETE: string := "Preencha todos os campos obrigatórios do Responsável Legal"
  const ACCOUNT_MANAGER_INCOMPLETE: string := "Preencha todos os campos obrigatórios do Gestor da Conta"
  const DUPLICATE_CNPJ: string := "CNPJ já cadastrado"
  const COMPANY_CREATED: string := "Empresa criada com sucesso!"
  const COMPANIES_ROUTE: string := "/empresas"

  /** `onUpload`: the new files are appended. */
  function AddDocuments(docs: seq<Document>, files: seq<Document>): (r: seq<Document>)
    ensures |r| == |docs| + |files| && r[..|docs|] == docs && r[|docs|..] == files
  {
    docs + files
  }

  /** `(d) => d.path !== path`. */
  function IsOtherPath(path: string): Document -> bool {
    (d: Document) => d.path != path
  }

  /** `onRemove(path)`: every document with that path goes, the others stay
      in order. */
  function RemoveDocument(docs: seq<Document>, path: string): (r: seq<Document>)
    ensures IsSubsequence(r, docs)
    ensures forall d :: d in r <==> d in docs && d.path != path
  {
    FilterIsSubsequence(docs, IsOtherPath(path));
    FilterMembership(docs, IsOtherPath(path));
    Filter(docs, IsOtherPath(path))
  }

  /** Removing a path twice is removing it once. */
  lemma RemoveDocumentIdempotent(docs: seq<Document>, path: string)
    ensures RemoveDocument(RemoveDocument(docs, path), path) == RemoveDocument(docs, path)
  {
    FilterIdempotent(docs, IsOtherPath(path));
  }

  /** The `companies` row: `segment || null`, `estimated_lines` parsed when
      non-empty, the signed-in user as owner, and status `lead`.
      `parseInt` is a parameter. */
  function CompanyRow(form: CompanyForm, userId: Option<string>, parseInt: string -> int): (row: CompanyInsert)
    ensures row.legalName == form.legalName && row.cnpj == form.cnpj
    ensures row.segment == OrNull(form.segment)
    ensures row.estimatedLines.None? <==> |form.estimatedLines| == 0
    ensures row.estimatedLines.Some? ==> row.estimatedLines.value == parseInt(form.estimatedLines)
    ensures row.ownerId == userId && row.status == Some(Lead)
  {
    CompanyInsert(form.cnpj, form.legalName, OrNull(form.segment),
                  if |form.estimatedLines| > 0 then Some(parseInt(form.estimatedLines)) else None,
                  userId, Some(Lead))
  }

  /** A `company_contacts` row for a form, with the contact type fixed by
      its place in the page rather than taken from the form. */
  function ContactRow(companyId: string, c: ContactFormData, t: ContactType): (row: ContactInsert)
    ensures row.companyId == companyId && row.contactType == Some(t)
    ensures row.name == c.name && row.cpf == Some(c.cpf) && row.email == Some(c.email)
    ensures row.mobilePhone == Some(c.mobilePhone)
    ensures row.rg == OrNull(c.rg) && row.landlinePhone == OrNull(c.landlinePhone)
    ensures row.birthDate == OrNull(c.birthDate) && row.role == OrNull(c.role)
    ensures row.decisionRole == c.decisionRole
  {
    ContactInsert(companyId, Some(t), c.name, Some(c.cpf), OrNull(c.rg), Some(c.email), Some(c.mobilePhone),
                  OrNull(c.landlinePhone), OrNull(c.birthDate), OrNull(c.role), c.decisionRole)
  }

  /** The `company_documents` rows, one per document. */
  function DocumentRows(companyId: string, docs: seq<Document>, userId: Option<string>): (rows: seq<DocumentInsert>)
    ensures |rows| == |docs|
    ensures forall i :: 0 <= i < |docs| ==>
              rows[i] == DocumentInsert(companyId, docs[i].name, docs[i].path, Some(docs[i].fileType), userId)
  {
    seq(|docs|, i requires 0 <= i < |docs| =>
      DocumentInsert(companyId, docs[i].name, docs[i].path, Some(docs[i].fileType), userId))
  }

  /** What the backend answers to each insert: the company's id or the
      error message, and an optional error for the contacts and for the
      documents. */
  datatype Backend = Backend(company: Result<string>, contactsError: Option<string>, documentsError: Option<string>)

  datatype Toast = Created | Failed(description: string)

  /** The inserts sent, in order, and what the user sees. */
  datatype Submission = Submission(
    companyInsert: Option<CompanyInsert>,
    contactsInsert: Option<seq<ContactInsert>>,
    documentsInsert: Option<seq<DocumentInsert>>,
    toast: Toast,
    navigateTo: Option<string>)

  /** The message shown for a failed company insert. */
  function CompanyErrorMessage(message: string): (shown: string)
    ensures Contains(message, "duplicate") ==> shown == DUPLICATE_CNPJ
    ensures !Contains(message, "duplicate") ==> shown == message
  {
    if Contains(message, "duplicate") then DUPLICATE_CNPJ else message
  }

  function Fail(company: Option<CompanyInsert>, contacts: Option<seq<ContactInsert>>,
                documents: Option<seq<DocumentInsert>>, message: string): Submission {
    Submission(company, contacts, documents, Failed(message), None)
  }

  /** `handleSubmit`. */
  function HandleSubmit(form: CompanyForm, docs: seq<Document>, legal: ContactFormData, manager: ContactFormData,
                        userId: Option<string>, parseInt: string -> int, backend: Backend): (s: Submission)
    ensures s.toast == Created <==> s.navigateTo == Some(COMPANIES_ROUTE)
    ensures s.companyInsert.None? ==> s.contactsInsert.None?
    ensures s.contactsInsert.None? ==> s.documentsInsert.None?
  {
    if !HasRequired(legal) then Fail(None, None, None, LEGAL_REPRESENTATIVE_INCOMPLETE)
    else if !HasRequired(manager) then Fail(None, None, None, ACCOUNT_MANAGER_INCOMPLETE)
    else
      var company := Some(CompanyRow(form, userId, parseInt));
      match backend.company
      case Err(message) => Fail(company, None, None, CompanyErrorMessage(message))
      case Ok(id) =>
        var contacts := Some([ContactRow(id, legal, LegalRepresentative), ContactRow(id, manager, AccountManager)]);
        if backend.contactsError.Some? then Fail(company, contacts, None, backend.contactsError.value)
        else if |docs| == 0 then Submission(company, contacts, None, Created, Some(COMPANIES_ROUTE))
        else
          var documents := Some(DocumentRows(id, docs, userId));
          if backend.documentsError.Some? then Fail(company, contacts, documents, backend.documentsError.value)
          else Submission(company, contacts, documents, Created, Some(COMPANIES_ROUTE))
  }

  /** The legal representative is checked first, then the account manager;
      either failure sends nothing. */
  lemma ValidationOrder(form: CompanyForm, docs: seq<Document>, legal: ContactFormData, manager: ContactFormData,
                        userId: Option<string>, parseInt: string -> int, backend: Backend)
    ensures !HasRequired(legal) ==>
              HandleSubmit(form, docs, legal, manager, userId, parseInt, backend) ==
                Submission(None, None, None, Failed(LEGAL_REPRESENTATIVE_INCOMPLETE), None)
    ensures HasRequired(legal) && !HasRequired(manager) ==>
              HandleSubmit(form, docs, legal, manager, userId, parseInt, backend) ==
                Submission(None, None, None, Failed(ACCOUNT_MANAGER_INCOMPLETE), None)
    ensures HasRequired(legal) && HasRequired(manager) ==>
              HandleSubmit(form, docs, legal, manager, userId, parseInt, backend).companyInsert ==
                Some(CompanyRow(form, userId, parseInt))
  {
  }

  /** The submission succeeds exactly when both contacts are complete and
      every insert that is sent succeeds; the documents insert is sent only
      when there are documents. */
  lemma SucceedsIffAllWritesSucceed(form: CompanyForm, docs: seq<Document>, legal: ContactFormData,
                                    manager: ContactFormData, userId: Option<string>,
                                    parseInt: string -> int, backend: Backend)
    ensures var s := HandleSubmit(form, docs, legal, manager, userId, parseInt, backend);
      s.toast == Created <==>
        HasRequired(legal) && HasRequired(manager) && backend.company.Ok? && backend.contactsError.None? &&
        (|docs| > 0 ==> backend.documentsError.None?)
    ensures var s := HandleSubmit(form, docs, legal, manager, userId, parseInt, backend);
      s.documentsInsert.Some? <==>
        HasRequired(legal) && HasRequired(manager) && backend.company.Ok? && backend.contactsError.None? && |docs| > 0
  {
  }

  /** Once the company row is stored, the contacts row pair carries the
      legal representative first and the account manager second, both
      pointing at the new company, and the document rows are one per
      uploaded file. */
  lemma ContactsAndDocumentsShape(form: CompanyForm, docs: seq<Document>, legal: ContactFormData,
                                  manager: ContactFormData, userId: Option<string>,
                                  parseInt: string -> int, backend: Backend)
    requires HasRequired(legal) && HasRequired(manager) && backend.company.Ok?
    ensures var s := HandleSubmit(form, docs, legal, manager, userId, parseInt, backend);
      var rows := s.contactsInsert.value;
      s.contactsInsert.Some? && |rows| == 2 &&
      rows[0].contactType == Some(LegalRepresentative) && rows[0].name == legal.name &&
      rows[1].contactType == Some(AccountManager) && rows[1].name == manager.name &&
      rows[0].companyId == backend.company.value && rows[1].companyId == backend.company.value
    ensures var s := HandleSubmit(form, docs, legal, manager, userId, parseInt, backend);
      s.documentsInsert.Some? ==>
        (|s.documentsInsert.value| == |docs| &&
         forall i :: 0 <= i < |docs| ==> s.documentsInsert.value[i].companyId == backend.company.value &&
                                         s.documentsInsert.value[i].filePath == docs[i].path)
  {
  }

  /** A duplicate CNPJ shows its own message and sends no contacts. */
  lemma DuplicateCnpjReported(form: CompanyForm, docs: seq<Document>, legal: ContactFormData,
                              manager: ContactFormData, userId: Option<string>,
                              parseInt: string -> int, message: string,
                              contactsError: Option<string>, documentsError: Option<string>)
    requires HasRequired(legal) && HasRequired(manager) && Contains(message, "duplicate")
    ensures var s := HandleSubmit(form, docs, legal, manager, userId, parseInt,
                                  Backend(Err(message), contactsError, documentsError));
      s.toast == Failed(DUPLICATE_CNPJ) && s.contactsInsert.None? && s.navigateTo.None?
  {
  }

  /** The company insert and the contacts insert are separate writes: when
      the contacts fail the company row has already been sent and stays. */
  lemma ContactsFailureLeavesCompany(form: CompanyForm, docs: seq<Document>, legal: ContactFormData,
                                     manager: ContactFormData, userId: Option<string>,
                                     parseInt: string -> int, backend: Backend)
    requires HasRequired(legal) && HasRequired(manager) && backend.company.Ok? && backend.contactsError.Some?
    ensures var s := HandleSubmit(form, docs, legal, manager, userId, parseInt, backend);
      s.companyInsert.Some? && s.toast == Failed(backend.contactsError.value) && s.documentsInsert.None?
  {
  }
}

=== FILE: new_proposal.dfy ===
/** `NewProposal`: the proposal form, the plan select that prefills the
    price, the total shown under the form, and the row the submit inserts.
    Number parsing and formatting are parameters. */
module NewProposal {
  import opened Common
  import opened Crm
  import opened Db

  /** The form, as typed. */
  datatype ProposalForm = ProposalForm(companyId: string, planId: string, lineQuantity: string,
                                       pricePerLine: string, notes: string)

  const EMPTY_FORM: ProposalForm := ProposalForm("", "", "", "", "")
  const PROPOSAL_CREATED: string := "Proposta criada!"
  const PROPOSALS_ROUTE: string := "/propostas"

  function HasPlanId(id: string): Plan -> bool {
    (p: Plan) => p.id == id
  }

  /** `plans.find((p) => p.id === planId)`. */
  function FindPlan(plans: seq<Plan>, id: string): (r: Option<Plan>)
    ensures r.None? <==> forall i :: 0 <= i < |plans| ==> plans[i].id != id
    ensures r.Some? ==> exists i :: 0 <= i < |plans| && plans[i] == r.value &&
                          forall j :: 0 <= j < i ==> plans[j].id != id
    ensures r.Some? ==> r.value.id == id
  {
    FindFirst(plans, HasPlanId(id))
  }

  /** `handlePlanChange(planId)`: select the plan and prefill the price with
      its base price (`showPrice` is `toString`), or empty it when the plan
      is not in the list. */
  function HandlePlanChange(form: ProposalForm, plans: seq<Plan>, planId: string, showPrice: real -> string): (r: ProposalForm)
    ensures r.planId == planId
    ensures r.companyId == form.companyId && r.lineQuantity == form.lineQuantity && r.notes == form.notes
    ensures (forall i :: 0 <= i < |plans| ==> plans[i].id != planId) ==> r.pricePerLine == ""
    ensures forall i :: 0 <= i < |plans| && plans[i].id == planId &&
                        (forall j :: 0 <= j < i ==> plans[j].id != planId) ==>
                          r.pricePerLine == showPrice(plans[i].basePrice)
  {
    var price := match FindPlan(plans, planId)
      case Some(plan) => showPrice(plan.basePrice)
      case None => "";
    forall i | 0 <= i < |plans| && plans[i].id == planId && (forall j :: 0 <= j < i ==> plans[j].id != planId)
      ensures price == showPrice(plans[i].basePrice)
    {
      var k :| 0 <= k < |plans| && plans[k] == FindPlan(plans, planId).value &&
               forall j :: 0 <= j < k ==> plans[j].id != planId;
      assert k == i;
    }
    form.(planId := planId, pricePerLine := price)
  }

  /** `x || 0` on a parsed number: `NaN` (here `None`) and zero both read as
      zero. */
  function IntOrZero(x: Option<int>): int {
    match x
    case Some(v) => v
    case None => 0
  }

  function RealOrZero(x: Option<real>): real {
    match x
    case Some(v) => v
    case None => 0.0
  }

  /** `total`: quantity times price, an unparsable input counting as zero.
      `parseInt` and `parseFloat` answer `None` for `NaN`. */
  function DisplayedTotal(form: ProposalForm, parseInt: string -> Option<int>, parseFloat: string -> Option<real>): (t: real)
    ensures parseInt(form.lineQuantity).None? || parseFloat(form.pricePerLine).None? ==> t == 0.0
    ensures parseInt(form.lineQuantity).Some? && parseFloat(form.pricePerLine).Some? ==>
              t == parseInt(form.lineQuantity).value as real * parseFloat(form.pricePerLine).value
  {
    IntOrZero(parseInt(form.lineQuantity)) as real * RealOrZero(parseFloat(form.pricePerLine))
  }

  /** The submit button: enabled once a company is chosen and no submit is
      running. */
  predicate SubmitEnabled(form: ProposalForm, loading: bool) {
    !loading && |form.companyId| > 0
  }

  /** The `proposals` row: empty plan and notes become null, the seller is
      the signed-in user, the status is `qualified`; the total is left to
      the database. `lineQuantity` and `pricePerLine` are the parsed inputs. */
  function ProposalRow(form: ProposalForm, userId: Option<string>, lineQuantity: int, pricePerLine: real): (row: ProposalInsert)
    ensures row.companyId == form.companyId && row.sellerId == userId
    ensures row.planId == OrNull(form.planId) && row.notes == OrNull(form.notes)
    ensures row.status == Some(Qualified) && row.totalMonthly.None? && row.operationalStatus.None?
    ensures row.lineQuantity == lineQuantity && row.pricePerLine == pricePerLine
  {
    ProposalInsert(form.companyId, lineQuantity, pricePerLine, OrNull(form.planId), userId, None,
                   Some(Qualified), OrNull(form.notes), None)
  }

  datatype Toast = Created | Failed(description: string)

  /** The row sent, the toast, and the route navigated to. */
  datatype Submission = Submission(sent: ProposalInsert, toast: Toast, navigateTo: Option<string>)

  /** `handleSubmit`: one insert; success shows a toast and opens the
      proposal list, an error shows its message and stays. */
  function HandleSubmit(form: ProposalForm, userId: Option<string>, lineQuantity: int, pricePerLine: real,
                        error: Option<string>): (s: Submission)
    ensures s.sent == ProposalRow(form, userId, lineQuantity, pricePerLine)
    ensures error.None? ==> s.toast == Created && s.navigateTo == Some(PROPOSALS_ROUTE)
    ensures error.Some? ==> s.toast == Failed(error.value) && s.navigateTo.None?
  {
    var row := ProposalRow(form, userId, lineQuantity, pricePerLine);
    match error
    case None => Submission(row, Created, Some(PROPOSALS_ROUTE))
    case Some(m) => Submission(row, Failed(m), None)
  }

  /** A new proposal enters the pipeline at its first stage. */
  lemma NewProposalStartsAtFirstStage(form: ProposalForm, userId: Option<string>, lineQuantity: int, pricePerLine: real)
    ensures ProposalRow(form, userId, lineQuantity, pricePerLine).status == Some(PROPOSAL_STATUS_ORDER[0])
  {
  }

  /** The fresh form cannot be submitted, and picking a plan neither enables
      nor disables the submit. */
  lemma SubmitGuard(form: ProposalForm, plans: seq<Plan>, planId: string, showPrice: real -> string, loading: bool)
    ensures !SubmitEnabled(EMPTY_FORM, loading)
    ensures SubmitEnabled(HandlePlanChange(form, plans, planId, showPrice), loading) == SubmitEnabled(form, loading)
  {
  }

  /** When both inputs parse, the total under the form is the product of
      the quantity and price the submitted row carries, given the same
      `parseInt`/`parseFloat` readings the submit uses. */
  lemma DisplayedTotalMatchesRow(form: ProposalForm, parseInt: string -> Option<int>, parseFloat: string -> Option<real>,
                                 userId: Option<string>, error: Option<string>)
    requires parseInt(form.lineQuantity).Some? && parseFloat(form.pricePerLine).Some?
    ensures var s := HandleSubmit(form, userId, parseInt(form.lineQuantity).value,
                                  parseFloat(form.pricePerLine).value, error);
            DisplayedTotal(form, parseInt, parseFloat) == s.sent.lineQuantity as real * s.sent.pricePerLine
  {
  }

  /** Choosing a plan that is not listed empties the price, and the empty
      price does not parse, so the total shown drops to zero. */
  lemma UnknownPlanZeroesTotal(form: ProposalForm, plans: seq<Plan>, planId: string, showPrice: real -> string,
                               parseInt: string -> Option<int>, parseFloat: string -> Option<real>)
    requires parseFloat("").None?
    requires forall i :: 0 <= i < |plans| ==> plans[i].id != planId
    ensures DisplayedTotal(HandlePlanChange(form, plans, planId, showPrice), parseInt, parseFloat) == 0.0
  {
  }
}

=== FILE: operational_board.dfy ===
/** `OperationalKanban`: one column per operational status except
    `cancelled`, keyed by `operational_status` with a missing status read as
    `analysis`; a drop forwards the carried id to the handler. */
module OperationalBoard {
  import opened Common
  import opened Crm
  import opened Board

  /** The effective operational status of a proposal: `null` counts as
      `analysis`. */
  function EffectiveStatus(p: Proposal): (s: OperationalStatus)
    ensures p.operationalStatus.None? ==> s == Analysis
    ensures p.operationalStatus.Some? ==> s == p.operationalStatus.value
  {
    p.operationalStatus.GetOr(Analysis)
  }

  /** `(p.operational_status || 'analysis')`, as a board key. */
  function OperationalKey(p: Proposal): Option<OperationalStatus> {
    Some(EffectiveStatus(p))
  }

  /** `status !== 'cancelled'`. */
  predicate IsShownStatus(s: OperationalStatus) {
    s != Cancelled
  }

  /** `OPERATIONAL_STATUS_ORDER.filter((status) => status !== 'cancelled')`. */
  function ColumnStatuses(): (statuses: seq<OperationalStatus>)
    ensures IsSubsequence(statuses, OPERATIONAL_STATUS_ORDER)
    ensures forall s :: s in statuses <==> s in OPERATIONAL_STATUS_ORDER && s != Cancelled
  {
    FilterIsSubsequence(OPERATIONAL_STATUS_ORDER, IsShownStatus);
    FilterMembership(OPERATIONAL_STATUS_ORDER, IsShownStatus);
    Filter(OPERATIONAL_STATUS_ORDER, IsShownStatus)
  }

  /** The four columns, in workflow order. */
  lemma ColumnStatusesExact()
    ensures ColumnStatuses() == [Analysis, Documentation, Activation, Completed]
    ensures Distinct(ColumnStatuses())
  {
    var o, f := OPERATIONAL_STATUS_ORDER, IsShownStatus;
    assert o == o[..4] + [o[4]];
    FilterAppend(o[..4], [o[4]], f);
    assert forall k :: 0 <= k < 4 ==> f(o[..4][k]);
    FilterKeepsAll(o[..4], f);
    assert Filter([o[4]], f) == [] by {
      assert !f(o[4]) && [o[4]][1..] == [];
    }
  }

  /** The rendered columns with their cards and totals. */
  function Columns(ps: seq<Proposal>): (cols: seq<Column<OperationalStatus>>)
    ensures |cols| == |ColumnStatuses()|
    ensures forall i :: 0 <= i < |cols| ==> cols[i].status == ColumnStatuses()[i]
    ensures forall i :: 0 <= i < |cols| ==> IsSubsequence(cols[i].cards, ps)
    ensures forall i, p :: 0 <= i < |cols| ==> (p in cols[i].cards <==> p in ps && EffectiveStatus(p) == cols[i].status)
    ensures forall i :: 0 <= i < |cols| ==> cols[i].total == Sum(cols[i].cards, TotalOrZero)
    ensures forall i :: 0 <= i < |cols| && |cols[i].cards| == 0 ==> cols[i].total == 0.0
  {
    Project(ps, OperationalKey, ColumnStatuses())
  }

  /** A proposal with no operational status sits in the first column,
      `analysis`. */
  lemma MissingStatusIsAnalysis(ps: seq<Proposal>, p: Proposal)
    requires p in ps && p.operationalStatus.None?
    ensures Columns(ps)[0].status == Analysis && p in Columns(ps)[0].cards
  {
    ColumnStatusesExact();
  }

  /** A `cancelled` proposal is on no column; every other proposal is on
      exactly one, the column of its effective status. */
  lemma CancelledShownNowhere(ps: seq<Proposal>, p: Proposal)
    requires p in ps
    ensures p.operationalStatus == Some(Cancelled) ==>
              forall i :: 0 <= i < |Columns(ps)| ==> p !in Columns(ps)[i].cards
    ensures p.operationalStatus != Some(Cancelled) ==>
              exists i :: 0 <= i < |Columns(ps)| && p in Columns(ps)[i].cards && Columns(ps)[i].status == EffectiveStatus(p)
    ensures forall i, j ::
              (0 <= i < |Columns(ps)| && 0 <= j < |Columns(ps)| &&
               p in Columns(ps)[i].cards && p in Columns(ps)[j].cards) ==> i == j
  {
    if p.operationalStatus == Some(Cancelled) {
      CancelledOnNoColumn(ps, p);
    } else {
      LiveOnItsColumn(ps, p);
    }
    OnOneColumnOnly(ps, p);
  }

  lemma CancelledOnNoColumn(ps: seq<Proposal>, p: Proposal)
    requires p.operationalStatus == Some(Cancelled)
    ensures forall i :: 0 <= i < |Columns(ps)| ==> p !in Columns(ps)[i].cards
  {
    var cols, cs := Columns(ps), ColumnStatuses();
    ColumnStatusesExact();
    forall i | 0 <= i < |cols| ensures p !in cols[i].cards {
      assert cols[i].status == cs[i] && cs[i] != Cancelled;
    }
  }

  lemma LiveOnItsColumn(ps: seq<Proposal>, p: Proposal)
    requires p in ps && p.operationalStatus != Some(Cancelled)
    ensures exists i :: 0 <= i < |Columns(ps)| && p in Columns(ps)[i].cards && Columns(ps)[i].status == EffectiveStatus(p)
  {
    var cols, cs := Columns(ps), ColumnStatuses();
    ColumnStatusesExact();
    var e := EffectiveStatus(p);
    var i := if e == Analysis then 0 else if e == Documentation then 1 else if e == Activation then 2 else 3;
    assert cs[i] == e && cols[i].status == e;
    assert p in cols[i].cards;
  }

  lemma OnOneColumnOnly(ps: seq<Proposal>, p: Proposal)
    ensures forall i, j ::
              (0 <= i < |Columns(ps)| && 0 <= j < |Columns(ps)| &&
               p in Columns(ps)[i].cards && p in Columns(ps)[j].cards) ==> i == j
  {
    var cols, cs := Columns(ps), ColumnStatuses();
    ColumnStatusesExact();
    forall i, j | 0 <= i < |cols| && 0 <= j < |cols| && p in cols[i].cards && p in cols[j].cards
      ensures i == j
    {
      assert cs[i] == cols[i].status == EffectiveStatus(p) == cols[j].status == cs[j];
    }
  }

  /** A proposal that the board shows: one not `cancelled`. */
  predicate IsNotCancelled(p: Proposal) {
    p.operationalStatus != Some(Cancelled)
  }

  /** The columns partition the proposals that are not `cancelled`, those
      with no operational status included. */
  lemma ColumnsCoverLiveProposals(ps: seq<Proposal>)
    ensures CardCount(Columns(ps)) == |Filter(ps, IsNotCancelled)|
    ensures ValueTotal(Columns(ps)) == Sum(Filter(ps, IsNotCancelled), TotalOrZero)
  {
    ColumnStatusesExact();
    ProjectPartition(ps, OperationalKey, ColumnStatuses());
    forall i | 0 <= i < |ps|
      ensures OnBoard(OperationalKey, ColumnStatuses())(ps[i]) == IsNotCancelled(ps[i])
    {
      OnBoardIffNotCancelled(ps[i]);
    }
    FilterCongruent(ps, OnBoard(OperationalKey, ColumnStatuses()), IsNotCancelled);
  }

  lemma OnBoardIffNotCancelled(p: Proposal)
    ensures OnBoard(OperationalKey, ColumnStatuses())(p) == IsNotCancelled(p)
  {
    ColumnStatusesExact();
    var cs := ColumnStatuses();
    assert OperationalKey(p) == Some(EffectiveStatus(p));
    assert OnBoard(OperationalKey, cs)(p) == (EffectiveStatus(p) in cs);
    match EffectiveStatus(p)
    case Analysis => assert cs[0] == EffectiveStatus(p);
    case Documentation => assert cs[1] == EffectiveStatus(p);
    case Activation => assert cs[2] == EffectiveStatus(p);
    case Completed => assert cs[3] == EffectiveStatus(p);
    case Cancelled =>
  }

  /** `handleDragStart`: every card is draggable and carries its id. */
  function DragStart(p: Proposal): string {
    p.id
  }

  /** `handleDrop`: no edit gate on this board. */
  function Drop(hasHandler: bool, carried: string, status: OperationalStatus): Call<OperationalStatus> {
    Forward(hasHandler, carried, status)
  }

  /** Dragging card `p` onto column `status` asks for
      `onStatusChange(p.id, status)` exactly when a handler is wired and the
      id is non-empty. */
  lemma MoveForwards(hasHandler: bool, p: Proposal, status: OperationalStatus)
    ensures Drop(hasHandler, DragStart(p), status).Change? <==> hasHandler && |p.id| > 0
    ensures Drop(hasHandler, DragStart(p), status).Change? ==>
              Drop(hasHandler, DragStart(p), status) == Change(p.id, status)
  {
  }
}

=== FILE: processing_board.dfy ===
/** `ProcessingPipelineKanban`: the 22 processing statuses arranged in six
    named groups; a group is rendered only when it holds a proposal and a
    column only when it holds a card; colours are chosen by status; without
    `canEdit` nothing can be dragged or dropped. */
module ProcessingBoard {
  import opened Common
  import opened Crm
  import opened Board

  /* ---------------------------------------------------------------------- */
  /* Groups                                                                  */
  /* ---------------------------------------------------------------------- */

  datatype StatusGroup = StatusGroup(name: string, statuses: seq<ProcessingStatus>)

  /** `statusGroups`. */
  const STATUS_GROUPS: seq<StatusGroup> := [
    StatusGroup("Documentação", [TrocaCarteira, GerarContrato, AuditoriaAssinatura]),
    StatusGroup("Análise", [AnaliseCredito, AgValidacao, ValidacaoPendente]),
    StatusGroup("Pendências", [PendenteInput, PendenteEstoque, PendenteAssinatura, PendenteInstalacao]),
    StatusGroup("Operacional", [AgPortabilidade, AgAutorizacaoSms, Logistica, ChamadoAberto]),
    StatusGroup("Conclusão", [Ativo, Instalada, AgFaturamento]),
    StatusGroup("Correções", [ReprovadoBko, ParaCorrecao, ReprovadoTrocaCarteira, CreditoReprovado, Cancelado])]

  /** The statuses of `groups`, group after group. */
  function AllStatuses(groups: seq<StatusGroup>): seq<ProcessingStatus> {
    if |groups| == 0 then [] else groups[0].statuses + AllStatuses(groups[1..])
  }

  /** The group that holds status `s`. */
  function GroupIndex(s: ProcessingStatus): (g: nat)
    ensures g < |STATUS_GROUPS| && s in STATUS_GROUPS[g].statuses
  {
    match s
    case TrocaCarteira | GerarContrato | AuditoriaAssinatura => 0
    case AnaliseCredito | AgValidacao | ValidacaoPendente => 1
    case PendenteInput | PendenteEstoque | PendenteAssinatura | PendenteInstalacao => 2
    case AgPortabilidade | AgAutorizacaoSms | Logistica | ChamadoAberto => 3
    case Ativo | Instalada | AgFaturamento => 4
    case ReprovadoBko | ParaCorrecao | ReprovadoTrocaCarteira | CreditoReprovado | Cancelado => 5
  }

  /** The six groups partition the processing statuses: listed group after
      group, the 22 statuses appear once each, so every status lies in
      exactly one group. */
  lemma GroupsPartition()
    ensures Enumerates(AllStatuses(STATUS_GROUPS))
    ensures |AllStatuses(STATUS_GROUPS)| == 22
    ensures forall s: ProcessingStatus, g :: 0 <= g < |STATUS_GROUPS| && s in STATUS_GROUPS[g].statuses ==> g == GroupIndex(s)
  {
    GroupedOrderIsAllStatuses();
    var all := AllStatuses(STATUS_GROUPS);
    forall s: ProcessingStatus ensures s in all {
      AllStatusesContains(STATUS_GROUPS, GroupIndex(s), s);
    }
    forall s: ProcessingStatus, g | 0 <= g < |STATUS_GROUPS| && s in STATUS_GROUPS[g].statuses
      ensures g == GroupIndex(s)
    {
      if g != GroupIndex(s) {
        TwoGroupsTwice(STATUS_GROUPS, g, GroupIndex(s), s);
        assert false;
      }
    }
  }

  /** The statuses in group order. */
  const GROUPED_ORDER: seq<ProcessingStatus> := [
    TrocaCarteira, GerarContrato, AuditoriaAssinatura,
    AnaliseCredito, AgValidacao, ValidacaoPendente,
    PendenteInput, PendenteEstoque, PendenteAssinatura, PendenteInstalacao,
    AgPortabilidade, AgAutorizacaoSms, Logistica, ChamadoAberto,
    Ativo, Instalada, AgFaturamento,
    ReprovadoBko, ParaCorrecao, ReprovadoTrocaCarteira, CreditoReprovado, Cancelado]

  lemma GroupedOrderIsAllStatuses()
    ensures AllStatuses(STATUS_GROUPS) == GROUPED_ORDER
    ensures Distinct(GROUPED_ORDER) && |GROUPED_ORDER| == 22
  {
    GroupedOrderDistinct();
    AllStatusesUnfolds();
    GroupsConcatenate();
  }

  lemma AllStatusesUnfolds()
    ensures var G := STATUS_GROUPS;
      AllStatuses(G) == G[0].statuses + G[1].statuses + G[2].statuses + G[3].statuses + G[4].statuses + G[5].statuses
  {
    var G := STATUS_GROUPS;
    var a5 := AllStatuses(G[5..]);
    assert a5 == G[5].statuses by {
      assert G[5..][0] == G[5] && G[5..][1..] == [];
      assert AllStatuses(G[5..][1..]) == [];
    }
    var a4 := AllStatuses(G[4..]);
    assert a4 == G[4].statuses + a5 by { assert G[4..][1..] == G[5..]; }
    var a3 := AllStatuses(G[3..]);
    assert a3 == G[3].statuses + a4 by { assert G[3..][1..] == G[4..]; }
    var a2 := AllStatuses(G[2..]);
    assert a2 == G[2].statuses + a3 by { assert G[2..][1..] == G[3..]; }
    var a1 := AllStatuses(G[1..]);
    assert a1 == G[1].statuses + a2 by { assert G[1..][1..] == G[2..]; }
    assert AllStatuses(G) == G[0].statuses + a1;
  }

  lemma GroupsConcatenate()
    ensures var G := STATUS_GROUPS;
      G[0].statuses + G[1].statuses + G[2].statuses + G[3].statuses + G[4].statuses + G[5].statuses == GROUPED_ORDER
  {
  }

  /** The position of a status in `GROUPED_ORDER`. */
  function GroupedPosition(s: ProcessingStatus): nat {
    match s
    case TrocaCarteira => 0
    case GerarContrato => 1
    case AuditoriaAssinatura => 2
    case AnaliseCredito => 3
    case AgValidacao => 4
    case ValidacaoPendente => 5
    case PendenteInput => 6
    case PendenteEstoque => 7
    case PendenteAssinatura => 8
    case PendenteInstalacao => 9
    case AgPortabilidade => 10
    case AgAutorizacaoSms => 11
    case Logistica => 12
    case ChamadoAberto => 13
    case Ativo => 14
    case Instalada => 15
    case AgFaturamento => 16
    case ReprovadoBko => 17
    case ParaCorrecao => 18
    case ReprovadoTrocaCarteira => 19
    case CreditoReprovado => 20
    case Cancelado => 21
  }

  lemma GroupedOrderDistinct()
    ensures Distinct(GROUPED_ORDER) && |GROUPED_ORDER| == 22
  {
    forall i | 0 <= i < |GROUPED_ORDER| ensures GroupedPosition(GROUPED_ORDER[i]) == i {
    }
  }

  /** A status of group `g` is among `AllStatuses`. */
  lemma {:induction false} AllStatusesContains(groups: seq<StatusGroup>, g: nat, s: ProcessingStatus)
    requires g < |groups| && s in groups[g].statuses
    ensures s in AllStatuses(groups)
  {
    if g > 0 {
      assert groups[1..][g - 1] == groups[g];
      AllStatusesContains(groups[1..], g - 1, s);
    }
  }

  /** A status in two different groups would occur twice in `AllStatuses`. */
  lemma {:induction false} TwoGroupsTwice(groups: seq<StatusGroup>, g: nat, h: nat, s: ProcessingStatus)
    requires g < |groups| && h < |groups| && g != h
    requires s in groups[g].statuses && s in groups[h].statuses
    ensures !Distinct(AllStatuses(groups))
  {
    var all := AllStatuses(groups);
    assert all == groups[0].statuses + AllStatuses(groups[1..]);
    if g == 0 || h == 0 {
      var other := if g == 0 then h else g;
      assert groups[1..][other - 1] == groups[other];
      AllStatusesContains(groups[1..], other - 1, s);
      var i :| 0 <= i < |groups[0].statuses| && groups[0].statuses[i] == s;
      var j :| 0 <= j < |AllStatuses(groups[1..])| && AllStatuses(groups[1..])[j] == s;
      assert all[i] == s && all[|groups[0].statuses| + j] == s;
    } else {
      assert groups[1..][g - 1] == groups[g] && groups[1..][h - 1] == groups[h];
      TwoGroupsTwice(groups[1..], g - 1, h - 1, s);
      var rest := AllStatuses(groups[1..]);
      var i, j :| 0 <= i < j < |rest| && rest[i] == rest[j];
      var n := |groups[0].statuses|;
      assert all[n + i] == rest[i] && all[n + j] == rest[j];
    }
  }

  /* ---------------------------------------------------------------------- */
  /* Rendering                                                               */
  /* ---------------------------------------------------------------------- */

  /** The board's key: the processing status. */
  function ProcessingKey(p: Proposal): Option<ProcessingStatus> {
    p.processingStatus
  }

  /** `p.processing_status` is truthy. */
  predicate HasProcessing(p: Proposal) {
    p.processingStatus.Some?
  }

  predicate NonEmptyColumn(c: Column<ProcessingStatus>) {
    |c.cards| > 0
  }

  /** A rendered group: its definition and its non-empty columns. */
  datatype GroupView = GroupView(group: StatusGroup, columns: seq<Column<ProcessingStatus>>)

  /** `group.statuses.map(...)` with `if (columnProposals.length === 0) return null`. */
  function GroupColumns(ps: seq<Proposal>, g: StatusGroup): seq<Column<ProcessingStatus>> {
    Filter(Project(ps, ProcessingKey, g.statuses), NonEmptyColumn)
  }

  /** `if (groupProposals.length === 0) return null`: a group is drawn only
      when some proposal is in one of its statuses. */
  predicate GroupShown(ps: seq<Proposal>, g: StatusGroup) {
    |Filter(ps, OnBoard(ProcessingKey, g.statuses))| > 0
  }

  /** The drawn view of one group: its columns that hold a card. */
  function ShowGroup(ps: seq<Proposal>, g: StatusGroup): (v: GroupView)
    ensures v.group == g && v.columns == GroupColumns(ps, g)
  {
    GroupView(g, GroupColumns(ps, g))
  }

  /** `v` is the drawn view of a shown group among `groups`. */
  predicate DrawnFrom(ps: seq<Proposal>, groups: seq<StatusGroup>, v: GroupView) {
    v.group in groups && v.columns == GroupColumns(ps, v.group) && GroupShown(ps, v.group)
  }

  /** `statusGroups.map(...)`, dropping the groups that are not shown. */
  function RenderGroups(ps: seq<Proposal>, groups: seq<StatusGroup>): (views: seq<GroupView>)
    ensures |views| <= |groups|
    ensures forall i :: 0 <= i < |views| ==> DrawnFrom(ps, groups, views[i])
  {
    if |groups| == 0 then []
    else
      var rest := RenderGroups(ps, groups[1..]);
      DrawnFromWider(ps, groups, rest);
      if !GroupShown(ps, groups[0]) then rest
      else
        var views := [ShowGroup(ps, groups[0])] + rest;
        assert forall i :: 0 < i < |views| ==> views[i] == rest[i - 1];
        views
  }

  /** A view drawn from the tail of `groups` is drawn from `groups`. */
  lemma DrawnFromWider(ps: seq<Proposal>, groups: seq<StatusGroup>, rest: seq<GroupView>)
    requires |groups| > 0
    requires forall i :: 0 <= i < |rest| ==> DrawnFrom(ps, groups[1..], rest[i])
    ensures forall i :: 0 <= i < |rest| ==> DrawnFrom(ps, groups, rest[i])
  {
    assert forall g :: g in groups[1..] ==> g in groups;
  }

  /** The whole board. */
  function Render(ps: seq<Proposal>): seq<GroupView> {
    RenderGroups(ps, STATUS_GROUPS)
  }

  /** The rendered columns, group after group. */
  function FlatColumns(views: seq<GroupView>): seq<Column<ProcessingStatus>> {
    if |views| == 0 then [] else views[0].columns + FlatColumns(views[1..])
  }

  /** `proposals.filter(p => p.processing_status).length === 0`. */
  predicate ShowsEmptyMessage(ps: seq<Proposal>) {
    |Filter(ps, HasProcessing)| == 0
  }

  /** Every rendered group has at least one column and every rendered
      column at least one card; each column lies in its group and holds
      exactly the proposals in that status. */
  lemma RenderedAreNonEmpty(ps: seq<Proposal>)
    ensures forall i :: 0 <= i < |Render(ps)| ==> |Render(ps)[i].columns| > 0
    ensures forall i, j :: 0 <= i < |Render(ps)| && 0 <= j < |Render(ps)[i].columns| ==>
              |Render(ps)[i].columns[j].cards| > 0 &&
              Render(ps)[i].columns[j].status in Render(ps)[i].group.statuses &&
              Render(ps)[i].columns[j] == MakeColumn(ps, ProcessingKey, Render(ps)[i].columns[j].status)
  {
    var views := Render(ps);
    forall i | 0 <= i < |views| ensures |views[i].columns| > 0 {
      var g := views[i].group;
      var on := Filter(ps, OnBoard(ProcessingKey, g.statuses));
      FilterMembership(ps, OnBoard(ProcessingKey, g.statuses));
      assert on[0] in on;
      var p := on[0];
      var k :| 0 <= k < |g.statuses| && g.statuses[k] == p.processingStatus.value;
      ColumnSurvives(ps, g, k, p);
    }
    forall i, j | 0 <= i < |views| && 0 <= j < |views[i].columns|
      ensures |views[i].columns[j].cards| > 0
      ensures views[i].columns[j].status in views[i].group.statuses
      ensures views[i].columns[j] == MakeColumn(ps, ProcessingKey, views[i].columns[j].status)
    {
      GroupColumnsShape(ps, views[i].group);
      assert views[i].columns[j] in views[i].columns;
    }
  }

  /** The columns a group renders are non-empty columns of its own
      statuses. */
  lemma GroupColumnsShape(ps: seq<Proposal>, g: StatusGroup)
    ensures forall c :: c in GroupColumns(ps, g) <==>
              c in Project(ps, ProcessingKey, g.statuses) && |c.cards| > 0
    ensures forall c :: c in GroupColumns(ps, g) ==>
              c.status in g.statuses && c == MakeColumn(ps, ProcessingKey, c.status)
  {
    var cols := Project(ps, ProcessingKey, g.statuses);
    FilterMembership(cols, NonEmptyColumn);
    forall c | c in GroupColumns(ps, g)
      ensures c.status in g.statuses && c == MakeColumn(ps, ProcessingKey, c.status)
    {
      var k :| 0 <= k < |cols| && cols[k] == c;
    }
  }

  /** The column of status `g.statuses[k]` is rendered by group `g` once it
      holds a card. */
  lemma ColumnSurvives(ps: seq<Proposal>, g: StatusGroup, k: nat, p: Proposal)
    requires k < |g.statuses| && p in ps && p.processingStatus == Some(g.statuses[k])
    ensures MakeColumn(ps, ProcessingKey, g.statuses[k]) in GroupColumns(ps, g)
    ensures p in MakeColumn(ps, ProcessingKey, g.statuses[k]).cards
  {
    var cols := Project(ps, ProcessingKey, g.statuses);
    var c := MakeColumn(ps, ProcessingKey, g.statuses[k]);
    assert p in c.cards;
    assert cols[k] == c;
    GroupColumnsShape(ps, g);
  }

  /** The columns of `RenderGroups` are columns of `AllStatuses` in order. */
  lemma {:induction false} FlatStatusesSubsequence(ps: seq<Proposal>, groups: seq<StatusGroup>)
    ensures IsSubsequence(StatusesOf(FlatColumns(RenderGroups(ps, groups))), AllStatuses(groups))
  {
    if |groups| > 0 {
      FlatStatusesSubsequence(ps, groups[1..]);
      var g := groups[0];
      var rest := FlatColumns(RenderGroups(ps, groups[1..]));
      assert AllStatuses(groups) == g.statuses + AllStatuses(groups[1..]);
      if |Filter(ps, OnBoard(ProcessingKey, g.statuses))| == 0 {
        SubsequenceOfSuffix(StatusesOf(rest), g.statuses, AllStatuses(groups[1..]));
      } else {
        var views := RenderGroups(ps, groups);
        assert views == [GroupView(g, GroupColumns(ps, g))] + RenderGroups(ps, groups[1..]);
        assert views[1..] == RenderGroups(ps, groups[1..]);
        assert FlatColumns(views) == GroupColumns(ps, g) + rest;
        StatusesOfAppend(GroupColumns(ps, g), rest);
        FilterIsSubsequence(Project(ps, ProcessingKey, g.statuses), NonEmptyColumn);
        StatusesOfSubsequence(GroupColumns(ps, g), Project(ps, ProcessingKey, g.statuses));
        StatusesOfProject(ps, ProcessingKey, g.statuses);
        SubsequenceAppend(StatusesOf(GroupColumns(ps, g)), g.statuses, StatusesOf(rest), AllStatuses(groups[1..]));
      }
    }
  }

  /** Every column of status `s` that holds a card is rendered. */
  lemma {:induction false} NonEmptyColumnRendered(ps: seq<Proposal>, groups: seq<StatusGroup>, g: nat, k: nat, p: Proposal)
    requires g < |groups| && k < |groups[g].statuses|
    requires p in ps && p.processingStatus == Some(groups[g].statuses[k])
    ensures MakeColumn(ps, ProcessingKey, groups[g].statuses[k]) in FlatColumns(RenderGroups(ps, groups))
  {
    var views := RenderGroups(ps, groups);
    if g == 0 {
      FirstGroupColumnRendered(ps, groups, k, p);
    } else {
      assert groups[1..][g - 1] == groups[g];
      NonEmptyColumnRendered(ps, groups[1..], g - 1, k, p);
      var rest := RenderGroups(ps, groups[1..]);
      if |Filter(ps, OnBoard(ProcessingKey, groups[0].statuses))| > 0 {
        assert views == [GroupView(groups[0], GroupColumns(ps, groups[0]))] + rest;
        assert views[1..] == rest;
        assert FlatColumns(views) == GroupColumns(ps, groups[0]) + FlatColumns(rest);
      }
    }
  }

  /** The base case of `NonEmptyColumnRendered`: a column of the first group. */
  lemma FirstGroupColumnRendered(ps: seq<Proposal>, groups: seq<StatusGroup>, k: nat, p: Proposal)
    requires 0 < |groups| && k < |groups[0].statuses|
    requires p in ps && p.processingStatus == Some(groups[0].statuses[k])
    ensures MakeColumn(ps, ProcessingKey, groups[0].statuses[k]) in FlatColumns(RenderGroups(ps, groups))
  {
    var views := RenderGroups(ps, groups);
    var grp := groups[0];
    FilterMembership(ps, OnBoard(ProcessingKey, grp.statuses));
    assert OnBoard(ProcessingKey, grp.statuses)(p);
    assert p in Filter(ps, OnBoard(ProcessingKey, grp.statuses));
    assert views == [GroupView(grp, GroupColumns(ps, grp))] + RenderGroups(ps, groups[1..]);
    assert views[1..] == RenderGroups(ps, groups[1..]);
    assert FlatColumns(views) == GroupColumns(ps, grp) + FlatColumns(views[1..]);
    ColumnSurvives(ps, grp, k, p);
  }

  /** Every proposal with a processing status is on exactly one rendered
      column, the one of its status, inside the group that holds that
      status; a proposal without one is on none. */
  lemma PlacedInExactlyOneColumn(ps: seq<Proposal>, p: Proposal)
    requires p in ps
    ensures (exists k :: 0 <= k < |FlatColumns(Render(ps))| && p in FlatColumns(Render(ps))[k].cards) <==>
              p.processingStatus.Some?
    ensures forall k, l ::
              (0 <= k < |FlatColumns(Render(ps))| && 0 <= l < |FlatColumns(Render(ps))| &&
               p in FlatColumns(Render(ps))[k].cards && p in FlatColumns(Render(ps))[l].cards) ==> k == l
    ensures forall i, j ::
              (0 <= i < |Render(ps)| && 0 <= j < |Render(ps)[i].columns| &&
               p in Render(ps)[i].columns[j].cards) ==>
              p.processingStatus.Some? && Render(ps)[i].columns[j].status == p.processingStatus.value &&
              Render(ps)[i].group == STATUS_GROUPS[GroupIndex(p.processingStatus.value)]
  {
    RenderedPlacement(ps, p);
    RenderedColumnsDistinct(ps, p);
    RenderedInOwnGroup(ps, p);
  }

  /** A proposal is on some rendered column iff it has a processing status. */
  lemma RenderedPlacement(ps: seq<Proposal>, p: Proposal)
    requires p in ps
    ensures (exists k :: 0 <= k < |FlatColumns(Render(ps))| && p in FlatColumns(Render(ps))[k].cards) <==>
              p.processingStatus.Some?
  {
    RenderedOnlyWithStatus(ps, p);
    if p.processingStatus.Some? {
      RenderedWithStatus(ps, p);
    }
  }

  /** A card on a rendered column has that column's processing status. */
  lemma RenderedOnlyWithStatus(ps: seq<Proposal>, p: Proposal)
    ensures forall k :: 0 <= k < |FlatColumns(Render(ps))| && p in FlatColumns(Render(ps))[k].cards ==>
              p.processingStatus == Some(FlatColumns(Render(ps))[k].status)
  {
    var flat := FlatColumns(Render(ps));
    RenderedAreNonEmpty(ps);
    FlatColumnsShape(ps, Render(ps));
    forall k | 0 <= k < |flat| && p in flat[k].cards
      ensures p.processingStatus == Some(flat[k].status)
    {
      assert flat[k] == MakeColumn(ps, ProcessingKey, flat[k].status);
    }
  }

  /** A proposal with a processing status is on the rendered column of
      that status. */
  lemma RenderedWithStatus(ps: seq<Proposal>, p: Proposal)
    requires p in ps && p.processingStatus.Some?
    ensures exists k :: 0 <= k < |FlatColumns(Render(ps))| && p in FlatColumns(Render(ps))[k].cards
  {
    var flat := FlatColumns(Render(ps));
    var s := p.processingStatus.value;
    var g := GroupIndex(s);
    var k :| 0 <= k < |STATUS_GROUPS[g].statuses| && STATUS_GROUPS[g].statuses[k] == s;
    NonEmptyColumnRendered(ps, STATUS_GROUPS, g, k, p);
    var m :| 0 <= m < |flat| && flat[m] == MakeColumn(ps, ProcessingKey, s);
    assert p in flat[m].cards;
  }

  /** No two rendered cells hold the same proposal. */
  lemma RenderedColumnsDistinct(ps: seq<Proposal>, p: Proposal)
    ensures forall k, l ::
              (0 <= k < |FlatColumns(Render(ps))| && 0 <= l < |FlatColumns(Render(ps))| &&
               p in FlatColumns(Render(ps))[k].cards && p in FlatColumns(Render(ps))[l].cards) ==> k == l
  {
    var flat := FlatColumns(Render(ps));
    RenderedAreNonEmpty(ps);
    FlatColumnsShape(ps, Render(ps));
    GroupedOrderIsAllStatuses();
    FlatStatusesSubsequence(ps, STATUS_GROUPS);
    DistinctSubsequence(StatusesOf(flat), AllStatuses(STATUS_GROUPS));
    forall k, l | 0 <= k < |flat| && 0 <= l < |flat| && p in flat[k].cards && p in flat[l].cards
      ensures k == l
    {
      assert StatusesOf(flat)[k] == flat[k].status && StatusesOf(flat)[l] == flat[l].status;
    }
  }

  /** The rendered column holding a proposal is the one of its status, in
      the group of that status. */
  lemma RenderedInOwnGroup(ps: seq<Proposal>, p: Proposal)
    ensures forall i, j ::
              (0 <= i < |Render(ps)| && 0 <= j < |Render(ps)[i].columns| &&
               p in Render(ps)[i].columns[j].cards) ==>
              p.processingStatus.Some? && Render(ps)[i].columns[j].status == p.processingStatus.value &&
              Render(ps)[i].group == STATUS_GROUPS[GroupIndex(p.processingStatus.value)]
  {
    var views := Render(ps);
    RenderedAreNonEmpty(ps);
    GroupsPartition();
    forall i, j | 0 <= i < |views| && 0 <= j < |views[i].columns| && p in views[i].columns[j].cards
      ensures p.processingStatus.Some? && views[i].columns[j].status == p.processingStatus.value
      ensures views[i].group == STATUS_GROUPS[GroupIndex(p.processingStatus.value)]
    {
      var c := views[i].columns[j];
      assert c == MakeColumn(ps, ProcessingKey, c.status);
      assert p.processingStatus == Some(c.status);
      var gi :| 0 <= gi < |STATUS_GROUPS| && STATUS_GROUPS[gi] == views[i].group;
      assert c.status in STATUS_GROUPS[gi].statuses;
    }
  }

  /** Each rendered column is the column of its status. */
  lemma {:induction false} FlatColumnsShape(ps: seq<Proposal>, views: seq<GroupView>)
    requires forall i, j :: 0 <= i < |views| && 0 <= j < |views[i].columns| ==>
               views[i].columns[j] == MakeColumn(ps, ProcessingKey, views[i].columns[j].status)
    ensures forall k :: 0 <= k < |FlatColumns(views)| ==>
              FlatColumns(views)[k] == MakeColumn(ps, ProcessingKey, FlatColumns(views)[k].status)
  {
    if |views| > 0 {
      FlatColumnsShape(ps, views[1..]);
      var flat := FlatColumns(views);
      var n := |views[0].columns|;
      assert flat == views[0].columns + FlatColumns(views[1..]);
      forall k | 0 <= k < |flat|
        ensures flat[k] == MakeColumn(ps, ProcessingKey, flat[k].status)
      {
        if k < n {
          assert flat[k] == views[0].columns[k];
        } else {
          assert flat[k] == FlatColumns(views[1..])[k - n];
        }
      }
    }
  }

  /** The empty-board message is shown exactly when no group is rendered. */
  lemma EmptyMessageIffNothingRendered(ps: seq<Proposal>)
    ensures ShowsEmptyMessage(ps) <==> Render(ps) == []
  {
    FilterMembership(ps, HasProcessing);
    if ShowsEmptyMessage(ps) {
      NothingRendered(ps, STATUS_GROUPS);
    } else {
      var with := Filter(ps, HasProcessing);
      assert with[0] in with;
      var p := with[0];
      PlacedInExactlyOneColumn(ps, p);
    }
  }

  /** With no proposal in processing, no group is rendered. */
  lemma {:induction false} NothingRendered(ps: seq<Proposal>, groups: seq<StatusGroup>)
    requires forall p :: p in ps ==> !HasProcessing(p)
    ensures RenderGroups(ps, groups) == []
  {
    if |groups| > 0 {
      NothingRendered(ps, groups[1..]);
      var on := Filter(ps, OnBoard(ProcessingKey, groups[0].statuses));
      FilterMembership(ps, OnBoard(ProcessingKey, groups[0].statuses));
      if |on| > 0 {
        assert on[0] in on;
      }
    }
  }

  /* ---------------------------------------------------------------------- */
  /* Column helpers                                                          */
  /* ---------------------------------------------------------------------- */

  /** The statuses of some columns. */
  function StatusesOf(cols: seq<Column<ProcessingStatus>>): (r: seq<ProcessingStatus>)
    ensures |r| == |cols|
    ensures forall i :: 0 <= i < |cols| ==> r[i] == cols[i].status
  {
    if |cols| == 0 then [] else [cols[0].status] + StatusesOf(cols[1..])
  }

  lemma StatusesOfAppend(a: seq<Column<ProcessingStatus>>, b: seq<Column<ProcessingStatus>>)
    ensures StatusesOf(a + b) == StatusesOf(a) + StatusesOf(b)
  {
  }

  lemma StatusesOfProject(ps: seq<Proposal>, key: Proposal -> Option<ProcessingStatus>, statuses: seq<ProcessingStatus>)
    ensures StatusesOf(Project(ps, key, statuses)) == statuses
  {
  }

  lemma {:induction false} StatusesOfSubsequence(a: seq<Column<ProcessingStatus>>, b: seq<Column<ProcessingStatus>>)
    requires IsSubsequence(a, b)
    ensures IsSubsequence(StatusesOf(a), StatusesOf(b))
    decreases |b|
  {
    if |a| > 0 && |b| > 0 {
      assert StatusesOf(a)[1..] == StatusesOf(a[1..]) && StatusesOf(b)[1..] == StatusesOf(b[1..]);
      if a[0] == b[0] && IsSubsequence(a[1..], b[1..]) {
        StatusesOfSubsequence(a[1..], b[1..]);
      } else {
        StatusesOfSubsequence(a, b[1..]);
      }
    }
  }

  /** A subsequence of `b` is a subsequence of `c + b`. */
  lemma {:induction false} SubsequenceOfSuffix<T>(a: seq<T>, c: seq<T>, b: seq<T>)
    requires IsSubsequence(a, b)
    ensures IsSubsequence(a, c + b)
    decreases |c|
  {
    if |c| > 0 {
      SubsequenceOfSuffix(a, c[1..], b);
      assert (c + b)[1..] == c[1..] + b;
      assert IsSubsequence(a, (c + b)[1..]);
    } else {
      assert c + b == b;
    }
  }

  /** Subsequences concatenate. */
  lemma {:induction false} SubsequenceAppend<T>(a1: seq<T>, b1: seq<T>, a2: seq<T>, b2: seq<T>)
    requires IsSubsequence(a1, b1) && IsSubsequence(a2, b2)
    ensures IsSubsequence(a1 + a2, b1 + b2)
    decreases |b1|
  {
    if |b1| == 0 {
      assert |a1| == 0;
      assert a1 + a2 == a2 && b1 + b2 == b2;
    } else if |a1| == 0 {
      SubsequenceOfSuffix(a2, b1, b2);
      assert a1 + a2 == a2;
    } else {
      assert (b1 + b2)[1..] == b1[1..] + b2;
      if a1[0] == b1[0] && IsSubsequence(a1[1..], b1[1..]) {
        SubsequenceAppend(a1[1..], b1[1..], a2, b2);
        assert (a1 + a2)[1..] == a1[1..] + a2;
      } else {
        SubsequenceAppend(a1, b1[1..], a2, b2);
      }
    }
  }

  /** The elements of a subsequence occur in the sequence. */
  lemma {:induction false} SubsequenceMembers<T>(a: seq<T>, b: seq<T>)
    requires IsSubsequence(a, b)
    ensures forall x :: x in a ==> x in b
    decreases |b|
  {
    if |a| > 0 && |b| > 0 {
      if a[0] == b[0] && IsSubsequence(a[1..], b[1..]) {
        SubsequenceMembers(a[1..], b[1..]);
        assert a == [a[0]] + a[1..];
      } else {
        SubsequenceMembers(a, b[1..]);
      }
    }
  }

  /** A subsequence of a sequence without repeats has none either. */
  lemma {:induction false} DistinctSubsequence<T>(a: seq<T>, b: seq<T>)
    requires IsSubsequence(a, b) && Distinct(b)
    ensures Distinct(a)
    decreases |b|
  {
    if |a| > 0 && |b| > 0 {
      assert Distinct(b[1..]) by {
        forall i, j | 0 <= i < j < |b[1..]| ensures b[1..][i] != b[1..][j] {
          assert b[1..][i] == b[i + 1] && b[1..][j] == b[j + 1];
        }
      }
      if a[0] == b[0] && IsSubsequence(a[1..], b[1..]) {
        DistinctSubsequence(a[1..], b[1..]);
        SubsequenceMembers(a[1..], b[1..]);
        forall i, j | 0 <= i < j < |a| ensures a[i] != a[j] {
          if i == 0 {
            assert a[j] == a[1..][j - 1];
            assert a[j] in b[1..];
            var m :| 0 <= m < |b[1..]| && b[1..][m] == a[j];
            assert b[m + 1] == a[j];
          } else {
            assert a[i] == a[1..][i - 1] && a[j] == a[1..][j - 1];
          }
        }
      } else {
        DistinctSubsequence(a, b[1..]);
      }
    }
  }

  /* ---------------------------------------------------------------------- */
  /* Colours                                                                 */
  /* ---------------------------------------------------------------------- */

  const RED_BG: string := "bg-red-50 dark:bg-red-950/30"
  const GREEN_BG: string := "bg-green-50 dark:bg-green-950/30"
  const AMBER_BG: string := "bg-amber-50 dark:bg-amber-950/30"
  const MUTED_BG: string := "bg-muted/50"

  /** `getColumnBgColor`: three checks in order, on the status's wire name. */
  function ColumnBgColor(s: ProcessingStatus): string {
    if Contains(s.Name(), "reprovado") || s == Cancelado || s == CreditoReprovado then RED_BG
    else if s == Ativo || s == Instalada then GREEN_BG
    else if Contains(s.Name(), "pendente") then AMBER_BG
    else MUTED_BG
  }

  /** The four backgrounds a processing column can have. */
  datatype Tone = Red | Green | Amber | Muted

  function ToneClass(t: Tone): string {
    match t
    case Red => RED_BG
    case Green => GREEN_BG
    case Amber => AMBER_BG
    case Muted => MUTED_BG
  }

  /** The intended colour of each status, listed by hand. */
  function ToneOf(s: ProcessingStatus): Tone {
    match s
    case ReprovadoBko | ReprovadoTrocaCarteira | CreditoReprovado | Cancelado => Red
    case Ativo | Instalada => Green
    case PendenteInput | PendenteEstoque | PendenteAssinatura | PendenteInstalacao | ValidacaoPendente => Amber
    case _ => Muted
  }

  /** The substring tests of `getColumnBgColor` agree with the hand-made
      table: red exactly for the four rejection/cancellation statuses,
      green for the two completed ones, amber for the five whose name
      contains `pendente` (`validacao_pendente` included) and muted for the
      other eleven. */
  lemma ColumnBgColorMatchesTable(s: ProcessingStatus)
    ensures ColumnBgColor(s) == ToneClass(ToneOf(s))
  {
    match ToneOf(s)
    case Red => RedColumns(s);
    case Green => GreenColumns(s);
    case Amber => AmberColumns(s);
    case Muted => MutedColumns(s);
  }

  lemma RedColumns(s: ProcessingStatus)
    requires ToneOf(s) == Red
    ensures ColumnBgColor(s) == RED_BG
  {
    match s
    case ReprovadoBko => RedByOffset(s, 0);
    case ReprovadoTrocaCarteira => RedByOffset(s, 0);
    case CreditoReprovado =>
    case Cancelado =>
  }

  lemma GreenColumns(s: ProcessingStatus)
    requires ToneOf(s) == Green
    ensures ColumnBgColor(s) == GREEN_BG
  {
    match s
    case Ativo => GreenByMissingChar(s, 0);
    case Instalada => GreenByMissingChar(s, 5);
  }

  lemma AmberColumns(s: ProcessingStatus)
    requires ToneOf(s) == Amber
    ensures ColumnBgColor(s) == AMBER_BG
  {
    if s == ValidacaoPendente {
      AmberValidacaoPendente();
    } else {
      AmberPendentePrefixed(s);
    }
  }

  lemma AmberValidacaoPendente()
    ensures ColumnBgColor(ValidacaoPendente) == AMBER_BG
  {
    var name := ValidacaoPendente.Name();
    assert name == "validacao_pendente";
    assert name[10..18] == "pendente";
    AmberByOffset(ValidacaoPendente, 0, 10);
  }

  lemma AmberPendentePrefixed(s: ProcessingStatus)
    requires s == PendenteInput || s == PendenteEstoque || s == PendenteAssinatura || s == PendenteInstalacao
    ensures ColumnBgColor(s) == AMBER_BG
  {
    AmberByOffset(s, 5, 0);
  }

  lemma MutedColumns(s: ProcessingStatus)
    requires ToneOf(s) == Muted
    ensures ColumnBgColor(s) == MUTED_BG
  {
    if s in {TrocaCarteira, GerarContrato, AuditoriaAssinatura, ChamadoAberto} {
      MutedEarlyColumns(s);
    } else if s in {Logistica, AgPortabilidade, AgAutorizacaoSms, AnaliseCredito} {
      MutedMiddleColumns(s);
    } else {
      MutedLateColumns(s);
    }
  }

  lemma MutedEarlyColumns(s: ProcessingStatus)
    requires s in {TrocaCarteira, GerarContrato, AuditoriaAssinatura, ChamadoAberto}
    ensures ColumnBgColor(s) == MUTED_BG
  {
    match s
    case TrocaCarteira => MutedByMissingChars(s, 5, 0);
    case GerarContrato => MutedByMissingChars(s, 5, 0);
    case AuditoriaAssinatura => MutedByMissingChars(s, 5, 0);
    case ChamadoAberto => MutedByMissingChars(s, 5, 0);
  }

  lemma MutedMiddleColumns(s: ProcessingStatus)
    requires s in {Logistica, AgPortabilidade, AgAutorizacaoSms, AnaliseCredito}
    ensures ColumnBgColor(s) == MUTED_BG
  {
    match s
    case Logistica => MutedByMissingChars(s, 5, 0);
    case AgPortabilidade => MutedByMissingChars(s, 5, 2);
    case AgAutorizacaoSms => MutedByMissingChars(s, 5, 0);
    case AnaliseCredito => MutedByMissingChars(s, 5, 0);
  }

  lemma MutedLateColumns(s: ProcessingStatus)
    requires s in {AgValidacao, ParaCorrecao, AgFaturamento}
    ensures ColumnBgColor(s) == MUTED_BG
  {
    match s
    case AgValidacao => MutedByMissingChars(s, 0, 0);
    case ParaCorrecao => MutedByMissingChars(s, 5, 2);
    case AgFaturamento => MutedByMissingChars(s, 5, 0);
  }

  /** A name with `reprovado` at offset `k` is red. */
  lemma RedByOffset(s: ProcessingStatus, k: nat)
    requires k + 9 <= |s.Name()| && s.Name()[k..k + 9] == "reprovado"
    ensures ColumnBgColor(s) == RED_BG
  {
    ContainsAt(s.Name(), "reprovado", k);
  }

  /** `ativo` / `instalada`, whose names lack the letter `reprovado[r]`. */
  lemma GreenByMissingChar(s: ProcessingStatus, r: nat)
    requires s == Ativo || s == Instalada
    requires r < 9 && forall i :: 0 <= i < |s.Name()| ==> s.Name()[i] != "reprovado"[r]
    ensures ColumnBgColor(s) == GREEN_BG
  {
    NotContainsMissingChar(s.Name(), "reprovado", r);
  }

  /** A name lacking the letter `reprovado[r]`, with `pendente` at offset `k`. */
  lemma AmberByOffset(s: ProcessingStatus, r: nat, k: nat)
    requires s != Cancelado && s != CreditoReprovado && s != Ativo && s != Instalada
    requires r < 9 && forall i :: 0 <= i < |s.Name()| ==> s.Name()[i] != "reprovado"[r]
    requires k + 8 <= |s.Name()| && s.Name()[k..k + 8] == "pendente"
    ensures ColumnBgColor(s) == AMBER_BG
  {
    NotContainsMissingChar(s.Name(), "reprovado", r);
    ContainsAt(s.Name(), "pendente", k);
  }

  /** A name lacking the letters `reprovado[r]` and `pendente[p]`. */
  lemma MutedByMissingChars(s: ProcessingStatus, r: nat, p: nat)
    requires s != Cancelado && s != CreditoReprovado && s != Ativo && s != Instalada
    requires r < 9 && forall i :: 0 <= i < |s.Name()| ==> s.Name()[i] != "reprovado"[r]
    requires p < 8 && forall i :: 0 <= i < |s.Name()| ==> s.Name()[i] != "pendente"[p]
    ensures ColumnBgColor(s) == MUTED_BG
  {
    NotContainsMissingChar(s.Name(), "reprovado", r);
    NotContainsMissingChar(s.Name(), "pendente", p);
  }

  /** Each background belongs to one tone only. */
  lemma ToneClassInjective(t: Tone, u: Tone)
    ensures ToneClass(t) == ToneClass(u) <==> t == u
  {
    assert RED_BG[3] == 'r' && GREEN_BG[3] == 'g' && AMBER_BG[3] == 'a' && MUTED_BG[3] == 'm';
  }

  /** `getStatusColor`'s record, keyed by wire name. */
  const STATUS_COLORS: map<string, string> := map[
    "troca_carteira" := "border-t-blue-500",
    "gerar_contrato" := "border-t-indigo-500",
    "auditoria_assinatura" := "border-t-purple-500",
    "pendente_input" := "border-t-amber-500",
    "chamado_aberto" := "border-t-orange-500",
    "pendente_estoque" := "border-t-yellow-500",
    "ativo" := "border-t-emerald-500",
    "instalada" := "border-t-green-500",
    "logistica" := "border-t-teal-500",
    "pendente_instalacao" := "border-t-cyan-500",
    "ag_portabilidade" := "border-t-sky-500",
    "ag_autorizacao_sms" := "border-t-blue-400",
    "analise_credito" := "border-t-violet-500",
    "ag_validacao" := "border-t-fuchsia-500",
    "validacao_pendente" := "border-t-pink-500",
    "pendente_assinatura" := "border-t-rose-500",
    "reprovado_bko" := "border-t-red-500",
    "para_correcao" := "border-t-red-400",
    "reprovado_troca_carteira" := "border-t-red-600",
    "credito_reprovado" := "border-t-red-700",
    "cancelado" := "border-t-gray-500",
    "ag_faturamento" := "border-t-lime-500"]

  const FALLBACK_BORDER: string := "border-t-gray-400"

  /** `colors[status] || 'border-t-gray-400'`. */
  function BorderColor(key: string): string {
    if key in STATUS_COLORS then STATUS_COLORS[key] else FALLBACK_BORDER
  }

  /** The fallback colour is given exactly to keys outside the record, so
      no status of the union ever receives it. */
  lemma BorderFallbackOnlyForUnmapped(key: string)
    ensures BorderColor(key) == FALLBACK_BORDER <==> key !in STATUS_COLORS
    ensures forall s: ProcessingStatus :: s.Name() in STATUS_COLORS
  {
    forall v | v in STATUS_COLORS.Values ensures v != FALLBACK_BORDER {
      var k :| k in STATUS_COLORS && STATUS_COLORS[k] == v;
    }
    forall s: ProcessingStatus ensures s.Name() in STATUS_COLORS {
      match s
      case TrocaCarteira => case GerarContrato => case AuditoriaAssinatura =>
      case PendenteInput => case ChamadoAberto => case PendenteEstoque =>
      case Ativo => case Instalada => case Logistica => case PendenteInstalacao =>
      case AgPortabilidade => case AgAutorizacaoSms => case AnaliseCredito =>
      case AgValidacao => case ValidacaoPendente => case PendenteAssinatura =>
      case ReprovadoBko => case ParaCorrecao => case ReprovadoTrocaCarteira =>
      case CreditoReprovado => case Cancelado => case AgFaturamento =>
    }
    if key in STATUS_COLORS {
      assert STATUS_COLORS[key] in STATUS_COLORS.Values;
    }
  }

  /* ---------------------------------------------------------------------- */
  /* Drag and drop                                                           */
  /* ---------------------------------------------------------------------- */

  /** `handleDragStart`: the carried id, `""` when the drag is prevented. */
  function DragStart(canEdit: bool, p: Proposal): string {
    if !canEdit then "" else p.id
  }

  /** `handleDrop`: ignored without `canEdit`. */
  function Drop(canEdit: bool, hasHandler: bool, carried: string, status: ProcessingStatus): Call<ProcessingStatus> {
    if !canEdit then NoCall else Forward(hasHandler, carried, status)
  }

  /** Without `canEdit` no drop reaches `onStatusChange`, whatever it
      carries; with it, dragging a card onto a column asks exactly for
      that card to move there, given a handler and a non-empty id. */
  lemma EditGate(canEdit: bool, hasHandler: bool, carried: string, p: Proposal, status: ProcessingStatus)
    ensures !canEdit ==> Drop(canEdit, hasHandler, carried, status) == NoCall
    ensures Drop(canEdit, hasHandler, DragStart(canEdit, p), status).Change? <==>
              canEdit && hasHandler && |p.id| > 0
    ensures Drop(canEdit, hasHandler, DragStart(canEdit, p), status).Change? ==>
              Drop(canEdit, hasHandler, DragStart(canEdit, p), status) == Change(p.id, status)
  {
  }
}

=== FILE: sales_board.dfy ===
/** `SalesPipelineKanban`: three columns in `SALES_PIPELINE_ORDER` keyed by
    `sales_status`; a card already handed to the back office (sales status
    `enviado_bko` with a processing status) is locked; nothing moves without
    `canEdit`. */
module SalesBoard {
  import opened Common
  import opened Crm
  import opened Board

  /** The board's key: the sales status, `null` for proposals never put on
      the sales pipeline. */
  function SalesKey(p: Proposal): Option<SalesStatus> {
    p.salesStatus
  }

  /** The rendered columns, all three of them even when empty. */
  function Columns(ps: seq<Proposal>): (cols: seq<Column<SalesStatus>>)
    ensures |cols| == 3
    ensures cols[0].status == PropostaEnviada && cols[1].status == AgDocumentacao && cols[2].status == EnviadoBko
    ensures forall i :: 0 <= i < 3 ==> IsSubsequence(cols[i].cards, ps)
    ensures forall i, p :: 0 <= i < 3 && p in ps ==> (p in cols[i].cards <==> p.salesStatus == Some(cols[i].status))
    ensures forall i, p :: 0 <= i < 3 && p in cols[i].cards ==> p in ps
    ensures forall i :: 0 <= i < 3 ==> cols[i].total == Sum(cols[i].cards, TotalOrZero)
    ensures forall i :: 0 <= i < 3 && |cols[i].cards| == 0 ==> cols[i].total == 0.0
  {
    Project(ps, SalesKey, SALES_PIPELINE_ORDER)
  }

  /** `isLocked`: sent to the back office and already in processing. */
  predicate IsLocked(p: Proposal) {
    p.salesStatus == Some(EnviadoBko) && p.processingStatus.Some?
  }

  /** `draggable={canEdit && !isLocked}`. */
  predicate Draggable(canEdit: bool, p: Proposal) {
    canEdit && !IsLocked(p)
  }

  /** `handleDragStart`: the id put on the drag, `""` when the drag is
      prevented (nothing is stored, and `getData` then yields `""`). */
  function DragStart(canEdit: bool, p: Proposal): (carried: string)
    ensures carried == (if Draggable(canEdit, p) then p.id else "")
  {
    if !canEdit || IsLocked(p) then "" else p.id
  }

  /** `handleDrop`: ignored without `canEdit`. */
  function Drop(canEdit: bool, hasHandler: bool, carried: string, status: SalesStatus): (c: Call<SalesStatus>)
    ensures !canEdit ==> c == NoCall
    ensures canEdit ==> c == Forward(hasHandler, carried, status)
  {
    if !canEdit then NoCall else Forward(hasHandler, carried, status)
  }

  /** Dragging card `p` onto column `status`. */
  function Move(canEdit: bool, hasHandler: bool, p: Proposal, status: SalesStatus): Call<SalesStatus> {
    Drop(canEdit, hasHandler, DragStart(canEdit, p), status)
  }

  /** A drag-and-drop changes the sales status exactly when the user may
      edit, a handler is wired, the id is non-empty and the card is not
      both at `enviado_bko` and in processing; the call names that card
      and the target column. */
  lemma MoveIffUnlocked(canEdit: bool, hasHandler: bool, p: Proposal, status: SalesStatus)
    ensures Move(canEdit, hasHandler, p, status).Change? <==>
              canEdit && hasHandler && |p.id| > 0 &&
              !(p.salesStatus == Some(EnviadoBko) && p.processingStatus.Some?)
    ensures Move(canEdit, hasHandler, p, status).Change? ==>
              Move(canEdit, hasHandler, p, status) == Change(p.id, status)
  {
  }

  /** The three columns hold exactly the proposals that have a sales
      status: their counts add up to that number and their totals to those
      proposals' summed totals. */
  lemma ColumnsCoverSalesProposals(ps: seq<Proposal>)
    ensures CardCount(Columns(ps)) == |Filter(ps, (p: Proposal) => p.salesStatus.Some?)|
    ensures ValueTotal(Columns(ps)) == Sum(Filter(ps, (p: Proposal) => p.salesStatus.Some?), TotalOrZero)
  {
    SalesOrderExact();
    ProjectPartition(ps, SalesKey, SALES_PIPELINE_ORDER);
    forall i | 0 <= i < |ps|
      ensures OnBoard(SalesKey, SALES_PIPELINE_ORDER)(ps[i]) == ((p: Proposal) => p.salesStatus.Some?)(ps[i])
    {
    }
    FilterCongruent(ps, OnBoard(SalesKey, SALES_PIPELINE_ORDER), (p: Proposal) => p.salesStatus.Some?);
  }
}

=== FILE: settings.dfy ===
/** `Settings`: the profile form, the password form and the role shown on
    the profile card. */
module Settings {
  import opened Common
  import opened Crm
  import Db

  /** The password form's state: `currentPassword` (no input sets it), the
      new password and its confirmation (the card's two inputs). */
  datatype PasswordForm = PasswordForm(current: string, newPassword: string, confirm: string)

  const EMPTY_PASSWORDS: PasswordForm := PasswordForm("", "", "")
  const MIN_PASSWORD_LENGTH: nat := 6
  const PASSWORDS_DIFFER: string := "As senhas não coincidem"
  const PASSWORD_TOO_SHORT: string := "A nova senha deve ter pelo menos 6 caracteres"
  const PASSWORD_UPDATED: string := "Senha atualizada com sucesso!"
  const PASSWORD_ERROR_PREFIX: string := "Erro ao atualizar senha: "
  const PROFILE_UPDATED: string := "Perfil atualizado com sucesso!"
  const PROFILE_ERROR_PREFIX: string := "Erro ao atualizar perfil: "

  datatype Toast = NoToast | Success(message: string) | Error(message: string)

  /** The password sent to `auth.updateUser` (if any), the form afterwards
      and the toast. */
  datatype PasswordOutcome = PasswordOutcome(sent: Option<string>, form: PasswordForm, toast: Toast)

  /** `handleUpdatePassword`; `error` is what `updateUser` would return. */
  function HandleUpdatePassword(form: PasswordForm, error: Option<string>): (o: PasswordOutcome)
    ensures o.sent.Some? <==> form.newPassword == form.confirm && |form.newPassword| >= MIN_PASSWORD_LENGTH
    ensures o.sent.Some? ==> o.sent.value == form.newPassword
    ensures o.toast == Success(PASSWORD_UPDATED) <==> o.sent.Some? && error.None?
    ensures o.toast == Success(PASSWORD_UPDATED) ==> o.form == EMPTY_PASSWORDS
    ensures o.toast != Success(PASSWORD_UPDATED) ==> o.form == form
  {
    if form.newPassword != form.confirm then PasswordOutcome(None, form, Error(PASSWORDS_DIFFER))
    else if |form.newPassword| < MIN_PASSWORD_LENGTH then PasswordOutcome(None, form, Error(PASSWORD_TOO_SHORT))
    else match error
      case Some(m) => PasswordOutcome(Some(form.newPassword), form, Error(PASSWORD_ERROR_PREFIX + m))
      case None => PasswordOutcome(Some(form.newPassword), EMPTY_PASSWORDS, Success(PASSWORD_UPDATED))
  }

  /** The mismatch is reported before the length, whatever the length; a
      short matching password gets the length message; a valid one is sent,
      and on success every field is cleared. */
  lemma PasswordLadder(form: PasswordForm, error: Option<string>)
    ensures form.newPassword != form.confirm ==>
              HandleUpdatePassword(form, error) == PasswordOutcome(None, form, Error(PASSWORDS_DIFFER))
    ensures form.newPassword == form.confirm && |form.newPassword| < 6 ==>
              HandleUpdatePassword(form, error) == PasswordOutcome(None, form, Error(PASSWORD_TOO_SHORT))
    ensures form.newPassword == form.confirm && |form.newPassword| >= 6 && error.None? ==>
              HandleUpdatePassword(form, error).form == PasswordForm("", "", "")
    ensures form.newPassword == form.confirm && |form.newPassword| >= 6 && error.Some? ==>
              HandleUpdatePassword(form, error).form == form
  {
  }

  /** `currentPassword` is state with no input: it is cleared on success
      and never read, so the outcome does not depend on it. */
  lemma CurrentPasswordUnused(form: PasswordForm, current: string, error: Option<string>)
    ensures HandleUpdatePassword(form.(current := current), error).sent == HandleUpdatePassword(form, error).sent
    ensures HandleUpdatePassword(form.(current := current), error).toast == HandleUpdatePassword(form, error).toast
  {
  }

  /** The profile update: the row id and the single column written. */
  datatype ProfileUpdate = ProfileUpdate(id: string, fullName: string)

  datatype ProfileOutcome = ProfileOutcome(sent: Option<ProfileUpdate>, toast: Toast)

  /** `handleUpdateProfile`: nothing without a signed-in user; otherwise
      `full_name` of the user's own profile row. */
  function HandleUpdateProfile(userId: Option<string>, fullName: string, error: Option<string>): (o: ProfileOutcome)
    ensures userId.None? ==> o == ProfileOutcome(None, NoToast)
    ensures userId.Some? ==> o.sent == Some(ProfileUpdate(userId.value, fullName))
    ensures userId.Some? ==> (o.toast == Success(PROFILE_UPDATED) <==> error.None?)
  {
    match userId
    case None => ProfileOutcome(None, NoToast)
    case Some(id) =>
      var update := Some(ProfileUpdate(id, fullName));
      match error
      case None => ProfileOutcome(update, Success(PROFILE_UPDATED))
      case Some(m) => ProfileOutcome(update, Error(PROFILE_ERROR_PREFIX + m))
  }

  /** The update is sent before its answer is known: which write is
      attempted does not depend on the backend's error, only the toast does,
      and a failure's toast carries the backend's message. */
  lemma {:induction false} ProfileWriteIndependentOfError(userId: Option<string>, fullName: string,
                                                          e1: Option<string>, e2: Option<string>)
    ensures HandleUpdateProfile(userId, fullName, e1).sent == HandleUpdateProfile(userId, fullName, e2).sent
    ensures userId.Some? && e1.None? && e2.Some? ==>
              HandleUpdateProfile(userId, fullName, e1).toast != HandleUpdateProfile(userId, fullName, e2).toast
    ensures userId.Some? && e2.Some? ==>
              HandleUpdateProfile(userId, fullName, e2).toast == Error(PROFILE_ERROR_PREFIX + e2.value)
  {
    if userId.Some? && e2.Some? {
      var o := HandleUpdateProfile(userId, fullName, e2);
      assert o.toast != Success(PROFILE_UPDATED);
    }
  }

  /** The page's own `roleLabels`, keyed by `pos-venda` rather than by the
      role's stored name `post_sale`. */
  const ROLE_LABELS: map<string, string> := map[
    "manager" := "Gerente", "seller" := "Vendedor", "supervisor" := "Supervisor",
    "backoffice" := "Backoffice", "pos-venda" := "Pós-venda"]

  /** `roleLabels[role || ''] || role || '-'`. */
  function RoleLabel(role: Option<string>): (shown: string)
    ensures role.None? || role == Some("") ==> shown == "-"
    ensures role.Some? && role.value in ROLE_LABELS ==> shown == ROLE_LABELS[role.value]
    ensures role.Some? && role.value != "" && role.value !in ROLE_LABELS ==> shown == role.value
  {
    var key := role.GetOr("");
    if key in ROLE_LABELS && |ROLE_LABELS[key]| > 0 then ROLE_LABELS[key]
    else if |key| > 0 then key
    else "-"
  }

  /** Every label in the map is non-empty, so the `||` after the lookup
      only fires for a role with no key. */
  lemma LabelsNonEmpty()
    ensures forall k :: k in ROLE_LABELS ==> |ROLE_LABELS[k]| > 0
  {
  }

  /** The two roles a profile can hold get the page's labels; `post_sale`
      has no key and shows raw, and the manager's label here (`Gerente`)
      differs from the client label map's `Gestor`. */
  lemma RoleLabelCases()
    ensures RoleLabel(Some(Db.DbAppRole.DbManager.Name())) == "Gerente"
    ensures RoleLabel(Some(Db.DbAppRole.DbSeller.Name())) == "Vendedor"
    ensures RoleLabel(Some(PostSale.Name())) == "post_sale"
    ensures RoleLabel(Some(Manager.Name())) != APP_ROLE_LABELS[Manager]
  {
    assert "post_sale" != "pos-venda" by { assert "post_sale"[3] != "pos-venda"[3]; }
    assert "post_sale" !in ROLE_LABELS by {
      assert "post_sale"[0] == 'p' && "manager"[0] == 'm' && "seller"[0] == 's' && "supervisor"[0] == 's';
      assert "backoffice"[0] == 'b' && "post_sale"[1] == 'o' && "seller"[1] == 'e' && "supervisor"[1] == 'u';
    }
    assert "Gerente" != "Gestor" by { assert "Gerente"[2] != "Gestor"[2]; }
  }
}

=== FILE: status_change.dfy ===
/** The write side of the dashboard page (`Index`): `handleStatusChange` on
    the legacy board and `handleOperationalStatusChange` on the operational
    one, over an abstract database. Every write takes a success flag; only
    the status update's failure is checked by the page, the later writes'
    errors are ignored. */
module StatusChange {
  import opened Common
  import opened Crm
  import opened Db

  /** The four tables the handlers touch. */
  datatype Store = Store(
    proposals: seq<Proposal>,
    history: seq<HistoryInsert>,
    contracts: seq<ContractInsert>,
    companies: seq<Company>)

  /** The toast the page shows. */
  datatype Toast = NoToast | Success(title: string) | Failure(title: string)

  const STATUS_UPDATED: string := "Status atualizado!"
  const OPERATIONAL_UPDATED: string := "Status operacional atualizado!"
  const UPDATE_FAILED: string := "Erro ao atualizar status"

  /** Whether each of the four writes succeeds. */
  datatype Writes = Writes(updateOk: bool, historyOk: bool, contractOk: bool, companyOk: bool)

  function HasId(id: string): Proposal -> bool {
    (p: Proposal) => p.id == id
  }

  /** `proposals.find((p) => p.id === proposalId)` on the page's list. */
  function FindProposal(ps: seq<Proposal>, id: string): (r: Option<Proposal>)
    ensures r.None? <==> forall i :: 0 <= i < |ps| ==> ps[i].id != id
    ensures r.Some? ==> r.value in ps && r.value.id == id
    ensures r.Some? ==> exists i :: 0 <= i < |ps| && ps[i] == r.value &&
                          forall j :: 0 <= j < i ==> ps[j].id != id
  {
    FindFirst(ps, HasId(id))
  }

  /** `new Date().toISOString().split('T')[0]`: the text before the first
      `T`. */
  function DatePart(iso: string): (d: string)
    ensures IsPrefix(d, iso)
    ensures forall i :: 0 <= i < |d| ==> d[i] != 'T'
    ensures |d| < |iso| ==> iso[|d|] == 'T'
  {
    if |iso| == 0 || iso[0] == 'T' then ""
    else [iso[0]] + DatePart(iso[1..])
  }

  /** `update({ status }).eq('id', proposalId)`. */
  function SetStatus(ps: seq<Proposal>, id: string, s: ProposalStatus): (r: seq<Proposal>)
    ensures |r| == |ps|
    ensures forall i :: 0 <= i < |ps| ==> r[i] == if ps[i].id == id then ps[i].(status := s) else ps[i]
  {
    seq(|ps|, i requires 0 <= i < |ps| => if ps[i].id == id then ps[i].(status := s) else ps[i])
  }

  /** `update({ operational_status }).eq('id', proposalId)`. */
  function SetOperationalStatus(ps: seq<Proposal>, id: string, s: OperationalStatus): (r: seq<Proposal>)
    ensures |r| == |ps|
    ensures forall i :: 0 <= i < |ps| ==>
              r[i] == if ps[i].id == id then ps[i].(operationalStatus := Some(s)) else ps[i]
  {
    seq(|ps|, i requires 0 <= i < |ps| =>
      if ps[i].id == id then ps[i].(operationalStatus := Some(s)) else ps[i])
  }

  /** `companies.update({ status: 'active' }).eq('id', companyId)`. */
  function ActivateCompany(cs: seq<Company>, id: string): (r: seq<Company>)
    ensures |r| == |cs|
    ensures forall i :: 0 <= i < |cs| ==> r[i] == if cs[i].id == id then cs[i].(status := Active) else cs[i]
  {
    seq(|cs|, i requires 0 <= i < |cs| => if cs[i].id == id then cs[i].(status := Active) else cs[i])
  }

  /** The contract insert: refused by the unique index on `proposal_id`, or
      by any other failure, in which case the table is unchanged. */
  function AddContract(cs: seq<ContractInsert>, c: ContractInsert, ok: bool): seq<ContractInsert> {
    match InsertContract(cs, c)
    case Ok(r) => if ok then r else cs
    case Err(_) => cs
  }

  /** What happens after a successful status update: the history row, and
      for `signed` the contract and the company activation. */
  function AfterUpdate(db: Store, found: Proposal, id: string, target: ProposalStatus,
                       userId: Option<string>, today: string, w: Writes): Store
  {
    var history := if w.historyOk then db.history + [HistoryInsert(id, Some(found.status), target, userId)]
                   else db.history;
    if target != Signed then db.(history := history)
    else
      var contracts := AddContract(db.contracts, ContractInsert(id, DatePart(today), None, None), w.contractOk);
      var companies := if |found.companyId| > 0 && w.companyOk then ActivateCompany(db.companies, found.companyId)
                       else db.companies;
      db.(history := history, contracts := contracts, companies := companies)
  }

  /** `handleStatusChange(proposalId, newStatus)`: `shown` is the page's
      list, `userId` the signed-in user, `today` the ISO timestamp. */
  function HandleStatusChange(shown: seq<Proposal>, db: Store, id: string, target: ProposalStatus,
                              userId: Option<string>, today: string, w: Writes): (r: (Store, Toast))
    ensures FindProposal(shown, id).None? ==> r == (db, NoToast)
    ensures FindProposal(shown, id).Some? && !w.updateOk ==> r == (db, Failure(UPDATE_FAILED))
    ensures FindProposal(shown, id).Some? && w.updateOk ==> r.1 == Success(STATUS_UPDATED)
  {
    match FindProposal(shown, id)
    case None => (db, NoToast)
    case Some(found) =>
      if !w.updateOk then (db, Failure(UPDATE_FAILED))
      else
        var updated := db.(proposals := SetStatus(db.proposals, id, target));
        (AfterUpdate(updated, found, id, target, userId, today, w), Success(STATUS_UPDATED))
  }

  /** After a successful update every row of the proposal carries the new
      status and no other row changes; a history row recording the old and
      the new status and the user is appended when its insert succeeds. */
  lemma SuccessfulChange(shown: seq<Proposal>, db: Store, id: string, target: ProposalStatus,
                         userId: Option<string>, today: string, w: Writes)
    requires FindProposal(shown, id).Some? && w.updateOk
    ensures var r := HandleStatusChange(shown, db, id, target, userId, today, w).0;
      |r.proposals| == |db.proposals| &&
      (forall i :: 0 <= i < |db.proposals| ==>
         (db.proposals[i].id == id ==> r.proposals[i] == db.proposals[i].(status := target)) &&
         (db.proposals[i].id != id ==> r.proposals[i] == db.proposals[i])) &&
      r.history == db.history +
        (if w.historyOk then [HistoryInsert(id, Some(FindProposal(shown, id).value.status), target, userId)] else [])
  {
  }

  /** Signing adds the proposal's contract, dated today, when the proposal
      has none yet, and activates its company; the relation between
      contracts and proposals stays one-to-one whatever the outcome. */
  lemma SigningAddsContract(shown: seq<Proposal>, db: Store, id: string,
                            userId: Option<string>, today: string, w: Writes)
    requires FindProposal(shown, id).Some? && w.updateOk
    requires ContractsOneToOne(db.contracts)
    ensures var r := HandleStatusChange(shown, db, id, Signed, userId, today, w).0;
      ContractsOneToOne(r.contracts) &&
      (w.contractOk && !HasContract(db.contracts, id) ==>
         r.contracts == db.contracts + [ContractInsert(id, DatePart(today), None, None)]) &&
      (HasContract(db.contracts, id) ==> r.contracts == db.contracts)
    ensures var r := HandleStatusChange(shown, db, id, Signed, userId, today, w).0;
      var company := FindProposal(shown, id).value.companyId;
      w.companyOk && |company| > 0 ==>
        forall i :: 0 <= i < |db.companies| && db.companies[i].id == company ==> r.companies[i].status == Active
  {
    InsertContractKeepsOneToOne(db.contracts, ContractInsert(id, DatePart(today), None, None));
  }

  /** Any target other than `signed` leaves contracts and companies alone. */
  lemma OtherTargetsWriteNoContract(shown: seq<Proposal>, db: Store, id: string, target: ProposalStatus,
                                    userId: Option<string>, today: string, w: Writes)
    requires target != Signed
    ensures HandleStatusChange(shown, db, id, target, userId, today, w).0.contracts == db.contracts
    ensures HandleStatusChange(shown, db, id, target, userId, today, w).0.companies == db.companies
  {
  }

  /** `handleOperationalStatusChange`: no lookup in the page's list; a
      failed update changes nothing. */
  function HandleOperationalStatusChange(db: Store, id: string, target: OperationalStatus, updateOk: bool): (r: (Store, Toast))
    ensures !updateOk ==> r == (db, Failure(UPDATE_FAILED))
    ensures updateOk ==> r.1 == Success(OPERATIONAL_UPDATED)
  {
    if !updateOk then (db, Failure(UPDATE_FAILED))
    else (db.(proposals := SetOperationalStatus(db.proposals, id, target)), Success(OPERATIONAL_UPDATED))
  }

  /** The operational change touches only `operational_status` of the rows
      with that id: every other field of every row, and every other table,
      is as before. */
  lemma OperationalChangeIsLocal(db: Store, id: string, target: OperationalStatus, updateOk: bool)
    ensures var r := HandleOperationalStatusChange(db, id, target, updateOk).0;
      r.history == db.history && r.contracts == db.contracts && r.companies == db.companies &&
      |r.proposals| == |db.proposals| &&
      forall i :: 0 <= i < |db.proposals| ==>
        r.proposals[i].(operationalStatus := db.proposals[i].operationalStatus) == db.proposals[i] &&
        (updateOk && db.proposals[i].id == id ==> r.proposals[i].operationalStatus == Some(target))
  {
  }
}

=== FILE: team.dfy ===
/** The team page: the role checkboxes of the create-user dialog, the
    join of profiles with their `user_roles` rows, the role badge lookup and
    the guard of `handleCreate`. */
module Team {
  import opened Common
  import opened Crm

  /* ---------------------------------------------------------------------- */
  /* Role options                                                            */
  /* ---------------------------------------------------------------------- */

  /** One entry of `ROLE_OPTIONS` (the icon is left out). */
  datatype RoleOption = RoleOption(value: string, caption: string, color: string)

  const ROLE_OPTIONS: seq<RoleOption> := [
    RoleOption("manager", "Gestor", "bg-purple-100 text-purple-800"),
    RoleOption("seller", "Vendedor", "bg-blue-100 text-blue-800"),
    RoleOption("supervisor", "Supervisor", "bg-amber-100 text-amber-800"),
    RoleOption("post_sale", "Pós-venda", "bg-green-100 text-green-800"),
    RoleOption("backoffice", "Backoffice", "bg-gray-100 text-gray-800")]

  const FALLBACK_COLOR: string := "bg-muted text-muted-foreground"

  function HasValue(role: string): RoleOption -> bool {
    (o: RoleOption) => o.value == role
  }

  /** `ROLE_OPTIONS.find((r) => r.value === role)`. */
  function FindOption(options: seq<RoleOption>, role: string): (r: Option<RoleOption>)
    ensures r.None? <==> forall i :: 0 <= i < |options| ==> options[i].value != role
    ensures r.Some? ==> r.value in options && r.value.value == role
    ensures r.Some? ==> exists i :: 0 <= i < |options| && options[i] == r.value &&
                          forall j :: 0 <= j < i ==> options[j].value != role
  {
    FindFirst(options, HasValue(role))
  }

  /** `getRoleInfo`: the badge of a role, `{ label: role, color: muted }`
      for a role with no option. */
  function GetRoleInfo(role: string): (info: RoleOption)
    ensures FindOption(ROLE_OPTIONS, role).Some? ==> info == FindOption(ROLE_OPTIONS, role).value
    ensures FindOption(ROLE_OPTIONS, role).None? ==> info.caption == role && info.color == FALLBACK_COLOR
  {
    match FindOption(ROLE_OPTIONS, role)
    case Some(o) => o
    case None => RoleOption(role, role, FALLBACK_COLOR)
  }

  /** Every client role has a checkbox, shown with that role's label from
      the shared label map, except `post_sale`, whose label differs from
      the map's `Pós-Venda` in the case of one letter. */
  lemma RoleBadge(r: AppRole)
    ensures GetRoleInfo(r.Name()).value == r.Name()
    ensures r in APP_ROLE_LABELS
    ensures r != PostSale ==> GetRoleInfo(r.Name()).caption == APP_ROLE_LABELS[r]
    ensures r == PostSale ==> GetRoleInfo(r.Name()).caption != APP_ROLE_LABELS[r]
  {
    if r == PostSale {
      PostSaleCaptionDiffers();
    } else {
      OptionAt(r);
      OptionUnique(r.Name(), OptionPosition(r));
      CaptionAgrees(r);
    }
  }

  /** Where each role's checkbox sits in `ROLE_OPTIONS`. */
  function OptionPosition(r: AppRole): nat {
    match r
    case Manager => 0
    case Seller => 1
    case Supervisor => 2
    case PostSale => 3
    case Backoffice => 4
  }

  lemma OptionAt(r: AppRole)
    ensures OptionPosition(r) < |ROLE_OPTIONS| && ROLE_OPTIONS[OptionPosition(r)].value == r.Name()
  {
  }

  lemma CaptionAgrees(r: AppRole)
    requires r != PostSale
    ensures ROLE_OPTIONS[OptionPosition(r)].caption == APP_ROLE_LABELS[r]
  {
  }

  lemma PostSaleCaptionDiffers()
    ensures GetRoleInfo("post_sale").value == "post_sale"
    ensures GetRoleInfo("post_sale").caption != APP_ROLE_LABELS[PostSale]
  {
    PostSaleOption();
    PostSaleLabel();
  }

  lemma PostSaleOption()
    ensures GetRoleInfo("post_sale") == RoleOption("post_sale", "Pós-venda", "bg-green-100 text-green-800")
  {
    OptionUnique("post_sale", 3);
  }

  lemma PostSaleLabel()
    ensures APP_ROLE_LABELS[PostSale] == "Pós-Venda" && "Pós-Venda" != "Pós-venda"
  {
    assert "Pós-venda"[4] == 'v' && "Pós-Venda"[4] == 'V';
  }

  /** The option values are pairwise distinct, so the option found for a
      value is the one at its position. */
  lemma OptionUnique(role: string, k: nat)
    requires k < |ROLE_OPTIONS| && ROLE_OPTIONS[k].value == role
    ensures FindOption(ROLE_OPTIONS, role) == Some(ROLE_OPTIONS[k])
  {
    var o := ROLE_OPTIONS;
    var r := FindOption(o, role);
    assert r.Some? by { assert o[k].value == role; }
    var i :| 0 <= i < |o| && o[i] == r.value;
    assert o[i].value == o[k].value;
    ValuesDistinct(i, k);
  }

  /** No two options share a value. */
  lemma ValuesDistinct(i: nat, k: nat)
    requires i < |ROLE_OPTIONS| && k < |ROLE_OPTIONS|
    requires ROLE_OPTIONS[i].value == ROLE_OPTIONS[k].value
    ensures i == k
  {
    var o := ROLE_OPTIONS;
    assert o[0].value[0] == 'm' && o[1].value[..2] == "se" && o[2].value[..2] == "su";
    assert o[3].value[0] == 'p' && o[4].value[0] == 'b';
  }

  /** A role string with no option, such as one outside the client union,
      is shown raw. */
  lemma UnknownRoleShownRaw(role: string)
    requires forall i :: 0 <= i < |ROLE_OPTIONS| ==> ROLE_OPTIONS[i].value != role
    ensures GetRoleInfo(role).caption == role && GetRoleInfo(role).color == FALLBACK_COLOR
  {
  }

  /* ---------------------------------------------------------------------- */
  /* The create-user form                                                    */
  /* ---------------------------------------------------------------------- */

  datatype TeamForm = TeamForm(email: string, password: string, fullName: string, roles: seq<string>)

  const EMPTY_FORM: TeamForm := TeamForm("", "", "", [])

  /** `(r) => r !== role`. */
  function IsOtherRole(role: string): string -> bool {
    r => r != role
  }

  /** `toggleRole`: remove every occurrence of a selected role, append one
      that is not selected. */
  function ToggleRole(form: TeamForm, role: string): (r: TeamForm)
    ensures role in r.roles <==> role !in form.roles
    ensures forall x :: x != role ==> (x in r.roles <==> x in form.roles)
    ensures role !in form.roles ==> r.roles == form.roles + [role]
    ensures role in form.roles ==> IsSubsequence(r.roles, form.roles)
    ensures r.email == form.email && r.password == form.password && r.fullName == form.fullName
  {
    FilterMembership(form.roles, IsOtherRole(role));
    FilterIsSubsequence(form.roles, IsOtherRole(role));
    if role in form.roles then form.(roles := Filter(form.roles, IsOtherRole(role)))
    else form.(roles := form.roles + [role])
  }

  /** Toggling a role twice restores which roles are selected; starting
      from an unselected role it restores the form exactly, order included. */
  lemma ToggleTwiceRestores(form: TeamForm, role: string)
    ensures forall x :: x in ToggleRole(ToggleRole(form, role), role).roles <==> x in form.roles
    ensures role !in form.roles ==> ToggleRole(ToggleRole(form, role), role) == form
  {
    if role !in form.roles {
      var f := IsOtherRole(role);
      FilterAppend(form.roles, [role], f);
      FilterKeepsAll(form.roles, f);
      FilterSingleton(role, f);
    }
  }

  /** Toggling keeps the selection free of repeats. */
  lemma {:induction false} ToggleKeepsDistinct(form: TeamForm, role: string)
    requires Distinct(form.roles)
    ensures Distinct(ToggleRole(form, role).roles)
  {
    if role in form.roles {
      FilterKeepsDistinct(form.roles, IsOtherRole(role));
    }
  }

  lemma {:induction false} FilterKeepsDistinct<T(!new)>(xs: seq<T>, f: T -> bool)
    requires Distinct(xs)
    ensures Distinct(Filter(xs, f))
  {
    if |xs| > 0 {
      assert Distinct(xs[1..]) by {
        forall i, j | 0 <= i < j < |xs[1..]| ensures xs[1..][i] != xs[1..][j] {
          assert xs[1..][i] == xs[i + 1] && xs[1..][j] == xs[j + 1];
        }
      }
      FilterKeepsDistinct(xs[1..], f);
      FilterMembership(xs[1..], f);
      var rest := Filter(xs[1..], f);
      if f(xs[0]) {
        assert xs[0] !in xs[1..] by {
          forall k | 0 <= k < |xs[1..]| ensures xs[1..][k] != xs[0] {
            assert xs[1..][k] == xs[k + 1];
          }
        }
        var r := [xs[0]] + rest;
        forall i, j | 0 <= i < j < |r| ensures r[i] != r[j] {
          if i == 0 {
            assert r[j] == rest[j - 1];
            assert rest[j - 1] in rest;
          } else {
            assert r[i] == rest[i - 1] && r[j] == rest[j - 1];
          }
        }
      }
    }
  }

  /** The body sent to the `create-user` function. */
  datatype CreateRequest = CreateRequest(email: string, password: string, fullName: string, roles: seq<string>)

  /** What `functions.invoke` came back with: a transport error, or data
      that may carry an `error` field. */
  datatype InvokeResponse = TransportError(message: string) | Data(error: Option<string>)

  /** The toast `handleCreate` shows. */
  datatype Toast = NoToast | Created | CreateFailed(description: string)

  const SELECT_A_ROLE: string := "Selecione ao menos um papel"

  /** The page state after `handleCreate`: the request sent (if any), the
      form, the toast and whether the dialog stays open. */
  datatype CreateOutcome = CreateOutcome(sent: Option<CreateRequest>, form: TeamForm, toast: Toast, dialogOpen: bool)

  /** Neither `response.error` nor a truthy `response.data?.error`: an
      empty error text counts as no error. */
  predicate InvokeSucceeded(response: InvokeResponse) {
    response.Data? && (response.error.None? || |response.error.value| == 0)
  }

  /** `handleCreate`; `response` is what the invocation would return. */
  function HandleCreate(form: TeamForm, response: InvokeResponse): (o: CreateOutcome)
    ensures |form.roles| == 0 ==> o == CreateOutcome(None, form, CreateFailed(SELECT_A_ROLE), true)
    ensures |form.roles| > 0 ==>
              o.sent == Some(CreateRequest(form.email, form.password, form.fullName, form.roles))
    ensures |form.roles| > 0 ==> (o.toast == Created <==> InvokeSucceeded(response))
    ensures o.toast == Created ==> o.form == EMPTY_FORM && !o.dialogOpen
    ensures o.toast != Created ==> o.form == form && o.dialogOpen
  {
    if |form.roles| == 0 then CreateOutcome(None, form, CreateFailed(SELECT_A_ROLE), true)
    else
      var request := Some(CreateRequest(form.email, form.password, form.fullName, form.roles));
      match response
      case TransportError(m) => CreateOutcome(request, form, CreateFailed(m), true)
      case Data(e) =>
        if e.Some? && |e.value| > 0 then CreateOutcome(request, form, CreateFailed(e.value), true)
        else CreateOutcome(request, EMPTY_FORM, Created, false)
  }

  /** A successful creation clears the role selection, so submitting the
      cleared form again is refused before anything is sent. */
  lemma CreatedFormNeedsRoleAgain(form: TeamForm, response: InvokeResponse, next: InvokeResponse)
    requires |form.roles| > 0 && InvokeSucceeded(response)
    ensures HandleCreate(HandleCreate(form, response).form, next).sent.None?
    ensures HandleCreate(HandleCreate(form, response).form, next).toast == CreateFailed(SELECT_A_ROLE)
  {
  }

  /* ---------------------------------------------------------------------- */
  /* Members and their roles                                                 */
  /* ---------------------------------------------------------------------- */

  datatype Profile = Profile(id: string, fullName: Option<string>, role: string, createdAt: Option<string>)

  datatype UserRoleRow = UserRoleRow(userId: string, role: string)

  datatype TeamMember = TeamMember(id: string, fullName: Option<string>, role: string,
                                   createdAt: Option<string>, roles: seq<string>)

  /** `userRoles.filter((r) => r.user_id === id).map((r) => r.role)`. */
  function RolesOf(rows: seq<UserRoleRow>, id: string): (roles: seq<string>)
    ensures |roles| <= |rows|
    ensures forall x :: x in roles <==> exists k :: 0 <= k < |rows| && rows[k].userId == id && rows[k].role == x
  {
    if |rows| == 0 then []
    else
      var rest := RolesOf(rows[1..], id);
      assert forall k :: 1 <= k < |rows| ==> rows[k] == rows[1..][k - 1];
      (if rows[0].userId == id then [rows[0].role] else []) + rest
  }

  /** `membersWithRoles`: one member per profile, in profile order. */
  function MembersWithRoles(profiles: seq<Profile>, rows: seq<UserRoleRow>): (ms: seq<TeamMember>)
    ensures |ms| == |profiles|
    ensures forall i :: 0 <= i < |ms| ==>
              ms[i].id == profiles[i].id && ms[i].fullName == profiles[i].fullName &&
              ms[i].role == profiles[i].role && ms[i].roles == RolesOf(rows, profiles[i].id)
  {
    seq(|profiles|, i requires 0 <= i < |profiles| =>
      TeamMember(profiles[i].id, profiles[i].fullName, profiles[i].role, profiles[i].createdAt,
                 RolesOf(rows, profiles[i].id)))
  }

  /** The number of `user_roles` rows of a user. */
  function RowCount(rows: seq<UserRoleRow>, id: string): nat {
    if |rows| == 0 then 0 else (if rows[0].userId == id then 1 else 0) + RowCount(rows[1..], id)
  }

  /** A member carries one role per row of theirs, in row order: the roles
      of a table split in two are those of the first part followed by
      those of the second. */
  lemma {:induction false} RolesOfSplit(a: seq<UserRoleRow>, b: seq<UserRoleRow>, id: string)
    ensures RolesOf(a + b, id) == RolesOf(a, id) + RolesOf(b, id)
    ensures |RolesOf(a, id)| == RowCount(a, id)
  {
    if |a| == 0 {
      assert a + b == b;
    } else {
      RolesOfSplit(a[1..], b, id);
      assert (a + b)[0] == a[0] && (a + b)[1..] == a[1..] + b;
      var head := if a[0].userId == id then [a[0].role] else [];
      assert RolesOf(a + b, id) == head + RolesOf(a[1..] + b, id);
      assert RolesOf(a, id) == head + RolesOf(a[1..], id);
    }
  }
}
